=== FILE: README.md ===
# Facial attendance system — a Dafny model of its logic

The system is a web front end for university attendance by face recognition.
Lecturers sign in, pick one of their courses on the dashboard, and run an
attendance session: the page starts the camera, asks the recognition backend
for a one-shot capture, and shows the students the backend reports, one
record per reported result (a student reported twice appears twice). The
page also holds a per-frame handler that logs each recognized student once,
but no control invokes it. Lecturers also browse their students, add
students to a course, export attendance records and reports as CSV, and
e-mail students. Administrators sign in, register students with live camera
samples or uploaded photos, create courses, assign lecturers to them, manage
lecturers, and read attendance summaries by course and department. A few
mock server routes stand in for parts of the backend: administrator and
lecturer sign-in, e-mail settings, an e-mail connection test and bulk
sending.

This project models that logic as pure Dafny functions over immutable
datatypes, one module per source file:

- The attendance-session log of the facial attendance page is a state record
  advanced by step functions. The one-shot batch path, which the "Start"
  button runs, replaces the log with the captured records. The per-frame
  handler, defined on the page but never invoked, would append a recognized
  student only once. The session is split at the awaited capture request: a begin
  step makes it active and starts the camera, and an answer step installs the
  captured records and ends it. Between the two the page offers only Stop,
  which releases the camera but does not cancel the capture, so the answer
  still fills the log. The Reset button is disabled during a session and
  clears the log afterwards. The session time is
  shown through `formatDuration`.
- The other pages contribute:
  - form validators;
  - list filters and aggregates, such as counts, sums, means and attendance
    bands;
  - normalizers that map backend records through JavaScript `||` fallback
    chains;
  - the authentication context and the route guard;
  - the mock route handlers;
  - CSV and file-name construction.

Shared modules:

- `Wrappers`: `Option`.
- `Js`: JavaScript truthiness, `||` and `String()` on the mixed values the
  pages read.
- `Text`: strings, trimming, splitting, joining and decimal digits.
- `Seqs`: filters, counts, sums and distinct values.
- `Csv`: the naive CSV join.
- `EmailPatterns`: the two e-mail regular expressions.
- `Registration`: what the two registration forms share.

Every backend answer is an input datatype: a request that threw, or an
answer with an ok flag and the parsed fields the page reads. Each page
handler is a function from the page state and that answer to the next page
state. Timers are ticks, the random outcome of a send is an oracle
`draw: nat -> bool`, and the clock is a parameter.

## Model

| member | source | states |
|---|---|---|
| FacialAttendance.RosterStats | app/lecturer/attendance/facial/page.tsx:127-131 | the enrolled count is the roster's length, and the Regular and Carryover counts together never exceed it |
| FacialAttendance.RosterStatsPartition | app/lecturer/attendance/facial/page.tsx:128-130 | when every student is Regular or Carryover, the two counts split the roster exactly |
| FacialAttendance.Load | app/lecturer/attendance/facial/page.tsx:88-151 | loading always ends; course data changes only on an OK answer for a non-empty course id and then names that course; an array body becomes the roster and its length the enrolled count; the log, session flag and camera are untouched |
| FacialAttendance.StartCamera | app/lecturer/attendance/facial/page.tsx:153-175 | the camera error is cleared when access is granted and set to the denial text otherwise; a stream is held afterwards iff access was granted or one was already held; nothing else changes |
| FacialAttendance.StopCamera | app/lecturer/attendance/facial/page.tsx:177-185 | no stream is held afterwards; without a stream nothing changes; only the stream flag ever changes |
| FacialAttendance.ProcessResult | app/lecturer/attendance/facial/page.tsx:203-259 | the per-frame handler, which no control of the page invokes: without a stream or course data nothing changes; otherwise the log grows by at most one record, at the end, exactly when a recognized student is not logged yet; an already-logged student leaves the log as it is and shows "(Already recorded)"; an unrecognized answer shows "Scanning for faces..." with strength 0; a missing frame or failed request changes only the processing flag; distinct student ids stay distinct |
| FacialAttendance.RunAppendOnly | app/lecturer/attendance/facial/page.tsx:235-238 | over any sequence of frames the old log stays a prefix of the new one, distinct ids stay distinct, and the camera and course data are unchanged |
| FacialAttendance.RunConcat | app/lecturer/attendance/facial/page.tsx:203-259 | for the uninvoked per-frame handler, processing two batches of frames one after the other is processing their concatenation |
| FacialAttendance.RunLogsSightings | app/lecturer/attendance/facial/page.tsx:224-239 | while the camera runs with course data loaded, every student recognized in any frame is in the log at the end |
| FacialAttendance.RunUnsightedAbsent | app/lecturer/attendance/facial/page.tsx:235-238 | a student who was not logged and is recognized in no frame is still not logged at the end |
| FacialAttendance.SightingThenRun | app/lecturer/attendance/facial/page.tsx:226-238 | the record made for a newly recognized student survives every later frame |
| FacialAttendance.FirstSightingRecorded | app/lecturer/attendance/facial/page.tsx:226-238 | a student's record is the one made at the first frame that recognized them (its time, name and confidence) |
| FacialAttendance.Confidence | app/lecturer/attendance/facial/page.tsx:293 | a non-zero distance d gives confidence 1 - d; a missing or zero distance gives 1 |
| FacialAttendance.CaptureRecords | app/lecturer/attendance/facial/page.tsx:287-294 | every record is built from a backend result that is recognized and has a truthy student id |
| FacialAttendance.CaptureRecordsCount | app/lecturer/attendance/facial/page.tsx:287-294 | there is exactly one record per such result, so none is dropped |
| FacialAttendance.CaptureRecordsConcat | app/lecturer/attendance/facial/page.tsx:287-294 | capturing joined result lists gives the joined records, so backend order is kept |
| FacialAttendance.CaptureKeepsDuplicates | app/lecturer/attendance/facial/page.tsx:287-295 | the batch path does not de-duplicate: a student reported twice is logged twice |
| FacialAttendance.BeginSession | app/lecturer/attendance/facial/page.tsx:261-268 | before the capture answers, the session is active and processing, the log and detection text are cleared, the start time recorded and the camera started; course data, duration and strength are kept |
| FacialAttendance.AnswerSession | app/lecturer/attendance/facial/page.tsx:270-319 | when the capture answers, an OK answer with the clicked render's course data replaces the log with the captured records and shows the completion text, otherwise the log is kept; the session always ends inactive and not processing, and the stale stop releases the stream only when one was held at the click; nothing else changes |
| FacialAttendance.StartSession | app/lecturer/attendance/facial/page.tsx:261-320 | a session without a Stop click, the begin step followed by the answer: the start time is recorded; the session ends inactive and not processing; the `finally` block's `stopCamera` sees the stream held when the session started, so a stream is held afterwards exactly when none was held before and the camera was granted; the log holds the captured records and shows "Session complete. Attendance captured." on an OK answer, and is left empty otherwise |
| FacialAttendance.Stop | app/lecturer/attendance/facial/page.tsx:322-326 | the session is inactive, not processing and the camera released; the log and everything else are kept |
| FacialAttendance.Reset | app/lecturer/attendance/facial/page.tsx:328-333 | the log, duration, detection text and strength are cleared and nothing else changes |
| FacialAttendance.StopButton | app/lecturer/attendance/facial/page.tsx:613-631 | the Stop control exists only during an active session, that is while the capture is awaited, where it stops; otherwise nothing happens |
| FacialAttendance.ResetButton | app/lecturer/attendance/facial/page.tsx:633-636 | the button does nothing during an active session and resets otherwise |
| FacialAttendance.AttendanceRate | app/lecturer/attendance/facial/page.tsx:341 | 0 without course data; with an empty roster the value is not finite (Infinity or NaN); otherwise rate × enrolled = 100 × logged |
| FacialAttendance.SessionLogsCapture | app/lecturer/attendance/facial/page.tsx:284-295 | with course data and an OK answer the log is exactly the captured records, one per recognized result, in backend order |
| FacialAttendance.FirstSessionLeavesCameraOn | app/lecturer/attendance/facial/page.tsx:177-185 | a first session with the camera granted ends with the stream still held; after it no control releases the camera (Stop is not offered, Reset leaves it on) until the next session's stale stop does |
| FacialAttendance.SessionStopReset | app/lecturer/attendance/facial/page.tsx:316-333 | once a session has ended the Stop control is gone and Reset is enabled and empties the log; during a session Stop keeps the log and Reset does nothing |
| FacialAttendance.StopDuringCapture | app/lecturer/attendance/facial/page.tsx:262-326 | while the capture is awaited the Stop control stops and releases the camera and Reset does nothing; the answer that follows leaves the same log and detection text as without the click, and the session ends inactive with the camera off |
| FacialAttendance.StoppedSessionLogsCapture | app/lecturer/attendance/facial/page.tsx:284-326 | a session stopped during the capture still logs exactly the captured records of an OK answer and reports the session complete |
| FacialAttendance.StopResetIdempotent | app/lecturer/attendance/facial/page.tsx:322-333 | stopping twice is stopping once, resetting twice is resetting once, and a reset after a stop leaves the session stopped |
| FacialAttendance.LoadedRateFinite | app/lecturer/attendance/facial/page.tsx:114-133 | after a non-empty roster loads, the rate is finite and the log is unchanged |
| FacialAttendance.RateAtMostFull | app/lecturer/attendance/facial/page.tsx:341 | a log of distinct roster students never shows more than 100% |
| Duration.FormatDuration | app/lib/utils.ts:18-22 | for a non-negative count the text has at least five characters with ':' third from the end |
| Duration.FieldsSplit | app/lib/utils.ts:19-20 | for a non-negative count, 60 × minutes + seconds is the count again, with seconds below 60 |
| Duration.FieldDigits | app/lib/utils.ts:21 | a padded field is at least two digits and reads back as its number; below 100 it is exactly two |
| Duration.FormatDurationRoundTrip | app/lib/utils.ts:18-22 | reading the text back (digits before ':' as minutes, the two after as seconds) gives the original count |
| Duration.FormatDurationShort | app/lib/utils.ts:18-22 | below 100 minutes the text is exactly `mm:ss` |
| Duration.JsRem | app/lib/utils.ts:20 | JavaScript's `%` with a positive divisor: Dafny's remainder for a non-negative dividend, and a remainder carrying the dividend's sign otherwise |
| EmailSendPage.Load | app/lecturer/email/send/page.tsx:66-146 | loading always ends; only an OK answer for a non-empty course id installs the data, selects every student and sets the default subject and the template message for that course and lecturer; otherwise nothing else changes |
| EmailSendPage.DefaultMessageNotBlank | app/lecturer/email/send/page.tsx:77-98 | the template message is never blank, whatever the course and lecturer |
| EmailSendPage.LoadThenSendAccepted | app/lecturer/email/send/page.tsx:66-183 | after a course with at least one student loads, "Send" passes both guards |
| EmailSendPage.DefaultSubjectNotBlank | app/lecturer/email/send/page.tsx:74-76 | the default subject is never blank, so it passes the send guard |
| EmailSendPage.AllIds | app/lecturer/email/send/page.tsx:129 | the selection after loading is every student's id, in roster order |
| EmailSendPage.Select | app/lecturer/email/send/page.tsx:148-154 | checking appends the id; unchecking removes every copy of it, keeps every other id in order, and changes nothing else |
| EmailSendPage.CheckTimesAppends | app/lecturer/email/send/page.tsx:149-150 | checking the same student several times appends that many copies |
| EmailSendPage.UncheckUndoesChecks | app/lecturer/email/send/page.tsx:148-154 | one uncheck after any number of checks of a student gives the same selection as unchecking at once |
| EmailSendPage.FilterOutRepeated | app/lecturer/email/send/page.tsx:152 | removing a student from copies of that student leaves nothing |
| EmailSendPage.SelectAll | app/lecturer/email/send/page.tsx:156-160 | with data loaded the selection becomes every student; without data nothing changes |
| EmailSendPage.DeselectAll | app/lecturer/email/send/page.tsx:162-164 | the selection becomes empty and nothing else changes |
| EmailSendPage.InitialStatuses | app/lecturer/email/send/page.tsx:190-197 | the i-th status is the "pending" status of the i-th course student whose id is selected: exactly one per such student however often the id is selected, in course order, and none for an id outside the course |
| EmailSendPage.Classify | app/lecturer/email/send/page.tsx:228 | "sent" iff the email is in the success list; "failed" iff it is only in the failure list; "pending" iff in neither |
| EmailSendPage.Reconcile | app/lecturer/email/send/page.tsx:222-232 | with student details and at least one list, one status per detail, in order, classified against the lists; otherwise the reply's own statuses, or none |
| EmailSendPage.ReconcileAsWritten | app/lecturer/email/send/page.tsx:222-232 | the code as written: whenever it produces statuses they are the reconciled ones, and with both lists present it always produces them |
| EmailSendPage.ReconcileMissingListThrows | app/lecturer/email/send/page.tsx:223-228 | a reply with details and only a failure list makes the code as written throw, where the reconciled statuses mark the student failed |
| EmailSendPage.CountsBounded | app/lecturer/email/send/page.tsx:237-238 | the toast's sent and failed counts add up to at most the number of statuses |
| EmailSendPage.SendEmails | app/lecturer/email/send/page.tsx:166-263 | the send handler with the corrected reconciliation: with no data, no selection or a blank subject or message nothing changes; otherwise sending ends, step 3 is reached iff the reply is OK (with the reconciled statuses), and a failure returns to step 1 with the pending statuses; selection, data, subject and message are kept |
| EmailSendPage.SendEmailsAsWritten | app/lecturer/email/send/page.tsx:185-259 | the handler as written: step 3 is reached iff the reply is OK and the reconciliation does not throw; otherwise it is back to step 1 with the pending statuses |
| EmailSendPage.SendEmailsAgreesUnlessThrown | app/lecturer/email/send/page.tsx:219-235 | the handler as written and the corrected one agree on every reply whose reconciliation does not throw |
| EmailSendPage.SendEmailsMissingListFallsBack | app/lecturer/email/send/page.tsx:223-259 | an OK reply with details and only a failure list sends the page as written back to step 1, while the corrected page shows the report |
| EmailSendPage.SelectAllForgetsEdits | app/lecturer/email/send/page.tsx:148-164 | with data loaded, "Select all" after a check, an uncheck or "Deselect all" gives the same selection as before the edit |
| EmailSendPage.ResetAfterSendAccepted | app/lecturer/email/send/page.tsx:265-272 | after loading a course with students and any send, "Send another" returns to step 1 with every student selected and a page that may send again |
| EmailSendPage.LoadThenSendReports | app/lecturer/email/send/page.tsx:219-235 | after loading a course with students, an OK reply reaches step 3 with the reconciled statuses |
| EmailSendPage.ResetForm | app/lecturer/email/send/page.tsx:265-272 | back to step 1, not complete, no statuses; with data loaded every student is selected again |
| EmailSendRoute.CourseStudents | app/api/lecturer/email/send/route.ts:4-48 | course "2" has the three fixture students, Wesley first; any other non-inherited key except "3" has none |
| EmailSendRoute.Attempt | app/api/lecturer/email/send/route.ts:59-67 | an attempt copies the student's id, name and email; success means "sent" without error, failure "failed" with "SMTP connection failed" |
| EmailSendRoute.Attempts | app/api/lecturer/email/send/route.ts:54-68 | one status per selected student, in order, the i-th decided by the i-th draw |
| EmailSendRoute.Post | app/api/lecturer/email/send/route.ts:43-82 | a malformed body, and every other failure, answers 500 "Failed to send emails"; a parsed body with a selection list always answers; every status is either "sent" without error or "failed" with the SMTP error; attempted is the number of statuses, at most the course's students |
| EmailSendRoute.UnknownCourseSendsNothing | app/api/lecturer/email/send/route.ts:48 | a course missing from the table answers with no statuses and a zero summary |
| EmailSendRoute.PostFollowsCourseOrder | app/api/lecturer/email/send/route.ts:48-68 | the statuses are exactly the selected course students, one each, in course order |
| EmailSendRoute.SummaryAddsUp | app/api/lecturer/email/send/route.ts:73-77 | sent + failed = attempted |
| AdminCourses.CourseCreated | app/admin/courses/page.tsx:105-107 | the new course is added at the end of the list, earlier courses unchanged, and the view tab opens |
| AdminCourses.ReplaceById | app/admin/courses/page.tsx:115 | every course whose id matches becomes the updated course; every other course is kept at its position |
| AdminCourses.CourseAssigned | app/admin/courses/page.tsx:114-116 | the list is replaced by id and the view tab opens; lecturers and loading are kept |
| AdminCourses.ReplaceByIdOverrides | app/admin/courses/page.tsx:115 | a second assignment to the same id overrides the first |
| AdminCourses.ReplaceByIdKeepsIds | app/admin/courses/page.tsx:115 | assigning never changes the ids of the list |
| AdminCourses.ComputeStats | app/admin/courses/page.tsx:123-131 | total is the number of courses; assigned counts the courses with a truthy lecturer id and unassigned the rest, so the two add up to the total; sessions is the number of distinct session values, at most the total; the student total sums each course's count read as 0 when missing; the average is 0 for no courses and otherwise the total students divided by the courses, rounded to nearest |
| AdminCourses.StatsStudentBounds | app/admin/courses/page.tsx:128-130 | with non-negative counts the total is non-negative and the average lies between 0 and the total |
| AdminCourses.Username | app/admin/courses/page.tsx:136 | the first non-empty of username, full name and email, else "unknown"; never empty |
| AdminCourses.NormalizeLecturer | app/admin/courses/page.tsx:134-137 | only the username changes, to the fallback chain's result |
| AdminCourses.NormalizeLecturerIdempotent | components/admin/assign-course-form.tsx:56-59 | the form's second username fallback over lecturers the page already normalized changes nothing |
| AdminCourses.NormalizedLecturers | app/admin/courses/page.tsx:134-137 | every lecturer normalized, in order |
| AdminCourses.NormalizeCourse | app/admin/courses/page.tsx:140-149 | an assigned id (non-blank string other than "null", or positive number) becomes its string form, else undefined; the name is kept as a string only for an assigned course with a truthy name; no other field changes |
| AdminCourses.NormalizedCourses | app/admin/courses/page.tsx:140-149 | every course normalized, in order |
| AdminCourses.NormalizedTruthiness | app/admin/courses/page.tsx:143-147 | after normalization a course has a truthy lecturer id exactly when the raw id passed the assignment test |
| AdminCourses.CreatedCourseCounted | app/admin/courses/page.tsx:105-131 | a created course adds one to the total and one to the assigned or the unassigned count, according to its lecturer id |
| AdminCourses.AssignedCourseShown | app/admin/courses/page.tsx:114-116 | an assignment keeps the list's length and ids, and shows the assigned course when its id was listed |
| AdminCourses.StatsCountRawNull | app/admin/courses/page.tsx:125-143 | a course whose lecturer id is the string "null" counts as assigned in the statistics but is unassigned once normalized |
| AssignCourseForm.OrOptNum | components/admin/assign-course-form.tsx:47-48 | a truthy (non-zero) first count is kept, otherwise the second is taken |
| AssignCourseForm.Normalize | components/admin/assign-course-form.tsx:40-49 | id and session are copied; every other field is the snake_case value when truthy, else the camelCase one; the result has a truthy lecturer id iff either spelling had one |
| AssignCourseForm.NormalizeAll | components/admin/assign-course-form.tsx:40-49 | every course normalized, in order |
| AssignCourseForm.NormalizeSnakeCase | components/admin/assign-course-form.tsx:40-49 | a course handed over in snake_case with every field set comes out unchanged |
| AssignCourseForm.UnassignedCourses | components/admin/assign-course-form.tsx:52-54 | exactly the courses with a falsy or "null" lecturer id, in their original order |
| AssignCourseForm.BlankIdDisagrees | components/admin/assign-course-form.tsx:52-54 | a lecturer id of one space is unassigned for the course page, yet the form treats it as assigned and does not offer the course |
| AssignCourseForm.OfferedAgreesWithPage | components/admin/assign-course-form.tsx:52-54 | every course the form offers is unassigned by the course page's test too; a blank-string lecturer id is unassigned for the page but not offered by the form |
| AssignCourseForm.FailureMessage | components/admin/assign-course-form.tsx:99 | `detail`, else `error`, else "Failed to assign course"; never empty |
| AssignCourseForm.HandleAssign | components/admin/assign-course-form.tsx:68-106 | without both selections only the "select both" error is set and no request goes out; with both, the request assigns the selected lecturer's id to the selected course's id; the page is notified iff the request answers OK, and then with the answer's course and both selections cleared; otherwise the selections stay and the error is the network text or the failure message |
| AssignCourseForm.ClearSelection | components/admin/assign-course-form.tsx:244-252 | both selections and the error are cleared |
| AssignCourseForm.ClearedFormRefuses | components/admin/assign-course-form.tsx:68-76 | after "Clear Selection" the handler only asks for both selections, sends nothing and reports nothing |
| AssignCourseForm.ReportedCourseInstalled | components/admin/assign-course-form.tsx:88-92 | the course reported to the page is the answer's, and installing it keeps the list's length and ids and shows it when its id was listed |
| CourseList.Filtered | components/admin/course-list.tsx:27-41 | exactly the courses matching the case-insensitive search on name, code or lecturer name, the session filter and the assignment filter, in their original order |
| CourseList.DefaultFiltersShowAll | components/admin/course-list.tsx:23-41 | the initial filters (empty search, all sessions, all assignments) show every course |
| CourseList.AssignmentViewsPartition | components/admin/course-list.tsx:35-38 | for any search and session, the "assigned" and "unassigned" views together hold as many courses as "all" |
| CourseList.SessionOptions | components/admin/course-list.tsx:80 | every course's session appears once, nothing else appears, and there are no more options than courses |
| CourseList.Badge | components/admin/course-list.tsx:142 | two characters: the code's first two when it has at least two, else "--" |
| LecturerList.MapCourse | components/admin/lecturer-list.tsx:69-74 | the id is the first truthy of course code, code and name; code, name and semester follow their fallback chains to ""; a non-empty code is also the id |
| LecturerList.MapCourses | components/admin/lecturer-list.tsx:68-75 | a non-array course field gives no courses; an array maps course by course, in order |
| LecturerList.MapLecturer | components/admin/lecturer-list.tsx:62-76 | both ids are the string form of the backend id; the name is the first truthy of name, full name and username, else ""; the department falls back to "Unknown" and is never empty; the email falls back to "" |
| LecturerList.MapLecturers | components/admin/lecturer-list.tsx:62-76 | every lecturer mapped, in order |
| LecturerList.Fetched | components/admin/lecturer-list.tsx:49-85 | a failed or non-OK request gives an empty list; an OK array, or the `lecturers` field of an OK object, is mapped |
| LecturerList.Completed | components/admin/lecturer-list.tsx:96-102 | a kept lecturer's name becomes the username when it was empty; nothing else changes |
| LecturerList.SafeLecturers | components/admin/lecturer-list.tsx:93-103 | exactly the lecturers with a name or username, an email and a lecturer id are kept, each completed with a non-empty name |
| LecturerList.SafeLecturersIdempotent | components/admin/lecturer-list.tsx:93-103 | filtering an already safe list changes nothing |
| LecturerList.MappedSafety | components/admin/lecturer-list.tsx:62-95 | a mapped lecturer survives the safety filter iff it had a truthy name, full name or username, a truthy email and a non-empty id string; a missing id becomes the text "undefined", which passes |
| LecturerList.Departments | components/admin/lecturer-list.tsx:105 | each department of the list exactly once, and nothing else |
| LecturerList.Filtered | components/admin/lecturer-list.tsx:107-121 | exactly the lecturers matching the case-insensitive search on name, email or id, the department filter and the course filter, in their original order |
| LecturerList.DefaultFiltersShowAll | components/admin/lecturer-list.tsx:107-121 | the initial filters show every lecturer |
| LecturerList.CourseViewsPartition | components/admin/lecturer-list.tsx:116-118 | the "with-courses" and "no-courses" views together hold as many lecturers as "all" |
| LecturerList.CourseNoun | components/admin/lecturer-list.tsx:258 | "Course" for exactly one course, "Courses" otherwise |
| AdminLecturers.Fetched | app/admin/lecturers/page.tsx:38-61 | loading ends; a failed or non-OK request keeps the list; an OK array replaces it; an OK object gives its `lecturers` field, or an empty list |
| AdminLecturers.LecturerAdded | app/admin/lecturers/page.tsx:63-66 | the new lecturer is added at the end, earlier entries unchanged, and the view tab opens |
| AdminLecturers.ValidLecturers | app/admin/lecturers/page.tsx:73-75 | exactly the entries that are lecturers with a course array, in their original order |
| AdminLecturers.CourseCounts | app/admin/lecturers/page.tsx:85 | each valid lecturer's number of assigned courses, non-negative |
| AdminLecturers.TotalAssignments | app/admin/lecturers/page.tsx:85 | the sum of assigned courses is never negative |
| AdminLecturers.ComputeStats | app/admin/lecturers/page.tsx:77-89 | total counts the valid lecturers; with courses counts those holding at least one course and without courses the rest, so the two split the total; departments is the number of distinct departments among valid lecturers, at most the total; the average is the exact mean of assigned courses, 0 for no lecturers, never negative |
| AdminLecturers.AverageZeroIffNoCourses | app/admin/lecturers/page.tsx:79-88 | the average is 0 exactly when no valid lecturer has a course |
| AdminLecturers.WithCoursesWitness | app/admin/lecturers/page.tsx:79 | a positive "with courses" count names a lecturer with at least one course |
| AdminLecturers.DepartmentsCounted | app/admin/lecturers/page.tsx:81 | every valid lecturer's department is among the counted departments |
| EmailPatterns.AnchoredAtShape | app/lecturer/email/settings/page.tsx:71 | any split the anchored pattern accepts has the shape: no white space, one '@' with text before it, a '.' after it with text on both sides |
| EmailPatterns.ShapeAnchored | app/lecturer/email/settings/page.tsx:71 | every string of that shape is accepted by the anchored pattern |
| EmailPatterns.AnchoredEmailShape | app/lecturer/email/settings/page.tsx:71 | the anchored pattern accepts exactly the strings with no white space, exactly one '@' with text before it, and a '.' after the '@' that has text on both sides |
| EmailPatterns.AnchoredImpliesLoose | app/api/admin/login/route.ts:19 | every address the anchored pattern accepts, the unanchored pattern of the lecturer form accepts too |
| EmailPatterns.LooseAdmitsMore | components/admin/add-lecturer-form.tsx:71 | the unanchored pattern also accepts "a b@c.d" and "a@b@c.d", which the anchored one refuses |
| AddLecturerForm.EmailError | components/admin/add-lecturer-form.tsx:69-73 | a blank email is "Email is required"; a non-blank one the unanchored pattern refuses is "Please enter a valid email address"; no error iff neither |
| AddLecturerForm.PasswordError | components/admin/add-lecturer-form.tsx:74-78 | a blank password is required; a shorter one than 6 characters is too short; no error iff neither |
| AddLecturerForm.FieldError | components/admin/add-lecturer-form.tsx:57-68 | lecturer id and full name are required when blank after trimming, the department when empty; every message is non-empty |
| AddLecturerForm.Validate | components/admin/add-lecturer-form.tsx:57-81 | the error map holds exactly the fields with an error, each with its message |
| AddLecturerForm.ValidIff | components/admin/add-lecturer-form.tsx:57-81 | the form is valid iff id and name are non-blank, a department is chosen, the email is non-blank and matches, and the password is non-blank with at least 6 characters |
| AddLecturerForm.BlankEmailNeverMatches | components/admin/add-lecturer-form.tsx:69-72 | a blank email can never match the pattern, so the "required" check only fixes the message |
| AddLecturerForm.PaddedPasswordAccepted | components/admin/add-lecturer-form.tsx:74-76 | the length is checked on the untrimmed password, so five spaces and a letter pass |
| AddLecturerForm.Edit | components/admin/add-lecturer-form.tsx:141-147 | only the edited field changes; its error, when present, is blanked; other errors and the form error stay |
| AddLecturerForm.Clear | components/admin/add-lecturer-form.tsx:149-159 | every field, the field errors and the form error are cleared |
| AddLecturerForm.FailureMessage | components/admin/add-lecturer-form.tsx:132 | `detail`, else `error`, else "Failed to add lecturer"; never empty |
| AddLecturerForm.Submit | components/admin/add-lecturer-form.tsx:84-139 | a request is sent iff the form is valid, otherwise only the field errors are set; the request registers the full name as the username with the e-mail, the password and the role "lecturer", and sends neither the lecturer id nor the department; a lecturer is reported iff the request answers OK, built from the answer's id, username and email and the form's id and department with no courses, after which the form is cleared; failures keep the form and set the network or failure message |
| AddLecturerForm.AddedLecturerCounted | components/admin/add-lecturer-form.tsx:111-118 | a lecturer the form adds raises the lecturer page's total and its "without courses" count by one |
| CreateCourseForm.FieldError | components/admin/create-course-form.tsx:49-61 | code and name are required when blank after trimming, the session when none is chosen; every message is non-empty |
| CreateCourseForm.Validate | components/admin/create-course-form.tsx:49-64 | the error map holds exactly the fields with an error, each with its message |
| CreateCourseForm.ValidIff | components/admin/create-course-form.tsx:49-64 | the form is valid iff code and name are non-blank and a session is chosen |
| CreateCourseForm.Edit | components/admin/create-course-form.tsx:123-129 | only the edited field changes; its error, when present, is blanked; other errors and the form error stay |
| CreateCourseForm.Clear | components/admin/create-course-form.tsx:131-139 | every field, the field errors and the form error are cleared |
| CreateCourseForm.FailureMessage | components/admin/create-course-form.tsx:106-115 | a `detail` list gives its `msg` texts joined with "; "; a `detail` string is taken as is; otherwise a truthy `error`, else "Failed to create course" |
| CreateCourseForm.FailureMessageEmptyIff | components/admin/create-course-form.tsx:106-115 | the shown error is empty exactly for an empty `detail` string, an empty `detail` list, or a list of one empty or missing message |
| CreateCourseForm.CreatedCourseListed | components/admin/create-course-form.tsx:92-95 | an invalid form reports nothing; a reported course is appended to the page's list and counted in its total |
| CreateCourseForm.Submit | components/admin/create-course-form.tsx:66-121 | a request is sent iff the form is valid, otherwise only the field errors are set; the request carries the course code, name and session as typed, untrimmed; the answer's course is reported iff the request answers OK, after which the form is cleared; failures keep the form and set the network or failure message |
| Reports.BandOf | app/lecturer/reports/page.tsx:154-158 | good iff at least 75%, average iff from 50% up to but not including 75%, poor iff below 50% |
| Reports.Color | app/lecturer/reports/page.tsx:154-158 | the green, yellow and red classes follow the good, average and poor bands |
| Reports.Summarize | app/lecturer/reports/page.tsx:410-426 | the good, average and poor counts are the numbers of students at 75% and above, from 50% to below 75%, and below 50%, and they add up to the number of students |
| Reports.SummaryAgreesWithBands | app/lecturer/reports/page.tsx:410-426 | each count's filter keeps exactly the students whose percentage falls in that band, the same band the colour uses |
| Reports.Stamp | app/lecturer/reports/page.tsx:126-130 | the stamp has at most 19 characters and no ':' or '-' |
| Reports.StampOfIso | app/lecturer/reports/page.tsx:126-130 | for an ISO timestamp the stamp is its eight date digits, '_', and its six time digits: 15 characters |
| Reports.PrefixOfRender | app/lecturer/reports/page.tsx:128 | the first 19 characters of an ISO timestamp are its date and time to the second |
| Reports.KeepRender | app/lecturer/reports/page.tsx:129 | removing ':' and '-' from an ISO timestamp leaves the date digits, 'T' and the time digits |
| Reports.ExportName | app/lecturer/reports/page.tsx:126-130 | the file name starts with "attendance_report_" and is the course code, '_', the stamp and ".xlsx" in length |
| Reports.Export | app/lecturer/reports/page.tsx:104-135 | a file is named only when a report is loaded and the export request answers OK, and then with the course's code |
| Reports.ExportOfIso | app/lecturer/reports/page.tsx:126-130 | for a loaded report and an OK export at an ISO time, the file is `attendance_report_<code>_YYYYMMDD_HHMMSS.xlsx` |
| DetailedReport.Filtered | components/admin/detailed-attendance-report.tsx:33-45 | exactly the students matching the case-insensitive name or id search and the band filter, in their original order |
| DetailedReport.FilterAgreesWithColor | components/admin/detailed-attendance-report.tsx:39-51 | the "good", "average" and "poor" filters keep exactly the students in the band whose colour they are shown with |
| DetailedReport.BandsPartition | components/admin/detailed-attendance-report.tsx:39-43 | for any search, the three band views together hold as many students as "all" |
| DetailedReport.DefaultFiltersShowAll | components/admin/detailed-attendance-report.tsx:33-45 | the initial filters show every student |
| DetailedReport.StatusOn | components/admin/detailed-attendance-report.tsx:169-170 | a date without a record, or with an empty one, reads "Absent"; otherwise the recorded status; never empty |
| DetailedReport.Row | components/admin/detailed-attendance-report.tsx:125-130 | one status per report date, in date order |
| DetailedReport.NoRecordsAllAbsent | components/admin/detailed-attendance-report.tsx:128 | a student with no records is absent on every date |
| AttendanceSummary.MapCourseAsWritten | app/admin/attendance/summary/page.tsx:66-72 | the code as written: the id is the string form of `id`, else `course_id`, and the lecturer name is always missing, because it reads the misspelt `lecturer_ename` |
| AttendanceSummary.AsWrittenDropsLecturer | app/admin/attendance/summary/page.tsx:71 | a course the backend sends with lecturer "Dr. Tabi" is shown without a lecturer |
| AttendanceSummary.MapCourse | app/admin/attendance/summary/page.tsx:66-72 | the id is the first truthy of `id` and `course_id` as a string; code, name and session are copied; the lecturer name is the backend's `lecturer_name` |
| AttendanceSummary.MappingsDifferOnlyInLecturer | app/admin/attendance/summary/page.tsx:66-72 | the code as written and the corrected mapping agree on every field except the lecturer name |
| AttendanceSummary.MapCoursesAsWritten | app/admin/attendance/summary/page.tsx:66-72 | the list mapping as written: every course in order, none with a lecturer name |
| AttendanceSummary.MapCourses | app/admin/attendance/summary/page.tsx:66-72 | the corrected list mapping, reading `lecturer_name`: every course mapped, in order |
| AttendanceSummary.CoursesLoadedAsWritten | app/admin/attendance/summary/page.tsx:53-83 | the loader as written: a failed or non-OK request keeps the list; an OK array, or an OK object's `courses` array, is installed, and no installed course names a lecturer |
| AttendanceSummary.CoursesLoaded | app/admin/attendance/summary/page.tsx:53-83 | the corrected loader: the same guards, with each course's lecturer name taken from `lecturer_name` |
| AttendanceSummary.CoursesLoadedDifferOnlyInLecturer | app/admin/attendance/summary/page.tsx:66-72 | the loader as written and the corrected one install the same courses in the same order and differ only in the dropped lecturer names |
| AttendanceSummary.Percentages | app/admin/attendance/summary/page.tsx:102-104 | every student's attendance percentage, in order |
| AttendanceSummary.Max | app/admin/attendance/summary/page.tsx:103 | the result is one of the percentages and no percentage exceeds it |
| AttendanceSummary.Min | app/admin/attendance/summary/page.tsx:104 | the result is one of the percentages and none is below it |
| AttendanceSummary.Summarize | app/admin/attendance/summary/page.tsx:98-105 | the student count is the number of students; for no students the three figures are 0; otherwise the average times the count is the sum, and the highest and lowest are attained percentages bounding every student |
| AttendanceSummary.SumBetween | app/admin/attendance/summary/page.tsx:102 | a sum of n percentages lies between n times the least and n times the greatest |
| AttendanceSummary.MeanBetween | app/admin/attendance/summary/page.tsx:102 | a mean of values inside a range lies inside that range |
| AttendanceSummary.AverageBetweenExtremes | app/admin/attendance/summary/page.tsx:102-104 | the average lies between the lowest and the highest percentage |
| AttendanceSummary.MapStudents | app/admin/attendance/summary/page.tsx:106-114 | one report row per student, in order, with id, name, attended count and percentage and no per-date records |
| AttendanceSummary.SummaryLoaded | app/admin/attendance/summary/page.tsx:85-131 | loading ends; an OK answer installs the summary and the rows; a failure keeps both; courses, selection and report toggle are kept |
| AttendanceSummary.RowsAllAbsent | app/admin/attendance/summary/page.tsx:110 | since the rows carry no per-date records, the detailed report shows every student absent on every date |
| AttendanceSummary.Find | app/admin/attendance/summary/page.tsx:134 | no course iff none has the id; otherwise the first course with that id |
| AttendanceSummary.Select | app/admin/attendance/summary/page.tsx:133-140 | an unknown id changes nothing and requests nothing; a known one selects the first matching course, hides the detailed report and requests its summary |
| CourseStudents.MapStudent | app/lecturer/students/page.tsx:96-103 | the row id is the student id when truthy, else the position as text, and is never empty; the other text fields fall back to ""; a falsy level becomes ""; every student is "Regular" |
| CourseStudents.MapStudents | app/lecturer/students/page.tsx:96 | one row per backend student, in order, each mapped with its position |
| CourseStudents.Loaded | app/lecturer/students/page.tsx:80-104 | the course carries the address's id and the details' code, name and session (or "" each, without details); every student counts as regular and none as carryover |
| CourseStudents.StatsAgreeWithStudents | app/lecturer/students/page.tsx:91-102 | the total is the number of rows, the regular count is the number of Regular rows and the carryover count the number of others |
| CourseStudents.Filtered | app/lecturer/students/page.tsx:123-133 | without data nothing is listed; otherwise exactly the students matching the case-insensitive search and the type filter, in their original order |
| CourseStudents.CarryoverViewEmpty | app/lecturer/students/page.tsx:102-130 | since every loaded student is Regular, the carryover view is always empty |
| CourseStudents.Cells | app/lecturer/students/page.tsx:143-149 | five cells per student: id, name, department, level and type |
| CourseStudents.Rows | app/lecturer/students/page.tsx:143 | one cell row per student, in order |
| CourseStudents.HeaderPlain | app/lecturer/students/page.tsx:142 | no header cell holds a comma or a line break |
| CourseStudents.CsvRoundTrip | app/lecturer/students/page.tsx:142-152 | when no cell holds a comma or line break, the CSV splits back into the header cells and then every student's five cells, in order |
| CourseStudents.Export | app/lecturer/students/page.tsx:139-159 | a file is produced iff course data is loaded, holding the CSV of its students and named course code + "_students_" + the date part of the timestamp + ".csv" |
| AttendanceRecords.DataFetched | app/lecturer/attendance/records/page.tsx:59-82 | loading ends; an OK answer installs the data; a failure keeps the previous data; the selection is kept |
| AttendanceRecords.RecordsFetched | app/lecturer/attendance/records/page.tsx:84-109 | without a course or session id, or on a failed request, nothing changes; otherwise only the loaded data's records are replaced by the answer's, and no data stays no data |
| AttendanceRecords.SessionSelected | app/lecturer/attendance/records/page.tsx:111-114 | the chosen session id is recorded and the records are fetched; course and sessions are kept |
| AttendanceRecords.FindSession | app/lecturer/attendance/records/page.tsx:119 | no session iff none has the id; otherwise the first session with it |
| AttendanceRecords.Cells | app/lecturer/attendance/records/page.tsx:123-128 | four cells per record: id, name, time and status |
| AttendanceRecords.Rows | app/lecturer/attendance/records/page.tsx:123 | one cell row per record, in order |
| AttendanceRecords.HeaderPlain | app/lecturer/attendance/records/page.tsx:122 | no header cell holds a comma or a line break |
| AttendanceRecords.CsvRoundTrip | app/lecturer/attendance/records/page.tsx:122-131 | when no cell holds a comma or line break, the CSV splits back into the header cells and then every record's four cells, in order |
| AttendanceRecords.FileNameDigits | app/lecturer/attendance/records/page.tsx:138 | the file name is the course code, "_attendance_", the session date with every non-digit removed, and ".csv"; the stamp is digits only and no longer than the date |
| AttendanceRecords.Export | app/lecturer/attendance/records/page.tsx:116-140 | a file is produced iff records and a course are loaded and the selected session exists, holding the records' CSV and named after that session's date |
| AttendanceRecords.PresentCount | app/lecturer/attendance/records/page.tsx:392 | the present count is at most the number of records, and equal to it iff every record is present |
| Departments.TotalCounts | app/admin/students/departments/page.tsx:55 | each department's count, with a missing or zero count read as 0 |
| Departments.Fetched | app/admin/students/departments/page.tsx:44-73 | loading ends; a failed or non-OK request changes nothing else; an OK answer installs the departments and takes the backend's numeric total, else the sum of department counts when the departments are a list, else keeps the old total |
| Departments.SummedTotalBounds | app/admin/students/departments/page.tsx:55 | with non-negative counts the summed total is non-negative and at least every department's count |
| Departments.FilteredDepartments | app/admin/students/departments/page.tsx:75-86 | exactly the departments matching the department filter and having a student that matches the search (any department for an empty search), in their original order |
| Departments.FilteredStudentsOnePass | app/admin/students/departments/page.tsx:90-104 | the two-stage level-then-search filter is one filter by the conjunction: exactly the students matching both, in their original order |
| Departments.NoFiltersListAll | app/admin/students/departments/page.tsx:90-97 | with level "all" and no search every student is listed |
| Departments.ShownCardMatchesSearch | app/admin/students/departments/page.tsx:248-250 | a department card shown under a non-empty search has a student matching it |
| Departments.LevelInput | app/admin/students/departments/page.tsx:214 | clearing the level box selects "all"; any other text is taken as typed |
| Departments.LevelShown | app/admin/students/departments/page.tsx:213 | the box shows nothing for "all" and the level otherwise |
| Departments.LevelInputRoundTrip | app/admin/students/departments/page.tsx:213-214 | typed text reads back unchanged, except that typing "all" reads back empty; an empty box turns the level filter off |
| Departments.StudentLevels | app/admin/students/departments/page.tsx:222 | the level of every student of a department, in order |
| Departments.LevelsMembers | app/admin/students/departments/page.tsx:221-222 | a level is collected iff some department has a student with it |
| Departments.LevelSuggestions | app/admin/students/departments/page.tsx:219-226 | each suggestion appears once, and a level is suggested iff it is non-empty and held by a student of a department the department filter accepts |
| Departments.AveragePerDepartment | app/admin/students/departments/page.tsx:168 | 0 without departments; otherwise the total divided by the number of departments, rounded to nearest, and between 0 and the total for a non-negative total |
| DepartmentStudents.Normalize | components/admin/students-by-department-list.tsx:40-47 | id, name, email and department are copied; the student id is the first truthy of its three spellings, else ""; the level is the first truthy of its two spellings, else "" |
| DepartmentStudents.StudentsArray | components/admin/students-by-department-list.tsx:39 | an array body is taken as is; an object gives its `students` field, or nothing |
| DepartmentStudents.NormalizeAll | components/admin/students-by-department-list.tsx:40 | every student normalized, in order |
| DepartmentStudents.Fetched | components/admin/students-by-department-list.tsx:29-54 | loading ends; an OK answer installs the normalized students and clears the error; a non-OK answer shows "Failed to fetch students"; a thrown error shows its message, or "Unknown error"; on failure the list is kept |
| DepartmentStudents.Filtered | components/admin/students-by-department-list.tsx:76-84 | exactly the students of the department matching the case-insensitive search on name, id or email, in their original order |
| DepartmentStudents.EmptySearchListsDepartment | components/admin/students-by-department-list.tsx:76-84 | with an empty search every student of the department is listed |
| DepartmentStudents.Render | components/admin/students-by-department-list.tsx:86-103 | while loading, the loading text; otherwise the error iff there is one; otherwise the filtered list when it is non-empty, else the "no students" note |
| DepartmentStudents.LoadedDepartmentListed | components/admin/students-by-department-list.tsx:29-103 | after a successful load with no search, every fetched student of the department appears in the list |
| CameraRegistration.StartCapturing | components/admin/live-camera-registration.tsx:108-120 | without a camera stream nothing changes; with one a capture starts from zero samples, zero progress and no images; the sampling invariant is kept |
| CameraRegistration.Tick | components/admin/live-camera-registration.tsx:122-138 | a tick outside a capture changes nothing; during one the sample count rises by one, the progress is the count's share of ten in percent, the capture stops exactly when ten is reached, a produced frame is appended, and the sampling invariant is kept |
| CameraRegistration.Kept | components/admin/live-camera-registration.tsx:133-137 | only frames the canvas produced are kept, so never more frames than ticks and no empty frame |
| CameraRegistration.TicksFinish | components/admin/live-camera-registration.tsx:122-138 | a running capture given its remaining ticks ends stopped, with ten samples, progress 100, and the produced frames appended in order |
| CameraRegistration.CaptureRun | components/admin/live-camera-registration.tsx:108-138 | starting with a stream and running ten ticks captures exactly the produced frames, and a further tick changes nothing |
| CameraRegistration.MatchMime | components/admin/live-camera-registration.tsx:168 | the lazy match of `/:(.*?);/` never contains the ';' it stops at |
| CameraRegistration.FirstStop | components/admin/live-camera-registration.tsx:168 | the first ';' or line break, before which there is neither |
| CameraRegistration.MimeOf | components/admin/live-camera-registration.tsx:167-169 | a frame whose header has no match gets "image/jpeg" |
| CameraRegistration.MimeOfDataUrl | components/admin/live-camera-registration.tsx:167-169 | a base64 data URL yields exactly the MIME type written in its header |
| CameraRegistration.MimeDefault | components/admin/live-camera-registration.tsx:167-169 | a frame without any ':' falls back to "image/jpeg" |
| CameraRegistration.Samples | components/admin/live-camera-registration.tsx:166-177 | one sample per captured frame, in order, numbered from 1 and typed by the frame's header |
| CameraRegistration.Submit | components/admin/live-camera-registration.tsx:141-211 | a failed check sets its message and sends nothing; a request is sent exactly when the checks pass, with the five fields and one sample per frame; success reports the full name, clears the fields, samples and images and stops the camera; a failure shows the reply's text or the generic message; the sampling invariant is kept |
| CameraRegistration.FullCaptureSubmits | components/admin/live-camera-registration.tsx:108-156 | a complete capture in which every frame was produced passes the sample check, so a filled form with a numeric level is sent with ten samples |
| CameraRegistration.KeptAll | components/admin/live-camera-registration.tsx:133-137 | when every frame is produced all of them are kept |
| UploadRegistration.ImageFiles | components/admin/image-upload-registration.tsx:53-59 | exactly the chosen files whose type starts with "image/", in their order |
| UploadRegistration.FilesChosen | components/admin/image-upload-registration.tsx:48-72 | no files or no image files change nothing; otherwise the simulated upload starts at 0 with the image files pending; the installed images and the form are untouched |
| UploadRegistration.Tick | components/admin/image-upload-registration.tsx:74-83 | a tick outside an upload changes nothing; during one the progress rises by ten, and on reaching 100 the upload stops and the pending images replace the list, which is otherwise unchanged |
| UploadRegistration.TicksFinish | components/admin/image-upload-registration.tsx:74-83 | a running upload at a multiple of ten finishes after the remaining ticks at 100 with the pending images installed |
| UploadRegistration.UploadInstallsImages | components/admin/image-upload-registration.tsx:48-85 | choosing files with an image and waiting ten ticks installs exactly the image files in the order chosen |
| UploadRegistration.RemoveAt | components/admin/image-upload-registration.tsx:87-89 | an index inside the list drops that one image; any other index keeps the list |
| UploadRegistration.RemoveAtKeepsOthers | components/admin/image-upload-registration.tsx:87-89 | removal shortens the list by one and keeps the images before and after the index in order |
| UploadRegistration.Submit | components/admin/image-upload-registration.tsx:91-148 | a failed check sets its message and sends nothing; a request is sent exactly when the fields are filled, the level is numeric and an image is uploaded, carrying the five fields and the images; success reports the full name and clears the fields and images; a failure shows the reply's text or the generic message |
| UploadRegistration.RemovingLastImageBlocks | components/admin/image-upload-registration.tsx:87-107 | removing the only image of an otherwise valid form makes the next submit stop at the image check |
| Registration.FormData.Set | components/admin/image-upload-registration.tsx:44-46 | the edited field takes the new value and every other field keeps its value |
| Registration.LeadingDigits | components/admin/live-camera-registration.tsx:149 | the length of the leading digit run: all digits up to it, and a non-digit (or the end) right after |
| Registration.FractionAccepted | components/admin/live-camera-registration.tsx:149-152 | every fraction `digits.digits`, such as "2.5", passes the "integer" check |
| Registration.ExponentAccepted | components/admin/live-camera-registration.tsx:149-152 | every exponent form `digits e digits`, such as "1e3", passes the "integer" check |
| Registration.TrailingLetterRejected | components/admin/live-camera-registration.tsx:149-152 | digits followed by one lower-case letter, such as "5a", fail the check |
| Registration.WordRejected | components/admin/live-camera-registration.tsx:149-152 | every non-empty word of lower-case letters, such as "abc", fails the check |
| Registration.DigitsNumeric | components/admin/live-camera-registration.tsx:149-152 | any non-empty run of digits passes the check |
| Registration.Check | components/admin/live-camera-registration.tsx:145-156 | the first failing check in order: missing field, then non-numeric level, then too few images; no message exactly when all three pass |
| Registration.FailureMessage | components/admin/live-camera-registration.tsx:187-190 | never empty: the reply's text when it has one, else the generic failure message, which is also the message for a thrown request |
| Registration.BlankLevelPasses | components/admin/image-upload-registration.tsx:96-103 | a level of only spaces counts as filled and as numeric, so the checks let it through |
| EmailSettingsRoute.Get | app/api/lecturer/email/settings/route.ts:12-24 | null exactly while no e-mail is stored; otherwise the stored e-mail, server and port |
| EmailSettingsRoute.GetHidesPassword | app/api/lecturer/email/settings/route.ts:15-20 | GET's answer is the same whatever password is stored |
| EmailSettingsRoute.Post | app/api/lecturer/email/settings/route.ts:30-55 | an unreadable body gives the 500 and a missing e-mail or password the 400, both leaving the store; a save happens exactly when both are present, replacing the whole record for lecturer "1" with the server and port defaulted |
| EmailSettingsRoute.PostThenGet | app/api/lecturer/email/settings/route.ts:12-46 | after a successful save GET returns the posted e-mail with the server and port defaults applied, so a port of 0 reads back as 587 |
| EmailSettingsRoute.InitiallyEmpty | app/api/lecturer/email/settings/route.ts:4-10 | before any save GET answers null |
| EmailTestRoute.Post | app/api/lecturer/email/test/route.ts:3-27 | an e-mail without '@' gives "Invalid email address", then a password under six characters "Password too short", and a missing field or unreadable body the 500; the test succeeds exactly when the e-mail has an '@' and the password six characters |
| EmailTestRoute.ContainsAtChar | app/api/lecturer/email/test/route.ts:12 | `includes("@")` holds exactly when the character occurs |
| EmailTestRoute.SmtpFieldsIgnored | app/api/lecturer/email/test/route.ts:5-23 | the answer does not depend on the SMTP server or port |
| EmailSettingsPage.Load | app/lecturer/email/settings/page.tsx:37-58 | loading always ends; only an OK answer with settings replaces the form, with the password emptied and e-mail, server and port defaulted, and marks settings as existing; otherwise nothing else changes |
| EmailSettingsPage.Save | app/lecturer/email/settings/page.tsx:60-114 | a missing field and then an e-mail failing the anchored pattern stop before sending; otherwise the form is sent as it is; an OK answer marks settings as existing and clears only the password; a failure keeps the form and shows the answer's error or the generic message |
| EmailSettingsPage.SaveThenReload | app/lecturer/email/settings/page.tsx:37-114 | whatever the page saves passes the route's required-field check, and reloading afterwards shows the same e-mail, server and port with an empty password |
| EmailSettingsPage.Test | app/lecturer/email/settings/page.tsx:116-153 | the page state never changes; the form is sent exactly when e-mail and password are both filled; the toast is the success text, the route's error or the fallback, or the thrown-request text |
| EmailSettingsPage.TestAgainstRoute | app/lecturer/email/settings/page.tsx:116-153 | against the test route a filled form is confirmed exactly when the e-mail has an '@' and the password six characters, and otherwise shows the route's reason |
| EmailSettingsPage.SavableIsTestable | app/lecturer/email/settings/page.tsx:71-72 | an e-mail the save handler accepts always passes the test route's '@' check, so with a six-character password the test succeeds |
| AdminLogin.Credentials | app/api/admin/login/route.ts:4-7 | the configured address and password, each falling back to its default when unset or empty, so neither is ever empty |
| AdminLogin.Post | app/api/admin/login/route.ts:9-46 | an unreadable body gives the 500, a missing field the 400, an address failing the anchored pattern its own 400, and wrong credentials the 401; sign-in succeeds exactly when the well-formed address and the password equal the configured ones, answering the address, the admin role, the given time and the four permissions |
| AdminLogin.DefaultAdminSignsIn | app/api/admin/login/route.ts:4-38 | with neither variable set the default administrator signs in |
| AdminLogin.DefaultEmailWellFormed | app/api/admin/login/route.ts:5-20 | the default address passes the anchored e-mail pattern |
| AdminLogin.MalformedConfiguredEmailLocksOut | app/api/admin/login/route.ts:19-25 | when the configured address fails the pattern no request can sign in |
| LecturerLogin.Find | app/api/lecturer/login/route.ts:22 | none exactly when no listed lecturer has that e-mail and password; otherwise the first that does |
| LecturerLogin.WithoutPassword | app/api/lecturer/login/route.ts:26 | the returned lecturer keeps the id, e-mail, name and courses and carries no password |
| LecturerLogin.PostTo | app/api/lecturer/login/route.ts:3-38 | an unreadable body gives the 500; sign-in succeeds exactly when some listed lecturer matches both fields, answering the first match without its password; otherwise "Invalid credentials" with 401 |
| LecturerLogin.DrSopSignsIn | app/api/lecturer/login/route.ts:9-31 | the listed lecturer signs in with the listed password and gets back the name "Dr Sop" and both courses |
| LecturerLogin.WrongPasswordRefused | app/api/lecturer/login/route.ts:22-33 | any other password is refused with 401 even with the right e-mail |
| Auth.Restore | lib/auth-context.tsx:28-39 | loading always ends; a saved non-empty token together with a saved user restores both, and anything else leaves the state; the result is signed in exactly when it was before or both entries were saved |
| Auth.Stored | lib/auth-context.tsx:69 | a present value is stored as it is, a missing one as the text "undefined" |
| Auth.LoginAsWritten | lib/auth-context.tsx:41-77 | a failed request changes nothing and returns false; any OK answer returns true and installs a user with id 0, the answer's name and role and the given e-mail, the answer's token, and the same two entries in storage |
| Auth.AsWrittenMissingTokenDisagrees | lib/auth-context.tsx:55-72 | an OK answer without a token reports success while the page stays signed out, and a reload then signs in with the token "undefined" |
| Auth.Login | lib/auth-context.tsx:41-77 | as written, except that an answer without a non-empty token is a failure that changes nothing |
| Auth.LoginPersists | lib/auth-context.tsx:41-92 | the returned flag is true exactly for an OK answer with a token and then the page is signed in; a reload after success restores exactly that session; a failure leaves state and storage unchanged |
| Auth.Logout | lib/auth-context.tsx:79-84 | user and token are cleared in memory and in storage, so the page is signed out |
| Auth.LogoutIdempotent | lib/auth-context.tsx:28-84 | logging out twice is logging out once, and a reload after it restores nothing |
| ProtectedRoute.Guard | components/auth/protected-route.tsx:14-53 | the spinner shows exactly while loading, with no redirect; signed out goes to the given page or "/login"; a role outside a non-empty list goes to "/unauthorized"; the children show exactly when loaded, signed in and the role allowed or no list given, which is exactly when there is no redirect |
| ProtectedRoute.NoRolesAdmitsAll | components/auth/protected-route.tsx:16-52 | without a role list every signed-in user sees the children |
| ProtectedRoute.LogoutRedirects | components/auth/protected-route.tsx:22-27 | after a logout the guard redirects to the sign-in page |
| AddStudent.LoadCourse | app/lecturer/students/add/page.tsx:46-87 | loading always ends; no course in the address gives the dashboard hint; an OK answer installs the nested course or the body itself and clears the error; a refusal shows the answer's error or the fallback and a thrown request or null body the retry text, keeping the course; an error is shown exactly when no course was installed |
| AddStudent.Search | app/lecturer/students/add/page.tsx:89-119 | a blank ID only sets "Please enter a student ID" and sends nothing; otherwise earlier results, success and errors are cleared, a student is shown exactly when the answer is an OK object, and otherwise an error is shown, the answer's own or "Student not found" on a refusal |
| AddStudent.AddFailureMessage | app/lecturer/students/add/page.tsx:146-153 | never empty; "already" in the error or the detail, in any letter case, gives the already-enrolled text; otherwise the error, else the detail, else the generic text |
| AddStudent.AlreadyAnyCase | app/lecturer/students/add/page.tsx:146-153 | an error containing "already" in any mix of letter cases, at any position, gives the already-enrolled text whatever the detail says |
| AddStudent.AddWith | app/lecturer/students/add/page.tsx:121-160 | the request names the given student and the course of the address; success clears the box and the card and toasts the card's student name; any failure keeps the card, shows a non-empty error and no toast |
| AddStudent.AddAsWritten | app/lecturer/students/add/page.tsx:121-130 | nothing happens without a course and a found student; otherwise the request enrols whatever the ID box holds at that moment |
| AddStudent.AsWrittenEnrolsEditedId | app/lecturer/students/add/page.tsx:121-144 | after finding one student and editing the box, the request enrols the edited ID while the toast names the student found |
| AddStudent.Add | app/lecturer/students/add/page.tsx:121-160 | a request goes out exactly when a course and a found student exist, and it enrols the found student's ID |
| AddStudent.FailedLoadBlocksEnrolment | app/lecturer/students/add/page.tsx:46-130 | when the course does not load on a page without one, an error is shown and no later search leads to an enrolment request |
| AddStudent.SearchGatesEnrolment | app/lecturer/students/add/page.tsx:89-130 | a blank ID sends nothing and keeps the card; otherwise an enrolment can follow exactly when the course is loaded and the search found a student, and it carries that student's ID |
| AddStudent.LoadSearchAddEnrols | app/lecturer/students/add/page.tsx:46-130 | loading the course of the address, finding a student and pressing add enrols that student in that course, and the page shows the loaded course |
| AddStudent.EnrolsStudentShown | app/lecturer/students/add/page.tsx:121-144 | whatever is typed after the search, the request and the toast name the same student |
| Dashboard.Colour | app/lecturer/dashboard/page.tsx:63-79 | every card colour is one of the six palette entries |
| Dashboard.MapCourse | app/lecturer/dashboard/page.tsx:71-80 | the card keeps the backend id and takes the first non-empty of each pair of field spellings with its fallback: a name is never empty ("Untitled Course"), the last session defaults to "-", counts and rate to 0, and the colour is the palette entry for the position modulo six |
| Dashboard.MapCourses | app/lecturer/dashboard/page.tsx:71-80 | one card per backend course, in the backend's order, each mapped with its own position |
| Dashboard.MappingOrderAndColours | app/lecturer/dashboard/page.tsx:71-80 | the cards keep the backend's ids in order; the colours cycle with period six, so neighbours always differ and cards six apart match |
| Dashboard.FilledCourseKept | app/lecturer/dashboard/page.tsx:72-78 | a backend course with every field filled keeps all its values on the card |
| Dashboard.Fetched | app/lecturer/dashboard/page.tsx:50-87 | a failed or non-OK request leaves the page as it was; an OK answer replaces the cards by the mapped list, empty for null; the selection is never touched |
| Dashboard.Select | app/lecturer/dashboard/page.tsx:286 | clicking a card selects it and leaves the list alone |
| Dashboard.MenuLinks | app/lecturer/dashboard/page.tsx:113-194 | one link per menu entry in display order, each the entry's target followed by the selected course id as its `course` parameter |
| Dashboard.WelcomeName | app/lecturer/dashboard/page.tsx:230 | the greeting is never empty: the username when non-empty, else "Lecturer" |
| Dashboard.HandleLogout | app/lecturer/dashboard/page.tsx:42-45 | logging out clears the session in memory and storage and opens the lecturer sign-in page; neither the resulting state nor a reload from it is signed in |
| Csv.Lines | app/lecturer/students/page.tsx:151-152 | the header line first, then one line per row in order |
| Csv.PlainLine | app/lecturer/students/page.tsx:152 | a row whose cells hold no comma or line break joins into a line without a line break |
| Csv.RoundTrip | app/lecturer/students/page.tsx:142-152 | when no cell holds a comma or line break, splitting the text at line breaks gives the lines back, and splitting each line at commas gives the header and every row back |

The facial attendance page repeats `formatDuration` word for word at
app/lecturer/attendance/facial/page.tsx:335-339. Both copies are the one
function `Duration.FormatDuration`, so everything proved about it holds for
the page's copy too.

The assign-course form applies the course page's username fallback to the
lecturers again (components/admin/assign-course-form.tsx:56-59). That is
the same `AdminCourses.NormalizeLecturer`, and normalizing twice gives the
same result as normalizing once.

## Left out

- Camera, canvas and frame encoding are device and DOM input/output: `getUserMedia`, video playback, `toDataURL` and `captureFrameToBase64`. A capture is an optional opaque frame, and a camera start is a granted or refused flag.
- `fetch`, HTTP status handling and JSON parsing are not modelled. Each answer is an input datatype, and a thrown request or an unreadable body is one `Thrown` case. The thin fetch wrapper lib/api.ts is not part of this model.
- hooks/use-websocket.ts is socket plumbing with timer reconnection, and the attendance page does not use it.
- React closure staleness is left out, except for the `stopCamera` in the session's `finally` block. Each state update is one atomic step, so the duplicate check and the append of a recognized student happen together.
- FacialAttendance.BeginSession: the session's start and the camera start are one step. So a Stop click while `startCamera` is still awaited, after which the camera would come on again, is not modelled.
- FacialAttendance.StartSession: the stream is a held/not-held flag, so when a session starts with a stream already held, the model records only that the state is cleared; the newly started stream, whose tracks keep running, is not tracked.
- Timers (`setInterval`, `setTimeout` and the routes' artificial delays) are discrete ticks. A second file choice or capture started while an interval runs is not modelled.
- `Math.random` in the bulk-send route is the oracle `draw`.
- Floating point is not modelled. Percentages and means are Dafny reals, `Math.round` of a mean of integers is `(2a + b) / (2b)`, and `toFixed` formatting is left out. Values that went through `parseFloat` are taken as already parsed numbers.
- AdminLecturers.ComputeStats: the average number of courses is the exact mean. The source rounds it with `toFixed(1)`, which is text formatting of a float.
- `Number()` on the level field is a concrete predicate for the StrNumericLiteral grammar of section 7.1.4.1.1 of ECMA-262.
- `toLowerCase` is reduced to ASCII letters.
- `encodeURI` and the `data:text/csv;charset=utf-8,` prefix are not modelled. The prefix is a data URL in the syntax of section 3 of RFC 2397. Only the CSV text after the prefix is modelled.
- Dates and times (`new Date`, `toISOString`, `toLocaleString`) are opaque strings. Only the character filtering in file names is modelled.
- CSV quoting is left out because the source does none. The export joins lines with LF and does not quote fields, so it does not follow section 2 of RFC 4180. The round-trip lemmas therefore require cells without commas and line breaks.
- Base64 decoding with `atob` when registration samples become files is left out. Each sample keeps only its file name and MIME type.
- The `RegExp` built in `highlightText` and the development-only JWT decode on the e-mail page are left out. The first only affects presentation, and the second only logs.
- The toasts' titles are left out. A toast is the message the handler shows.
- The stored user is kept as a value rather than as JSON text. So the source's failure when the saved user cannot be parsed is not modelled; in that case loading never ends.
- LecturerLogin.Post only fixes `LecturerLogin.PostTo` to the mock list. `PostTo` carries the contract.
- Presentation-only code is left out:
  - the static "today" statistics and recent sessions on the lecturer dashboard;
  - layouts, tabs and markup;
  - the summary statistics component;
  - the admin dashboard's static arrays.
- On the admin courses page, loading courses and lecturers is only requests, so it is modelled as input. Only what the page does with the lists is modelled.
- CameraRegistration.StartCamera and CameraRegistration.StopCamera only set the stream flag and the camera error. They have no row of their own; `Submit` states the camera stop after success.
- The export of the attendance summary page only builds a download, and it is left out.
- EmailTestRoute.Post: JavaScript's `length` counts UTF-16 code units while `|s|` counts Dafny characters, so for text outside the Basic Multilingual Plane the model's lengths can be smaller than the source's.
- AddLecturerForm.PasswordError: the under-6 check uses `|s|` for JavaScript's `length`, so a password with characters outside the Basic Multilingual Plane can be judged short where the source, counting UTF-16 code units, accepts it.
- EmailSendRoute.Post: `selectedStudents` is a list or missing. A string body, where `includes` tests for a substring, is not modelled.

## Findings

| source | as written | input that shows it | evidently intended | confidence | as-written member | corrected member |
|---|---|---|---|---|---|---|
| app/admin/attendance/summary/page.tsx:71 | the course mapping reads `c.lecturer_ename`, a key no course record has, so the lecturer name is always undefined | a course with `lecturer_name` "Dr. Tabi" maps to no lecturer name | read `c.lecturer_name`, as the other pages do | not executed | AttendanceSummary.MapCourseAsWritten (with AttendanceSummary.AsWrittenDropsLecturer and AttendanceSummary.CoursesLoadedAsWritten) | AttendanceSummary.MapCourse (with AttendanceSummary.MappingsDifferOnlyInLecturer, AttendanceSummary.CoursesLoaded and AttendanceSummary.CoursesLoadedDifferOnlyInLecturer) |
| app/lecturer/email/send/page.tsx:223-228 | the guard accepts a reply with only one of `success_emails` and `failed_emails`, and then `includes` is called on the missing list, which throws | details for one student with only `failed_emails` listing that student's address: the page reports a network error and returns to step 1 | read a missing list as empty, so the student shows as failed | not executed | EmailSendPage.ReconcileAsWritten (with EmailSendPage.ReconcileMissingListThrows, EmailSendPage.SendEmailsAsWritten and EmailSendPage.SendEmailsMissingListFallsBack) | EmailSendPage.Reconcile (with EmailSendPage.SendEmails) |
| lib/auth-context.tsx:55-72 | any OK sign-in answer returns true, even one without `access_token`; the token is then undefined and the page stays signed out, while storage holds the text "undefined" | an OK answer `{name: "Dr Sop", role: "lecturer"}` without a token: `login` returns true, the user is not authenticated, and a reload signs in with token "undefined" | treat an answer without a token as a failed sign-in | not executed | Auth.LoginAsWritten (with Auth.AsWrittenMissingTokenDisagrees) | Auth.Login (with Auth.LoginPersists) |
| app/lecturer/students/add/page.tsx:130 | the enrolment request uses the ID box's current text, which can be edited after the search, while the card and the success toast name the student found | search "FE21A160" (Wesley Mungo), change the box to "FE21A159", press add: the request enrols FE21A159 while the toast names Wesley Mungo | enrol the found student's own ID | not executed | AddStudent.AddAsWritten (with AddStudent.AsWrittenEnrolsEditedId) | AddStudent.Add (with AddStudent.EnrolsStudentShown) |

=== FILE: add_lecturer_form.dfy ===
/** The add-lecturer form (components/admin/add-lecturer-form.tsx): field
    validation, editing, and the registration request's outcome. */
module AddLecturerForm {
  import opened Wrappers
  import Text
  import Js
  import Seqs
  import EmailPatterns
  import AdminLecturers

  datatype Field = LecturerIdField | FullNameField | DepartmentField | EmailField | PasswordField

  datatype FormData = FormData(lecturerId: string, fullName: string, department: string, email: string, password: string)
  {
    function Get(f: Field): string {
      match f
      case LecturerIdField => lecturerId
      case FullNameField => fullName
      case DepartmentField => department
      case EmailField => email
      case PasswordField => password
    }

    /** `{ ...prev, [field]: value }`. */
    function Set(f: Field, v: string): (d: FormData)
      ensures d.Get(f) == v
      ensures forall g :: g != f ==> d.Get(g) == Get(g)
    {
      match f
      case LecturerIdField => this.(lecturerId := v)
      case FullNameField => this.(fullName := v)
      case DepartmentField => this.(department := v)
      case EmailField => this.(email := v)
      case PasswordField => this.(password := v)
    }
  }

  const Empty := FormData("", "", "", "", "")

  // ---------------------------------------------------------------------
  // Validation (lines 57-82)

  function EmailError(email: string): (e: Option<string>)
    ensures e.None? <==> !Text.IsBlank(email) && EmailPatterns.LooseEmail(email)
    ensures Text.IsBlank(email) ==> e == Some("Email is required")
    ensures !Text.IsBlank(email) && !EmailPatterns.LooseEmail(email) ==> e == Some("Please enter a valid email address")
  {
    if Text.IsBlank(email) then Some("Email is required")
    else if !EmailPatterns.LooseEmail(email) then Some("Please enter a valid email address")
    else None
  }

  /** The blank test looks at the trimmed text, the length test at the text
      as typed. */
  function PasswordError(password: string): (e: Option<string>)
    ensures e.None? <==> !Text.IsBlank(password) && |password| >= 6
    ensures Text.IsBlank(password) ==> e == Some("Password is required")
    ensures !Text.IsBlank(password) && |password| < 6 ==> e == Some("Password must be at least 6 characters")
  {
    if Text.IsBlank(password) then Some("Password is required")
    else if |password| < 6 then Some("Password must be at least 6 characters")
    else None
  }

  const AllFields: set<Field> := {LecturerIdField, FullNameField, DepartmentField, EmailField, PasswordField}

  /** The message `validateForm` records for one field, if it fails. */
  function FieldError(d: FormData, f: Field): (e: Option<string>)
    ensures f == LecturerIdField ==> (e.Some? <==> Text.IsBlank(d.lecturerId))
    ensures f == FullNameField ==> (e.Some? <==> Text.IsBlank(d.fullName))
    ensures f == DepartmentField ==> (e.Some? <==> d.department == "")
    ensures e.Some? ==> e.value != ""
  {
    match f
    case LecturerIdField => if Text.IsBlank(d.lecturerId) then Some("Lecturer ID is required") else None
    case FullNameField => if Text.IsBlank(d.fullName) then Some("Full name is required") else None
    case DepartmentField => if d.department == "" then Some("Department is required") else None
    case EmailField => EmailError(d.email)
    case PasswordField => PasswordError(d.password)
  }

  /** `validateForm`'s error map: one non-empty message per failing field. */
  function Validate(d: FormData): (errors: map<Field, string>)
    ensures forall f :: f in errors <==> FieldError(d, f).Some?
    ensures forall f :: f in errors ==> errors[f] == FieldError(d, f).value != ""
  {
    map f | f in AllFields && FieldError(d, f).Some? :: FieldError(d, f).value
  }

  predicate IsValid(d: FormData) { Validate(d) == map[] }

  /** The form is valid exactly when every field passes its own check. */
  lemma ValidIff(d: FormData)
    ensures IsValid(d) <==>
      && !Text.IsBlank(d.lecturerId) && !Text.IsBlank(d.fullName) && d.department != ""
      && !Text.IsBlank(d.email) && EmailPatterns.LooseEmail(d.email)
      && !Text.IsBlank(d.password) && |d.password| >= 6
  {
    var errors := Validate(d);
    if errors != map[] {
      var f :| f in errors;
    } else {
      assert LecturerIdField !in errors && FullNameField !in errors && DepartmentField !in errors;
      assert EmailField !in errors && PasswordField !in errors;
    }
  }

  /** A blank e-mail would fail the pattern anyway: the order of the two
      e-mail checks only decides which message is shown. */
  lemma BlankEmailNeverMatches(email: string)
    requires Text.IsBlank(email)
    ensures !EmailPatterns.LooseEmail(email)
  {
    Text.BlankIffAllSpace(email);
  }

  /** Leading white space counts toward the six characters: a password of
      five spaces and one letter passes. */
  lemma PaddedPasswordAccepted()
    ensures PasswordError("     a").None?
  {
    var p := "     a";
    assert !Text.AllSpace(p) by { assert !Text.IsSpace(p[5]); }
    Text.BlankIffAllSpace(p);
  }

  // ---------------------------------------------------------------------
  // Editing, clearing, submitting (lines 84-159)

  datatype FormState = FormState(data: FormData, errors: map<Field, string>, error: string, loading: bool)

  /** `handleInputChange`: the field takes the new value, and its error, when
      one is shown, is blanked; its key stays in the map. */
  function Edit(s: FormState, f: Field, v: string): (t: FormState)
    ensures t.data.Get(f) == v
    ensures forall g :: g != f ==> t.data.Get(g) == s.data.Get(g)
    ensures t.errors.Keys == s.errors.Keys
    ensures forall g :: g in s.errors && g != f ==> t.errors[g] == s.errors[g]
    ensures f in t.errors ==> t.errors[f] == ""
    ensures t.error == s.error && t.loading == s.loading
  {
    var errors := if f in s.errors && s.errors[f] != "" then s.errors[f := ""] else s.errors;
    s.(data := s.data.Set(f, v), errors := errors)
  }

  /** `clearForm`. */
  function Clear(s: FormState): (t: FormState)
    ensures forall f :: t.data.Get(f) == ""
    ensures t.errors == map[] && t.error == "" && t.loading == s.loading
  {
    s.(data := Empty, errors := map[], error := "")
  }

  /** The registration request: it threw, or it answered with the created
      account or an error body. */
  datatype RegisterReply =
    | RegisterThrown
    | RegisterReply(ok: bool, id: string, username: string, email: string, detail: Option<string>, error: Option<string>)

  /** The body of the registration request: the full name goes out as the
      username, and the lecturer id and department are not sent. */
  datatype Register = Register(username: string, email: string, password: string, role: string)

  /** The state after submitting, the request that went out, if any, and the
      lecturer handed to the page, if any. */
  datatype Outcome = Outcome(state: FormState, request: Option<Register>, added: Option<AdminLecturers.Entry>)

  function FailureMessage(detail: Option<string>, error: Option<string>): (m: string)
    ensures m != ""
    ensures Js.TruthyStr(detail) ==> m == detail.value
    ensures !Js.TruthyStr(detail) && Js.TruthyStr(error) ==> m == error.value
    ensures !Js.TruthyStr(detail) && !Js.TruthyStr(error) ==> m == "Failed to add lecturer"
  {
    Js.OrStr(detail, Js.OrStr(error, "Failed to add lecturer"))
  }

  /** `handleSubmit`. */
  function Submit(s: FormState, reply: RegisterReply): (o: Outcome)
    ensures o.request.Some? <==> IsValid(s.data)
    ensures o.request.Some? ==> o.request.value == Register(s.data.fullName, s.data.email, s.data.password, "lecturer")
    ensures !IsValid(s.data) ==> o == Outcome(s.(errors := Validate(s.data)), None, None)
    ensures o.added.Some? <==> IsValid(s.data) && reply.RegisterReply? && reply.ok
    ensures o.added.Some? ==>
      && o.added.value == AdminLecturers.Lecturer(reply.id, s.data.lecturerId, reply.username, s.data.department, reply.email, Some([]))
      && o.state.data == Empty && o.state.errors == map[] && o.state.error == ""
    ensures IsValid(s.data) && reply.RegisterThrown? ==> o.state.error == "Network error. Please try again." && o.state.data == s.data
    ensures IsValid(s.data) && reply.RegisterReply? && !reply.ok ==> o.state.error == FailureMessage(reply.detail, reply.error) && o.state.data == s.data
    ensures o.request.Some? ==> !o.state.loading
  {
    var errors := Validate(s.data);
    if errors != map[] then Outcome(s.(errors := errors), None, None)
    else
      var sent := s.(errors := errors, error := "");
      var request := Some(Register(s.data.fullName, s.data.email, s.data.password, "lecturer"));
      match reply
      case RegisterThrown => Outcome(sent.(error := "Network error. Please try again.", loading := false), request, None)
      case RegisterReply(ok, id, username, email, detail, error) =>
        if ok then
          Outcome(sent.(data := Empty, errors := map[], loading := false), request,
                  Some(AdminLecturers.Lecturer(id, s.data.lecturerId, username, s.data.department, email, Some([]))))
        else Outcome(sent.(error := FailureMessage(detail, error), loading := false), request, None)
  }

  /** A lecturer registered through the form enters the page's statistics as
      one more valid lecturer, without courses. */
  lemma AddedLecturerCounted(p: AdminLecturers.PageState, s: FormState, reply: RegisterReply)
    requires Submit(s, reply).added.Some?
    ensures var q := AdminLecturers.LecturerAdded(p, Submit(s, reply).added.value);
            && AdminLecturers.ComputeStats(q.lecturers).total == AdminLecturers.ComputeStats(p.lecturers).total + 1
            && AdminLecturers.ComputeStats(q.lecturers).withoutCourses == AdminLecturers.ComputeStats(p.lecturers).withoutCourses + 1
  {
    var l := Submit(s, reply).added.value;
    Seqs.FilterConcat(p.lecturers, [l], AdminLecturers.IsValid);
    Seqs.FilterSingleton(l, AdminLecturers.IsValid);
    var vs := AdminLecturers.ValidLecturers(p.lecturers);
    Seqs.FilterConcat(vs, [l], AdminLecturers.WithoutCourses);
    Seqs.FilterSingleton(l, AdminLecturers.WithoutCourses);
  }
}

=== FILE: add_student.dfy ===
/** The lecturer's add-student page (app/lecturer/students/add/page.tsx):
    load the course named in the address, search a student by ID, and enrol
    the student found. */
module AddStudent {
  import opened Wrappers
  import Js
  import Text

  datatype Course = Course(id: string, courseCode: string, name: string, session: string)

  datatype Student = Student(id: string, studentId: string, name: string, department: string, level: int)

  datatype PageState = PageState(
    course: Option<Course>,
    studentIdInput: string,
    searchedStudent: Option<Student>,
    isSearching: bool,
    isAdding: bool,
    searchError: string,
    addError: string,
    success: bool,
    isLoading: bool,
    fetchError: string)

  const Initial := PageState(None, "", None, false, false, "", "", false, true, "")

  /** A parsed JSON body: `null`, or an object with the value the page reads
      and its optional `error` and `detail` texts. */
  datatype Json<T> = Null | Obj(value: T, error: Option<string>, detail: Option<string>)

  /** A request that threw (network or unreadable body), or its answer. */
  datatype Reply<T> = Thrown | Reply(ok: bool, body: Json<T>)

  // ---------------------------------------------------------------------
  // The course (lines 46-87)

  const NoCourse := "No course selected. Please select a course from the dashboard."

  /** The course body: `course` when present, else the body itself. */
  datatype CourseBody = CourseBody(nested: Option<Course>, top: Course)

  /** The mount effect and `fetchCourseDetails`. */
  function LoadCourse(p: PageState, courseId: string, reply: Reply<CourseBody>): (q: PageState)
    ensures !q.isLoading
    ensures courseId == "" ==> q == p.(isLoading := false, fetchError := NoCourse)
    ensures courseId != "" && reply.Reply? && reply.ok && reply.body.Obj? ==>
      q.course == Some(reply.body.value.nested.GetOr(reply.body.value.top)) && q.fetchError == ""
    ensures courseId != "" && reply.Reply? && !reply.ok && reply.body.Obj? ==>
      q.course == p.course && q.fetchError == Js.OrStr(reply.body.error, "Failed to fetch course details")
    ensures courseId != "" && (reply.Thrown? || reply.body.Null?) ==>
      q.course == p.course && q.fetchError == "Failed to fetch course details. Please try again."
    ensures q.fetchError != "" <==> q.course == p.course && !(courseId != "" && reply.Reply? && reply.ok && reply.body.Obj?)
  {
    if courseId == "" then p.(isLoading := false, fetchError := NoCourse)
    else match reply
      case Thrown => p.(isLoading := false, fetchError := "Failed to fetch course details. Please try again.")
      case Reply(ok, body) =>
        if body.Null? then p.(isLoading := false, fetchError := "Failed to fetch course details. Please try again.")
        else if ok then p.(course := Some(body.value.nested.GetOr(body.value.top)), isLoading := false, fetchError := "")
        else p.(isLoading := false, fetchError := Js.OrStr(body.error, "Failed to fetch course details"))
  }

  // ---------------------------------------------------------------------
  // Searching (lines 89-119)

  /** `handleSearchStudent`, with whether a request went out. */
  function Search(p: PageState, reply: Reply<Student>): (r: (PageState, bool))
    ensures Text.Trim(p.studentIdInput) == "" ==> r == (p.(searchError := "Please enter a student ID"), false)
    ensures Text.Trim(p.studentIdInput) != "" ==>
      && r.1 && !r.0.success && r.0.addError == "" && !r.0.isSearching
      && r.0.studentIdInput == p.studentIdInput && r.0.course == p.course
      && (r.0.searchedStudent.Some? <==> reply.Reply? && reply.ok && reply.body.Obj?)
      && (r.0.searchedStudent.Some? ==> r.0.searchedStudent.value == reply.body.value && r.0.searchError == "")
      && (r.0.searchedStudent.None? ==> r.0.searchError != "")
    ensures Text.Trim(p.studentIdInput) != "" && reply.Reply? && !reply.ok && reply.body.Obj? ==>
      r.0.searchError == Js.OrStr(reply.body.error, "Student not found")
  {
    if Text.Trim(p.studentIdInput) == "" then (p.(searchError := "Please enter a student ID"), false)
    else
      var cleared := p.(searchError := "", searchedStudent := None, success := false, addError := "", isSearching := false);
      match reply
      case Thrown => (cleared.(searchError := "Failed to search for student"), true)
      case Reply(ok, body) =>
        if body.Null? then (cleared.(searchError := "Failed to search for student"), true)
        else if ok then (cleared.(searchedStudent := Some(body.value)), true)
        else (cleared.(searchError := Js.OrStr(body.error, "Student not found")), true)
  }

  // ---------------------------------------------------------------------
  // Enrolling (lines 121-160)

  const AlreadyEnrolled := "Student already exists in this course."
  const AddFailed := "Failed to add student to course"

  predicate MentionsAlready(t: Option<string>) {
    Js.TruthyStr(t) && Text.Contains(Text.ToLower(t.value), "already")
  }

  /** The message of a refused enrolment. */
  function AddFailureMessage(error: Option<string>, detail: Option<string>): (m: string)
    ensures m != ""
    ensures MentionsAlready(error) || MentionsAlready(detail) ==> m == AlreadyEnrolled
    ensures !MentionsAlready(error) && !MentionsAlready(detail) ==> m == Js.OrStr(error, Js.OrStr(detail, AddFailed))
  {
    if MentionsAlready(error) || MentionsAlready(detail) then AlreadyEnrolled
    else Js.OrStr(error, Js.OrStr(detail, AddFailed))
  }

  /** "Already" in any letter case, anywhere in the error text, is
      recognised, whatever the detail says. */
  lemma AlreadyAnyCase(before: string, word: string, after: string, detail: Option<string>)
    requires Text.ToLower(word) == "already"
    ensures AddFailureMessage(Some(before + word + after), detail) == AlreadyEnrolled
  {
    var t := before + word + after;
    var lowered := Text.ToLower(t);
    assert |word| == 7;
    assert lowered[|before|..|before| + 7] == Text.ToLower(word) by {
      forall k | 0 <= k < 7 ensures lowered[|before| + k] == Text.ToLower(word)[k] {
        assert t[|before| + k] == word[k];
      }
    }
    assert Text.OccursAt(lowered, "already", |before|);
    Text.ContainsAt(lowered, "already");
    assert MentionsAlready(Some(t));
  }

  /** The enrolment request: the student and course ids of the URL. */
  datatype Enrol = Enrol(studentId: string, courseId: string)

  datatype AddOutcome = AddOutcome(state: PageState, request: Option<Enrol>, toast: Option<string>)

  /** The shared part of `handleAddStudent`, for the id the request names. */
  function AddWith(p: PageState, studentId: string, courseId: string, reply: Reply<()>): (o: AddOutcome)
    requires p.course.Some? && p.searchedStudent.Some?
    ensures o.request == Some(Enrol(studentId, courseId)) && !o.state.isAdding
    ensures o.state.success <==> reply.Reply? && reply.ok
    ensures o.state.success ==> o.state.studentIdInput == "" && o.state.searchedStudent.None? && o.state.addError == ""
    ensures o.state.success ==> o.toast == Some("Student " + p.searchedStudent.value.name + " added to the course successfully!")
    ensures !o.state.success ==> o.state.addError != "" && o.state.searchedStudent == p.searchedStudent && o.toast == None
    ensures reply.Reply? && !reply.ok && reply.body.Obj? ==> o.state.addError == AddFailureMessage(reply.body.error, reply.body.detail)
  {
    var started := p.(addError := "", success := false, isAdding := false);
    match reply
    case Thrown => AddOutcome(started.(addError := AddFailed), Some(Enrol(studentId, courseId)), None)
    case Reply(ok, body) =>
      if ok then
        AddOutcome(started.(success := true, studentIdInput := "", searchedStudent := None), Some(Enrol(studentId, courseId)),
                   Some("Student " + p.searchedStudent.value.name + " added to the course successfully!"))
      else if body.Null? then AddOutcome(started.(addError := AddFailed), Some(Enrol(studentId, courseId)), None)
      else AddOutcome(started.(addError := AddFailureMessage(body.error, body.detail)), Some(Enrol(studentId, courseId)), None)
  }

  /** `handleAddStudent` as written: the request names whatever the ID box
      holds now, which editing after the search does not clear. */
  function AddAsWritten(p: PageState, courseId: string, reply: Reply<()>): (o: AddOutcome)
    ensures p.course.None? || p.searchedStudent.None? ==> o == AddOutcome(p, None, None)
    ensures o.request.Some? ==> o.request.value == Enrol(p.studentIdInput, courseId)
  {
    if p.course.None? || p.searchedStudent.None? then AddOutcome(p, None, None)
    else AddWith(p, p.studentIdInput, courseId, reply)
  }

  /** Search for one student, edit the box, press add: the card and the
      success toast show the student found, but the request enrols the ID
      typed afterwards. */
  lemma AsWrittenEnrolsEditedId(p: PageState, courseId: string)
    requires p.course.Some? && Text.Trim(p.studentIdInput) != ""
    ensures var wesley := Student("1", "FE21A160", "Wesley Mungo", "CEF", 500);
            var found := Search(p, Reply(true, Obj(wesley, None, None))).0;
            var o := AddAsWritten(found.(studentIdInput := "FE21A159"), courseId, Reply(true, Obj((), None, None)));
            && found.searchedStudent == Some(wesley)
            && o.request == Some(Enrol("FE21A159", courseId))
            && o.toast == Some("Student " + wesley.name + " added to the course successfully!")
  {
    var wesley := Student("1", "FE21A160", "Wesley Mungo", "CEF", 500);
    var found := Search(p, Reply(true, Obj(wesley, None, None))).0;
    assert found.searchedStudent == Some(wesley) && found.course == p.course;
    var edited := found.(studentIdInput := "FE21A159");
    var o := AddAsWritten(edited, courseId, Reply(true, Obj((), None, None)));
    assert o == AddWith(edited, "FE21A159", courseId, Reply(true, Obj((), None, None)));
    assert o.request == Some(Enrol("FE21A159", courseId));
    assert o.toast == Some("Student " + wesley.name + " added to the course successfully!");
  }

  /** A course that failed to load on a page without one blocks every
      enrolment, whatever is searched afterwards. */
  lemma FailedLoadBlocksEnrolment(p: PageState, courseId: string, reply: Reply<CourseBody>,
                                  typed: string, found: Reply<Student>, added: Reply<()>)
    requires p.course.None?
    requires !(courseId != "" && reply.Reply? && reply.ok && reply.body.Obj?)
    ensures var q := LoadCourse(p, courseId, reply);
            && q.fetchError != "" && q.course.None?
            && Add(Search(q.(studentIdInput := typed), found).0, courseId, added).request.None?
  {
  }

  /** The search gates the enrolment: a blank ID sends nothing and leaves the
      card as it was, and otherwise a request can follow exactly when the
      course is loaded and the search found a student, whose ID it carries. */
  lemma SearchGatesEnrolment(p: PageState, reply: Reply<Student>, courseId: string, added: Reply<()>)
    ensures Text.Trim(p.studentIdInput) == "" ==>
      !Search(p, reply).1 && Search(p, reply).0.searchedStudent == p.searchedStudent
    ensures Text.Trim(p.studentIdInput) != "" ==>
      (Add(Search(p, reply).0, courseId, added).request.Some? <==> p.course.Some? && reply.Reply? && reply.ok && reply.body.Obj?)
    ensures Text.Trim(p.studentIdInput) != "" && p.course.Some? && reply.Reply? && reply.ok && reply.body.Obj? ==>
      Add(Search(p, reply).0, courseId, added).request == Some(Enrol(reply.body.value.studentId, courseId))
  {
  }

  /** Loading the course of the address, finding a student and pressing add
      enrols that student in that course, with the course the page shows. */
  lemma LoadSearchAddEnrols(p: PageState, courseId: string, body: CourseBody, typed: string, student: Student, added: Reply<()>)
    requires courseId != "" && Text.Trim(typed) != ""
    ensures var q := LoadCourse(p, courseId, Reply(true, Obj(body, None, None)));
            var found := Search(q.(studentIdInput := typed), Reply(true, Obj(student, None, None))).0;
            && found.course == Some(body.nested.GetOr(body.top))
            && Add(found, courseId, added).request == Some(Enrol(student.studentId, courseId))
  {
  }

  /** `handleAddStudent` enrolling the student on the card. */
  function Add(p: PageState, courseId: string, reply: Reply<()>): (o: AddOutcome)
    ensures p.course.None? || p.searchedStudent.None? ==> o == AddOutcome(p, None, None)
    ensures o.request.Some? <==> p.course.Some? && p.searchedStudent.Some?
    ensures o.request.Some? ==> o.request.value == Enrol(p.searchedStudent.value.studentId, courseId)
  {
    if p.course.None? || p.searchedStudent.None? then AddOutcome(p, None, None)
    else AddWith(p, p.searchedStudent.value.studentId, courseId, reply)
  }

  /** The enrolled student is the one the success toast names: whatever was
      typed after the search, the request carries the found student's ID. */
  lemma EnrolsStudentShown(p: PageState, courseId: string, typed: string, reply: Reply<()>)
    requires p.course.Some? && p.searchedStudent.Some?
    ensures var o := Add(p.(studentIdInput := typed), courseId, reply);
            && o.request == Some(Enrol(p.searchedStudent.value.studentId, courseId))
            && (o.toast.Some? ==> o.toast.value == "Student " + p.searchedStudent.value.name + " added to the course successfully!")
  {
  }
}

=== FILE: admin_courses.dfy ===
/** The administrator's course-management page (app/admin/courses/page.tsx):
    the course list it keeps, the statistics cards, and the two
    normalizations it applies before handing courses and lecturers to its
    child components. */
module AdminCourses {
  import opened Wrappers
  import Js
  import Text
  import Seqs

  /** A course as the backend sends it. `lecturerId` and `lecturerName` may be
      a string, a number, null or absent. */
  datatype Course = Course(
    id: string,
    courseCode: Option<string>,
    name: Option<string>,
    session: Option<string>,
    lecturerId: Js.Scalar,
    lecturerName: Js.Scalar,
    studentCount: Option<int>,
    averageAttendance: Option<int>)

  datatype Lecturer = Lecturer(id: string, lecturerId: string, fullName: Option<string>, department: string, email: Option<string>, username: Option<string>)

  datatype Tab = View | Create | Assign

  datatype PageState = PageState(courses: seq<Course>, lecturers: seq<Lecturer>, loading: bool, tab: Tab)

  // ---------------------------------------------------------------------
  // Creating and assigning (lines 105-121)

  /** `handleCourseCreated`: the new course goes to the end. */
  function CourseCreated(p: PageState, c: Course): (q: PageState)
    ensures |q.courses| == |p.courses| + 1 && q.courses[..|p.courses|] == p.courses && q.courses[|p.courses|] == c
    ensures q.tab == View && q.lecturers == p.lecturers && q.loading == p.loading
  {
    p.(courses := p.courses + [c], tab := View)
  }

  /** `prev.map(course => course.id === updated.id ? updated : course)`. */
  function ReplaceById(courses: seq<Course>, updated: Course): (r: seq<Course>)
    ensures |r| == |courses|
    ensures forall i :: 0 <= i < |r| && courses[i].id != updated.id ==> r[i] == courses[i]
    ensures forall i :: 0 <= i < |r| && courses[i].id == updated.id ==> r[i] == updated
  {
    seq(|courses|, i requires 0 <= i < |courses| => if courses[i].id == updated.id then updated else courses[i])
  }

  /** `handleCourseAssigned`. */
  function CourseAssigned(p: PageState, updated: Course): (q: PageState)
    ensures q.courses == ReplaceById(p.courses, updated)
    ensures q.tab == View && q.lecturers == p.lecturers && q.loading == p.loading
  {
    p.(courses := ReplaceById(p.courses, updated), tab := View)
  }

  /** Replacing by id is idempotent, and a second replacement with the same
      id overrides the first. */
  lemma ReplaceByIdOverrides(courses: seq<Course>, a: Course, b: Course)
    requires a.id == b.id
    ensures ReplaceById(ReplaceById(courses, a), b) == ReplaceById(courses, b)
  {
  }

  /** The ids of the list are unchanged by an assignment. */
  lemma ReplaceByIdKeepsIds(courses: seq<Course>, updated: Course)
    ensures forall i :: 0 <= i < |courses| ==> ReplaceById(courses, updated)[i].id == courses[i].id
  {
  }

  // ---------------------------------------------------------------------
  // Statistics (lines 123-131)

  datatype Stats = Stats(total: nat, assignedCount: nat, unassignedCount: nat, sessions: nat, totalStudents: int, avgStudentsPerCourse: int)

  predicate HasLecturer(c: Course) { Js.Truthy(c.lecturerId) }
  predicate NoLecturer(c: Course) { !Js.Truthy(c.lecturerId) }

  function Sessions(courses: seq<Course>): (ss: seq<Option<string>>)
    ensures |ss| == |courses|
    ensures forall i :: 0 <= i < |ss| ==> ss[i] == courses[i].session
  {
    seq(|courses|, i requires 0 <= i < |courses| => courses[i].session)
  }

  /** `c.student_count || 0`, per course. */
  function StudentCounts(courses: seq<Course>): (ns: seq<int>)
    ensures |ns| == |courses|
    ensures forall i :: 0 <= i < |ns| ==> ns[i] == Js.OrNum(courses[i].studentCount, 0)
  {
    seq(|courses|, i requires 0 <= i < |courses| => Js.OrNum(courses[i].studentCount, 0))
  }

  /** The page's summary cards: the assigned and unassigned counts split the
      total, `sessions` is the number of distinct session values and the
      student total adds the per-course counts read as 0 when missing. */
  function ComputeStats(courses: seq<Course>): (st: Stats)
    ensures st.total == |courses|
    ensures st.assignedCount == Seqs.Count(courses, HasLecturer) && st.unassignedCount == Seqs.Count(courses, NoLecturer)
    ensures st.assignedCount + st.unassignedCount == st.total
    ensures st.sessions == |Seqs.Elements(Sessions(courses))| <= st.total
    ensures st.totalStudents == Seqs.Sum(StudentCounts(courses))
    ensures st.total == 0 ==> st.avgStudentsPerCourse == 0
    ensures st.total > 0 ==>
      2 * st.totalStudents - st.total < 2 * st.total * st.avgStudentsPerCourse <= 2 * st.totalStudents + st.total
  {
    Seqs.CountComplement(courses, HasLecturer, NoLecturer);
    Seqs.DistinctCard(Sessions(courses));
    var totalStudents := Seqs.Sum(StudentCounts(courses));
    Stats(
      |courses|,
      Seqs.Count(courses, HasLecturer),
      Seqs.Count(courses, NoLecturer),
      |Seqs.Distinct(Sessions(courses))|,
      totalStudents,
      if |courses| > 0 then Seqs.RoundDiv(totalStudents, |courses|) else 0)
  }

  /** With non-negative counts the total is non-negative and the rounded
      average lies between 0 and the total. */
  lemma StatsStudentBounds(courses: seq<Course>)
    requires forall i :: 0 <= i < |courses| ==> Js.OrNum(courses[i].studentCount, 0) >= 0
    ensures ComputeStats(courses).totalStudents >= 0
    ensures 0 <= ComputeStats(courses).avgStudentsPerCourse <= ComputeStats(courses).totalStudents
  {
    Seqs.SumNonNegative(StudentCounts(courses));
    if |courses| > 0 {
      Seqs.RoundDivBounds(ComputeStats(courses).totalStudents, |courses|);
    }
  }

  // ---------------------------------------------------------------------
  // Normalization (lines 133-149)

  /** The username shown for a lecturer: username, else full name, else
      e-mail, else "unknown" — each taken only when non-empty. */
  function Username(username: Option<string>, fullName: Option<string>, email: Option<string>): (u: string)
    ensures u != ""
    ensures Js.TruthyStr(username) ==> u == username.value
    ensures !Js.TruthyStr(username) && Js.TruthyStr(fullName) ==> u == fullName.value
    ensures !Js.TruthyStr(username) && !Js.TruthyStr(fullName) && Js.TruthyStr(email) ==> u == email.value
    ensures !Js.TruthyStr(username) && !Js.TruthyStr(fullName) && !Js.TruthyStr(email) ==> u == "unknown"
  {
    Js.OrStr(username, Js.OrStr(fullName, Js.OrStr(email, "unknown")))
  }

  function NormalizeLecturer(l: Lecturer): (n: Lecturer)
    ensures n.username == Some(Username(l.username, l.fullName, l.email))
    ensures n.(username := l.username) == l
  {
    l.(username := Some(Username(l.username, l.fullName, l.email)))
  }

  /** The assignment form normalizes the page's already normalized lecturers
      again; the second pass changes nothing. */
  lemma NormalizeLecturerIdempotent(l: Lecturer)
    ensures NormalizeLecturer(NormalizeLecturer(l)) == NormalizeLecturer(l)
  {
  }

  function NormalizedLecturers(ls: seq<Lecturer>): (r: seq<Lecturer>)
    ensures |r| == |ls|
    ensures forall i :: 0 <= i < |r| ==> r[i] == NormalizeLecturer(ls[i])
  {
    seq(|ls|, i requires 0 <= i < |ls| => NormalizeLecturer(ls[i]))
  }

  /** The robust assignment test of line 143: a string that is neither blank
      nor "null", or a positive number. */
  predicate IsAssigned(raw: Js.Scalar) {
    (raw.Str? && !Text.IsBlank(raw.s) && raw.s != "null") || (raw.Num? && raw.n > 0)
  }

  function NormalizeCourse(c: Course): (n: Course)
    ensures IsAssigned(c.lecturerId) ==> n.lecturerId == Js.Str(Js.ToStr(c.lecturerId))
    ensures !IsAssigned(c.lecturerId) ==> n.lecturerId == Js.Undefined && n.lecturerName == Js.Undefined
    ensures IsAssigned(c.lecturerId) && Js.Truthy(c.lecturerName) ==> n.lecturerName == Js.Str(Js.ToStr(c.lecturerName))
    ensures !Js.Truthy(c.lecturerName) ==> n.lecturerName == Js.Undefined
    ensures n.(lecturerId := c.lecturerId, lecturerName := c.lecturerName) == c
  {
    var isAssigned := IsAssigned(c.lecturerId);
    c.(lecturerId := if isAssigned then Js.Str(Js.ToStr(c.lecturerId)) else Js.Undefined,
       lecturerName := if isAssigned && Js.Truthy(c.lecturerName) then Js.Str(Js.ToStr(c.lecturerName)) else Js.Undefined)
  }

  function NormalizedCourses(cs: seq<Course>): (r: seq<Course>)
    ensures |r| == |cs|
    ensures forall i :: 0 <= i < |r| ==> r[i] == NormalizeCourse(cs[i])
  {
    seq(|cs|, i requires 0 <= i < |cs| => NormalizeCourse(cs[i]))
  }

  /** After normalization the plain truthiness test agrees with the robust
      one: a normalized course has a lecturer exactly when the raw id passed
      `IsAssigned`. */
  lemma NormalizedTruthiness(c: Course)
    ensures HasLecturer(NormalizeCourse(c)) <==> IsAssigned(c.lecturerId)
  {
    var raw := c.lecturerId;
    if raw.Str? && IsAssigned(raw) {
      assert raw.s != "" by { Text.BlankIffAllSpace(raw.s); }
    }
    if raw.Num? && IsAssigned(raw) {
      Text.NatToStringRoundTrip(raw.n);
    }
  }

  /** The statistics are computed on the raw list, which is not normalized:
      a course whose lecturer id is the string "null" counts as assigned in
      the cards while the list shows it as unassigned. */
  lemma StatsCountRawNull(c: Course)
    requires c.lecturerId == Js.Str("null")
    ensures ComputeStats([c]).assignedCount == 1
    ensures !HasLecturer(NormalizeCourse(c))
  {
    Seqs.FilterSingleton(c, HasLecturer);
  }

  /** A created course enters the cards: one more course, and one more
      assigned or unassigned course according to its lecturer id. */
  lemma CreatedCourseCounted(p: PageState, c: Course)
    ensures var before := ComputeStats(p.courses);
            var after := ComputeStats(CourseCreated(p, c).courses);
            && after.total == before.total + 1
            && after.assignedCount == before.assignedCount + (if HasLecturer(c) then 1 else 0)
            && after.unassignedCount == before.unassignedCount + (if HasLecturer(c) then 0 else 1)
  {
    Seqs.FilterConcat(p.courses, [c], HasLecturer);
    Seqs.FilterSingleton(c, HasLecturer);
    Seqs.FilterConcat(p.courses, [c], NoLecturer);
    Seqs.FilterSingleton(c, NoLecturer);
  }

  /** An assignment keeps the number of courses and their ids, and a course
      whose id was listed is shown as assigned. */
  lemma AssignedCourseShown(p: PageState, updated: Course)
    ensures var q := CourseAssigned(p, updated);
            && |q.courses| == |p.courses|
            && (forall i :: 0 <= i < |p.courses| ==> q.courses[i].id == p.courses[i].id)
            && ((exists i :: 0 <= i < |p.courses| && p.courses[i].id == updated.id) ==> updated in q.courses)
  {
    var q := CourseAssigned(p, updated);
    if exists i :: 0 <= i < |p.courses| && p.courses[i].id == updated.id {
      var i :| 0 <= i < |p.courses| && p.courses[i].id == updated.id;
      assert q.courses[i] == updated;
    }
  }
}

=== FILE: admin_lecturers.dfy ===
/** The administrator's lecturer-management page (app/admin/lecturers/page.tsx):
    the list it keeps and the statistics cards computed from it. */
module AdminLecturers {
  import opened Wrappers
  import Seqs

  datatype Course = Course(id: string, name: string, code: string, semester: string)

  /** An entry of the fetched list. The page trusts the backend's shape, so an
      entry may be null and its `assignedCourses` may be something other than
      an array (None). */
  datatype Entry =
    | NullEntry
    | Lecturer(id: string, lecturerId: string, fullName: string, department: string, email: string, assignedCourses: Option<seq<Course>>)

  datatype Tab = View | Add

  datatype PageState = PageState(lecturers: seq<Entry>, loading: bool, tab: Tab)

  /** The lecturers endpoint answers either a bare array or an object whose
      `lecturers` field may be missing. */
  datatype Payload = Listed(all: seq<Entry>) | Wrapped(lecturers: Option<seq<Entry>>)

  datatype Reply = Thrown | Reply(ok: bool, payload: Payload)

  /** `fetchLecturers`: an OK answer replaces the list; a failed answer or an
      exception keeps the previous one. Loading ends either way. */
  function Fetched(p: PageState, reply: Reply): (q: PageState)
    ensures !q.loading && q.tab == p.tab
    ensures reply.Thrown? || !reply.ok ==> q.lecturers == p.lecturers
    ensures reply.Reply? && reply.ok && reply.payload.Listed? ==> q.lecturers == reply.payload.all
    ensures reply.Reply? && reply.ok && reply.payload.Wrapped? ==>
      q.lecturers == (if reply.payload.lecturers.Some? then reply.payload.lecturers.value else [])
  {
    if reply.Thrown? || !reply.ok then p.(loading := false)
    else match reply.payload
      case Listed(all) => p.(lecturers := all, loading := false)
      case Wrapped(ls) => p.(lecturers := if ls.Some? then ls.value else [], loading := false)
  }

  /** `handleLecturerAdded`: the new lecturer goes to the end and the page
      returns to the list. */
  function LecturerAdded(p: PageState, l: Entry): (q: PageState)
    ensures |q.lecturers| == |p.lecturers| + 1 && q.lecturers[..|p.lecturers|] == p.lecturers
    ensures q.lecturers[|p.lecturers|] == l && q.tab == View && q.loading == p.loading
  {
    p.(lecturers := p.lecturers + [l], tab := View)
  }

  // ---------------------------------------------------------------------
  // Statistics (lines 73-89)

  predicate IsValid(e: Entry) { e.Lecturer? && e.assignedCourses.Some? }

  /** The entries the statistics trust: non-null, with an array of courses. */
  function ValidLecturers(es: seq<Entry>): (r: seq<Entry>)
    ensures forall e :: e in r <==> e in es && IsValid(e)
    ensures forall i :: 0 <= i < |r| ==> IsValid(r[i])
    ensures Seqs.Subsequence(r, es)
  {
    Seqs.Filter(es, IsValid)
  }

  function CourseCount(e: Entry): nat
    requires IsValid(e)
  {
    |e.assignedCourses.value|
  }

  predicate WithCourses(e: Entry) { IsValid(e) && CourseCount(e) > 0 }
  predicate WithoutCourses(e: Entry) { IsValid(e) && CourseCount(e) == 0 }

  function CourseCounts(vs: seq<Entry>): (ns: seq<int>)
    requires forall i :: 0 <= i < |vs| ==> IsValid(vs[i])
    ensures |ns| == |vs|
    ensures forall i :: 0 <= i < |vs| ==> ns[i] == CourseCount(vs[i]) >= 0
  {
    seq(|vs|, i requires 0 <= i < |vs| => CourseCount(vs[i]))
  }

  function DepartmentColumn(vs: seq<Entry>): (ds: seq<string>)
    requires forall i :: 0 <= i < |vs| ==> vs[i].Lecturer?
    ensures |ds| == |vs|
    ensures forall i :: 0 <= i < |vs| ==> ds[i] == vs[i].department
  {
    seq(|vs|, i requires 0 <= i < |vs| => vs[i].department)
  }

  /** The number of course assignments over all valid lecturers. */
  function TotalAssignments(es: seq<Entry>): (n: int)
    ensures n >= 0
  {
    var counts := CourseCounts(ValidLecturers(es));
    Seqs.SumNonNegative(counts);
    Seqs.Sum(counts)
  }

  /** `averageCourses` is a mean shown with one decimal; the model keeps the
      exact real number. */
  datatype Stats = Stats(total: nat, withCourses: nat, withoutCourses: nat, departments: nat, averageCourses: real)

  function ComputeStats(es: seq<Entry>): (st: Stats)
    ensures st.total == |ValidLecturers(es)|
    ensures st.withCourses == Seqs.Count(ValidLecturers(es), WithCourses)
    ensures st.withoutCourses == Seqs.Count(ValidLecturers(es), WithoutCourses)
    ensures st.withCourses + st.withoutCourses == st.total
    ensures st.departments == |Seqs.Elements(DepartmentColumn(ValidLecturers(es)))| <= st.total
    ensures st.total == 0 ==> st.averageCourses == 0.0
    ensures st.averageCourses == Seqs.Mean(TotalAssignments(es), st.total) && st.averageCourses >= 0.0
  {
    var vs := ValidLecturers(es);
    Seqs.CountComplement(vs, WithCourses, WithoutCourses);
    Seqs.DistinctCard(DepartmentColumn(vs));
    var counts := CourseCounts(vs);
    Seqs.SumNonNegative(counts);
    var mean := Seqs.Mean(Seqs.Sum(counts), |vs|);
    Stats(
      |vs|,
      Seqs.Count(vs, WithCourses),
      Seqs.Count(vs, WithoutCourses),
      |Seqs.Distinct(DepartmentColumn(vs))|,
      mean)
  }

  /** The average is zero exactly when no valid lecturer has a course. */
  lemma AverageZeroIffNoCourses(es: seq<Entry>)
    ensures ComputeStats(es).averageCourses == 0.0 <==> ComputeStats(es).withCourses == 0
  {
    var vs := ValidLecturers(es);
    var counts := CourseCounts(vs);
    var st := ComputeStats(es);
    Seqs.SumNonNegative(counts);
    assert forall i :: 0 <= i < |vs| && WithCourses(vs[i]) ==> vs[i] in Seqs.Filter(vs, WithCourses);
    if st.withCourses == 0 {
      Seqs.SumZeros(counts);
    } else {
      WithCoursesWitness(vs);
    }
  }

  lemma WithCoursesWitness(vs: seq<Entry>)
    requires forall i :: 0 <= i < |vs| ==> IsValid(vs[i])
    requires Seqs.Count(vs, WithCourses) > 0
    ensures exists i :: 0 <= i < |vs| && CourseCounts(vs)[i] > 0
  {
    var w := Seqs.Filter(vs, WithCourses)[0];
    assert w in vs;
    var i :| 0 <= i < |vs| && vs[i] == w;
    assert CourseCounts(vs)[i] > 0;
  }

  /** Every department the cards count belongs to some valid lecturer. */
  lemma DepartmentsCounted(es: seq<Entry>, l: Entry)
    requires l in es && IsValid(l)
    ensures l.department in Seqs.Distinct(DepartmentColumn(ValidLecturers(es)))
  {
    var vs := ValidLecturers(es);
    var i :| 0 <= i < |vs| && vs[i] == l;
    assert DepartmentColumn(vs)[i] == l.department;
  }
}

=== FILE: admin_login.dfy ===
/** The administrator sign-in handler `POST /api/admin/login`
    (app/api/admin/login/route.ts): required fields, the anchored e-mail
    pattern, then a comparison with the configured credentials. The
    environment variables and the clock are parameters. */
module AdminLogin {
  import opened Wrappers
  import Js
  import EmailPatterns

  const DefaultEmail := "admin@university.edu"
  const DefaultPassword := "admin123"
  const Permissions := ["manage_students", "manage_lecturers", "manage_courses", "view_reports"]

  /** `ADMIN_EMAIL` and `ADMIN_PASSWORD`, each possibly unset. */
  datatype Env = Env(adminEmail: Option<string>, adminPassword: Option<string>)

  /** The configured credentials: an unset or empty variable falls back to
      its default. */
  function Credentials(env: Env): (c: (string, string))
    ensures c.0 == Js.OrStr(env.adminEmail, DefaultEmail) && c.1 == Js.OrStr(env.adminPassword, DefaultPassword)
    ensures c.0 != "" && c.1 != ""
  {
    (Js.OrStr(env.adminEmail, DefaultEmail), Js.OrStr(env.adminPassword, DefaultPassword))
  }

  datatype Body = Malformed | Parsed(email: Option<string>, password: Option<string>)

  datatype Admin = Admin(email: string, role: string, loginTime: string, permissions: seq<string>)

  datatype Response = Success(message: string, admin: Admin) | Failure(status: int, error: string)

  function Post(env: Env, body: Body, now: string): (r: Response)
    ensures body.Malformed? ==> r == Failure(500, "Internal server error")
    ensures body.Parsed? && (!Js.TruthyStr(body.email) || !Js.TruthyStr(body.password)) ==>
      r == Failure(400, "Email and password are required")
    ensures body.Parsed? && Js.TruthyStr(body.email) && Js.TruthyStr(body.password) && !EmailPatterns.AnchoredEmail(body.email.value) ==>
      r == Failure(400, "Please enter a valid email address")
    ensures r.Success? <==> body.Parsed? && body.email.Some? && body.password.Some?
                             && EmailPatterns.AnchoredEmail(body.email.value)
                             && (body.email.value, body.password.value) == Credentials(env)
    ensures r.Success? ==> r == Success("Login successful", Admin(body.email.value, "admin", now, Permissions))
    ensures body.Parsed? && Js.TruthyStr(body.email) && Js.TruthyStr(body.password) && EmailPatterns.AnchoredEmail(body.email.value)
            && (body.email.value, body.password.value) != Credentials(env) ==>
      r == Failure(401, "Invalid email or password")
  {
    match body
    case Malformed => Failure(500, "Internal server error")
    case Parsed(email, password) =>
      if !Js.TruthyStr(email) || !Js.TruthyStr(password) then Failure(400, "Email and password are required")
      else if !EmailPatterns.AnchoredEmail(email.value) then Failure(400, "Please enter a valid email address")
      else if (email.value, password.value) == Credentials(env) then
        Success("Login successful", Admin(email.value, "admin", now, Permissions))
      else Failure(401, "Invalid email or password")
  }

  /** With no configuration the default administrator signs in. */
  lemma DefaultAdminSignsIn(now: string)
    ensures Post(Env(None, None), Parsed(Some(DefaultEmail), Some(DefaultPassword)), now).Success?
  {
    DefaultEmailWellFormed();
  }

  lemma DefaultEmailWellFormed()
    ensures EmailPatterns.AnchoredEmail(DefaultEmail)
  {
    var s := DefaultEmail;
    assert s[..5] == "admin" && s[6..16] == "university" && s[17..] == "edu";
    assert EmailPatterns.NoSpaceNoAt("admin");
    assert EmailPatterns.NoSpaceNoAt("university");
    assert EmailPatterns.NoSpaceNoAt("edu");
    assert EmailPatterns.AnchoredAt(s, 5, 16);
  }

  /** A configured address the pattern rejects locks the administrator out:
      no request succeeds. */
  lemma MalformedConfiguredEmailLocksOut(env: Env, body: Body, now: string)
    requires !EmailPatterns.AnchoredEmail(Credentials(env).0)
    ensures !Post(env, body, now).Success?
  {
  }
}

=== FILE: assign_course_form.dfy ===
/** The course-assignment form (components/admin/assign-course-form.tsx):
    it normalizes whatever course shape it receives, offers only courses
    without a lecturer, and sends one assignment request. */
module AssignCourseForm {
  import opened Wrappers
  import Js
  import Text
  import Seqs
  import AdminCourses

  type Course = AdminCourses.Course
  type Lecturer = AdminCourses.Lecturer

  /** A course in either naming convention: every field the form reads may
      come in snake_case or camelCase. */
  datatype RawCourse = RawCourse(
    id: string,
    courseCode: Option<string>, courseCodeCamel: Option<string>,
    name: Option<string>, courseName: Option<string>,
    session: Option<string>,
    lecturerId: Js.Scalar, lecturerIdCamel: Js.Scalar,
    lecturerName: Js.Scalar, lecturerNameCamel: Js.Scalar,
    studentCount: Option<int>, studentCountCamel: Option<int>,
    averageAttendance: Option<int>, averageAttendanceCamel: Option<int>)

  /** `a || b` on optional numbers. */
  function OrOptNum(a: Option<int>, b: Option<int>): (r: Option<int>)
    ensures Js.TruthyNum(a) ==> r == a
    ensures !Js.TruthyNum(a) ==> r == b
  {
    if Js.TruthyNum(a) then a else b
  }

  /** Lines 40-49: each field is the snake_case value when truthy, else the
      camelCase one. */
  function Normalize(c: RawCourse): (n: Course)
    ensures n.id == c.id && n.session == c.session
    ensures n.courseCode == Js.OrOpt(c.courseCode, c.courseCodeCamel)
    ensures n.name == Js.OrOpt(c.name, c.courseName)
    ensures n.lecturerId == Js.Or(c.lecturerId, c.lecturerIdCamel)
    ensures n.lecturerName == Js.Or(c.lecturerName, c.lecturerNameCamel)
    ensures Js.TruthyStr(c.courseCode) ==> n.courseCode == c.courseCode
    ensures Js.Truthy(n.lecturerId) <==> Js.Truthy(c.lecturerId) || Js.Truthy(c.lecturerIdCamel)
  {
    AdminCourses.Course(
      c.id,
      Js.OrOpt(c.courseCode, c.courseCodeCamel),
      Js.OrOpt(c.name, c.courseName),
      c.session,
      Js.Or(c.lecturerId, c.lecturerIdCamel),
      Js.Or(c.lecturerName, c.lecturerNameCamel),
      OrOptNum(c.studentCount, c.studentCountCamel),
      OrOptNum(c.averageAttendance, c.averageAttendanceCamel))
  }

  function NormalizeAll(cs: seq<RawCourse>): (r: seq<Course>)
    ensures |r| == |cs|
    ensures forall i :: 0 <= i < |r| ==> r[i] == Normalize(cs[i])
  {
    seq(|cs|, i requires 0 <= i < |cs| => Normalize(cs[i]))
  }

  /** A raw course as the page hands it over: snake_case only. */
  function FromPage(c: Course): RawCourse {
    RawCourse(c.id, c.courseCode, None, c.name, None, c.session,
              c.lecturerId, Js.Undefined, c.lecturerName, Js.Undefined,
              c.studentCount, None, c.averageAttendance, None)
  }

  /** A course handed over by the page with every optional field set comes
      out of normalization unchanged. */
  lemma NormalizeSnakeCase(c: Course)
    requires Js.TruthyStr(c.courseCode) && Js.TruthyStr(c.name) && Js.Truthy(c.lecturerId) && Js.Truthy(c.lecturerName)
    requires Js.TruthyNum(c.studentCount) && Js.TruthyNum(c.averageAttendance)
    ensures Normalize(FromPage(c)) == c
  {
  }

  /** The filter of lines 52-54. */
  predicate Unassigned(c: Course) {
    !Js.Truthy(c.lecturerId) || c.lecturerId == Js.Str("null")
  }

  function UnassignedCourses(cs: seq<Course>): (r: seq<Course>)
    ensures forall c :: c in r <==> c in cs && Unassigned(c)
    ensures Seqs.Subsequence(r, cs)
    ensures |r| <= |cs|
  {
    Seqs.Filter(cs, Unassigned)
  }

  /** Every course the form offers is one the course page's robust test also
      calls unassigned; the converse fails for a blank lecturer id, which the
      page treats as unassigned but the form does not offer. */
  lemma OfferedAgreesWithPage(c: Course)
    ensures Unassigned(c) ==> !AdminCourses.IsAssigned(c.lecturerId)
    ensures var blank := c.(lecturerId := Js.Str(" "));
            !AdminCourses.IsAssigned(blank.lecturerId) && !Unassigned(blank)
  {
    BlankIdDisagrees(c);
    if Unassigned(c) && c.lecturerId.Num? {
      assert c.lecturerId.n == 0;
    }
  }

  /** A lecturer id of one space is unassigned for the page but truthy, so
      the form does not offer the course. */
  lemma BlankIdDisagrees(c: Course)
    ensures var blank := c.(lecturerId := Js.Str(" "));
            !AdminCourses.IsAssigned(blank.lecturerId) && !Unassigned(blank)
  {
    var space := " ";
    assert |space| == 1 && space[0] == ' ';
    assert Text.AllSpace(space);
    Text.BlankIffAllSpace(space);
    assert |"null"| == 4;
    assert space != "" && space != "null";
    assert Js.Truthy(Js.Str(space));
  }

  datatype FormState = FormState(selectedCourse: Option<Course>, selectedLecturer: Option<Lecturer>, loading: bool, error: string)

  /** The assignment request: it threw (network or unreadable JSON), or it
      answered; an OK answer carries the updated course, an error answer its
      `detail` and `error` fields. */
  datatype AssignReply = AssignThrown | AssignReply(ok: bool, detail: Option<string>, error: Option<string>, course: Course)

  /** The assignment request: a PUT to the course's `assign-lecturer` address
      whose body carries the lecturer's id as `lecturer_id`. */
  datatype Assign = Assign(courseId: string, lecturerId: string)

  /** The state after the handler, the request that went out, if any, and the
      course passed to the page's callback, if any. */
  datatype Outcome = Outcome(state: FormState, request: Option<Assign>, notified: Option<Course>)

  const SelectBoth := "Please select both a course and a lecturer"
  const NetworkError := "Network error. Please try again."

  /** The failure message: `detail || error || "Failed to assign course"`. */
  function FailureMessage(detail: Option<string>, error: Option<string>): (m: string)
    ensures m != ""
    ensures Js.TruthyStr(detail) ==> m == detail.value
    ensures !Js.TruthyStr(detail) && Js.TruthyStr(error) ==> m == error.value
    ensures !Js.TruthyStr(detail) && !Js.TruthyStr(error) ==> m == "Failed to assign course"
  {
    Js.OrStr(detail, Js.OrStr(error, "Failed to assign course"))
  }

  /** `handleAssignCourse`. */
  function HandleAssign(s: FormState, reply: AssignReply): (o: Outcome)
    ensures s.selectedCourse.None? || s.selectedLecturer.None? ==> o == Outcome(s.(error := SelectBoth), None, None)
    ensures o.request == if s.selectedCourse.Some? && s.selectedLecturer.Some?
                         then Some(Assign(s.selectedCourse.value.id, s.selectedLecturer.value.id)) else None
    ensures s.selectedCourse.Some? && s.selectedLecturer.Some? ==> !o.state.loading
    ensures o.notified.Some? <==> s.selectedCourse.Some? && s.selectedLecturer.Some? && reply.AssignReply? && reply.ok
    ensures o.notified.Some? ==>
      o.notified.value == reply.course && o.state.selectedCourse.None? && o.state.selectedLecturer.None? && o.state.error == ""
    ensures s.selectedCourse.Some? && s.selectedLecturer.Some? && o.notified.None? ==>
      o.state.selectedCourse == s.selectedCourse && o.state.selectedLecturer == s.selectedLecturer
      && o.state.error == (if reply.AssignThrown? then NetworkError else FailureMessage(reply.detail, reply.error))
  {
    if s.selectedCourse.None? || s.selectedLecturer.None? then Outcome(s.(error := SelectBoth), None, None)
    else
      var request := Some(Assign(s.selectedCourse.value.id, s.selectedLecturer.value.id));
      match reply
      case AssignThrown => Outcome(s.(loading := false, error := NetworkError), request, None)
      case AssignReply(ok, detail, error, course) =>
        if ok then Outcome(s.(selectedCourse := None, selectedLecturer := None, loading := false, error := ""), request, Some(course))
        else Outcome(s.(loading := false, error := FailureMessage(detail, error)), request, None)
  }

  /** The "Clear Selection" button. */
  function ClearSelection(s: FormState): (t: FormState)
    ensures t.selectedCourse.None? && t.selectedLecturer.None? && t.error == "" && t.loading == s.loading
  {
    s.(selectedCourse := None, selectedLecturer := None, error := "")
  }

  /** Without both selections nothing is sent: after "Clear Selection" the
      handler only asks for a selection. */
  lemma ClearedFormRefuses(s: FormState, reply: AssignReply)
    ensures HandleAssign(ClearSelection(s), reply) == Outcome(ClearSelection(s).(error := SelectBoth), None, None)
  {
  }

  /** The course the form reports is installed by the page in place of the
      course with its id: the list keeps its length and ids, and shows the
      reported course when its id was listed. */
  lemma ReportedCourseInstalled(p: AdminCourses.PageState, s: FormState, reply: AssignReply)
    requires HandleAssign(s, reply).notified.Some?
    ensures var c := HandleAssign(s, reply).notified.value;
            var q := AdminCourses.CourseAssigned(p, c);
            && c == reply.course
            && |q.courses| == |p.courses|
            && (forall i :: 0 <= i < |p.courses| ==> q.courses[i].id == p.courses[i].id)
            && ((exists i :: 0 <= i < |p.courses| && p.courses[i].id == c.id) ==> c in q.courses)
  {
    AdminCourses.AssignedCourseShown(p, HandleAssign(s, reply).notified.value);
  }
}

=== FILE: attendance_records.dfy ===
/** The lecturer's attendance-records page
    (app/lecturer/attendance/records/page.tsx): the course's sessions, the
    records of the selected session, and the CSV export of that session. */
module AttendanceRecords {
  import opened Wrappers
  import Text
  import Seqs
  import Csv

  datatype Course = Course(id: string, courseCode: string, courseName: string, session: string)

  datatype Session = Session(id: string, date: string, sessionNumber: int, totalPresent: int)

  datatype Record = Record(id: string, studentId: string, studentName: string, timeRecorded: string, status: string)

  /** The page's data; the backend may leave out the course, and the records
      are absent until a session has been loaded. */
  datatype AttendanceData = AttendanceData(course: Option<Course>, sessions: seq<Session>, selectedSessionRecords: Option<seq<Record>>)

  datatype PageState = PageState(data: Option<AttendanceData>, selectedSessionId: string, isLoading: bool, isLoadingRecords: bool)

  /** A request: it threw, or it answered with its ok flag and payload. */
  datatype Reply<T> = Thrown | Reply(ok: bool, payload: T)

  // ---------------------------------------------------------------------
  // Loading (lines 52-113)

  /** `fetchAttendanceData`: an OK answer replaces the data; anything else
      leaves it. */
  function DataFetched(p: PageState, reply: Reply<AttendanceData>): (q: PageState)
    ensures reply.Reply? && reply.ok ==> q.data == Some(reply.payload)
    ensures !(reply.Reply? && reply.ok) ==> q.data == p.data
    ensures !q.isLoading && q.selectedSessionId == p.selectedSessionId && q.isLoadingRecords == p.isLoadingRecords
  {
    if reply.Reply? && reply.ok then p.(data := Some(reply.payload), isLoading := false)
    else p.(isLoading := false)
  }

  /** `fetchSessionRecords`: nothing without a course id or a session id; an
      OK answer sets the records of the current data, if any. */
  function RecordsFetched(p: PageState, courseId: string, sessionId: string, reply: Reply<Option<seq<Record>>>): (q: PageState)
    ensures courseId == "" || sessionId == "" ==> q == p
    ensures q.selectedSessionId == p.selectedSessionId && q.isLoading == p.isLoading && q.isLoadingRecords == p.isLoadingRecords
    ensures q.data.Some? <==> p.data.Some?
    ensures q.data.Some? ==> q.data.value.course == p.data.value.course && q.data.value.sessions == p.data.value.sessions
    ensures courseId != "" && sessionId != "" && reply.Reply? && reply.ok && p.data.Some? ==>
      q.data.value.selectedSessionRecords == reply.payload
    ensures !(reply.Reply? && reply.ok) ==> q == p
  {
    if courseId == "" || sessionId == "" then p
    else if reply.Reply? && reply.ok && p.data.Some? then p.(data := Some(p.data.value.(selectedSessionRecords := reply.payload)))
    else p
  }

  /** `handleSessionSelect`: remember the id, then fetch its records. */
  function SessionSelected(p: PageState, courseId: string, sessionId: string, reply: Reply<Option<seq<Record>>>): (q: PageState)
    ensures q.selectedSessionId == sessionId
    ensures q.data.Some? <==> p.data.Some?
    ensures q.data.Some? ==> q.data.value.course == p.data.value.course && q.data.value.sessions == p.data.value.sessions
  {
    RecordsFetched(p.(selectedSessionId := sessionId), courseId, sessionId, reply)
  }

  // ---------------------------------------------------------------------
  // Export (lines 115-146)

  /** `sessions.find(s => s.id === id)`: the first session with that id. */
  function FindSession(sessions: seq<Session>, id: string): (r: Option<Session>)
    ensures r.Some? ==> r.value in sessions && r.value.id == id
    ensures r.None? <==> forall i :: 0 <= i < |sessions| ==> sessions[i].id != id
    ensures r.Some? ==> exists i :: 0 <= i < |sessions| && sessions[i] == r.value && forall j :: 0 <= j < i ==> sessions[j].id != id
  {
    if |sessions| == 0 then None
    else if sessions[0].id == id then Some(sessions[0])
    else
      var r := FindSession(sessions[1..], id);
      if r.Some? then
        assert forall i :: 0 <= i < |sessions[1..]| ==> sessions[1..][i] == sessions[i + 1];
        r
      else r
  }

  const Header := ["ID", "Name", "Time", "Status"]

  function Cells(r: Record): (cells: seq<string>)
    ensures |cells| == 4 && cells[0] == r.studentId && cells[1] == r.studentName && cells[2] == r.timeRecorded && cells[3] == r.status
  {
    [r.studentId, r.studentName, r.timeRecorded, r.status]
  }

  function Rows(records: seq<Record>): (rows: seq<seq<string>>)
    ensures |rows| == |records|
    ensures forall i :: 0 <= i < |rows| ==> rows[i] == Cells(records[i])
  {
    seq(|records|, i requires 0 <= i < |records| => Cells(records[i]))
  }

  function CsvText(records: seq<Record>): string {
    Csv.Render(Header, Rows(records))
  }

  /** The download name: the course code, "_attendance_", and only the digits
      of the session's date. */
  function FileName(code: string, date: string): string {
    code + "_attendance_" + Text.KeepChars(date, Text.IsDigit) + ".csv"
  }

  /** `exportSessionData`: the text and the file name, or nothing when there
      are no records (an empty list still exports), no course, or no session
      with the selected id. */
  function Export(data: Option<AttendanceData>, selectedSessionId: string): (r: Option<(string, string)>)
    ensures r.Some? <==> data.Some? && data.value.selectedSessionRecords.Some? && data.value.course.Some?
                         && FindSession(data.value.sessions, selectedSessionId).Some?
    ensures r.Some? ==> r.value.0 == CsvText(data.value.selectedSessionRecords.value)
    ensures r.Some? ==> r.value.1 == FileName(data.value.course.value.courseCode, FindSession(data.value.sessions, selectedSessionId).value.date)
  {
    if data.None? || data.value.selectedSessionRecords.None? || data.value.course.None? then None
    else
      var session := FindSession(data.value.sessions, selectedSessionId);
      if session.None? then None
      else Some((CsvText(data.value.selectedSessionRecords.value), FileName(data.value.course.value.courseCode, session.value.date)))
  }

  /** No header cell holds a comma or a line break. */
  lemma HeaderPlain()
    ensures Csv.PlainRow(Header)
  {
    assert Csv.PlainCell("ID") && Csv.PlainCell("Name") && Csv.PlainCell("Time") && Csv.PlainCell("Status");
  }

  /** With plain cells the export reads back as the header line and then
      every record's four cells, in order. */
  lemma CsvRoundTrip(records: seq<Record>)
    requires forall i :: 0 <= i < |records| ==> Csv.PlainRow(Cells(records[i]))
    ensures |Text.Split(CsvText(records), '\n')| == |records| + 1
    ensures Text.Split(Text.Split(CsvText(records), '\n')[0], ',') == Header
    ensures forall i :: 0 <= i < |records| ==> Text.Split(Text.Split(CsvText(records), '\n')[i + 1], ',') == Cells(records[i])
  {
    HeaderPlain();
    Csv.RoundTrip(Header, Rows(records));
  }

  /** The file name's stamp is digits only, whatever the date's separators. */
  lemma FileNameDigits(code: string, date: string)
    ensures var stamp := Text.KeepChars(date, Text.IsDigit);
            FileName(code, date) == code + "_attendance_" + stamp + ".csv" && Text.AllDigits(stamp) && |stamp| <= |date|
  {
  }

  // ---------------------------------------------------------------------
  // Summary line (lines 388-393)

  predicate IsPresent(r: Record) { r.status == "Present" }

  /** The "Present" count shown next to the total. */
  function PresentCount(records: seq<Record>): (n: nat)
    ensures n <= |records|
    ensures n == |records| <==> forall i :: 0 <= i < |records| ==> IsPresent(records[i])
  {
    Seqs.CountAll(records, IsPresent);
    Seqs.Count(records, IsPresent)
  }
}

=== FILE: attendance_summary.dfy ===
/** The administrator's course attendance summary (app/admin/attendance/summary/page.tsx):
    the course list it maps from the backend, the summary figures computed
    from one course's students, and course selection. */
module AttendanceSummary {
  import opened Wrappers
  import Js
  import DetailedReport

  /** A course as the backend sends it, with the fields the portal's pages
      read (`lecturer_name` among them). */
  datatype RawCourse = RawCourse(id: Js.Scalar, courseId: Js.Scalar, courseCode: Option<string>, name: Option<string>, session: Option<string>, lecturerName: Option<string>)

  datatype Course = Course(id: string, courseCode: Option<string>, courseName: Option<string>, session: Option<string>, lecturerName: Option<string>)

  /** The courses endpoint answers a bare array or an object whose `courses`
      field is an array or something else (None). */
  datatype Payload = Listed(all: seq<RawCourse>) | Wrapped(courses: Option<seq<RawCourse>>)

  datatype Reply = Thrown | Reply(ok: bool, payload: Payload)

  // ---------------------------------------------------------------------
  // Course mapping (lines 66-72)

  /** The mapping as written: line 71 reads `c.lecturer_ename`, a key no
      course record carries, so the lecturer name is always undefined. */
  function MapCourseAsWritten(c: RawCourse): (r: Course)
    ensures r.id == Js.ToStr(Js.Or(c.id, c.courseId))
    ensures r.lecturerName == None
  {
    Course(Js.ToStr(Js.Or(c.id, c.courseId)), c.courseCode, c.name, c.session, None)
  }

  /** A course with a lecturer loses its name under the mapping as written. */
  lemma AsWrittenDropsLecturer()
    ensures var c := RawCourse(Js.Num(7), Js.Undefined, Some("CEF502"), Some("Networks"), Some("2024/2025"), Some("Dr. Tabi"));
            MapCourseAsWritten(c).lecturerName == None && c.lecturerName == Some("Dr. Tabi")
  {
  }

  /** The mapping with `lecturer_name`, as the other pages read it. */
  function MapCourse(c: RawCourse): (r: Course)
    ensures r.id == Js.ToStr(Js.Or(c.id, c.courseId))
    ensures Js.Truthy(c.id) && c.id.Str? ==> r.id == c.id.s
    ensures !Js.Truthy(c.id) && c.courseId.Str? ==> r.id == c.courseId.s
    ensures r.courseCode == c.courseCode && r.courseName == c.name && r.session == c.session
    ensures r.lecturerName == c.lecturerName
  {
    Course(Js.ToStr(Js.Or(c.id, c.courseId)), c.courseCode, c.name, c.session, c.lecturerName)
  }

  /** The two mappings differ only in the lecturer name. */
  lemma MappingsDifferOnlyInLecturer(c: RawCourse)
    ensures MapCourseAsWritten(c) == MapCourse(c).(lecturerName := None)
  {
  }

  /** The list mapping as written: every course, in order, without a
      lecturer name. */
  function MapCoursesAsWritten(cs: seq<RawCourse>): (r: seq<Course>)
    ensures |r| == |cs|
    ensures forall i :: 0 <= i < |r| ==> r[i] == MapCourseAsWritten(cs[i]) && r[i].lecturerName == None
  {
    seq(|cs|, i requires 0 <= i < |cs| => MapCourseAsWritten(cs[i]))
  }

  /** The list mapping with the corrected lecturer field. */
  function MapCourses(cs: seq<RawCourse>): (r: seq<Course>)
    ensures |r| == |cs|
    ensures forall i :: 0 <= i < |r| ==> r[i] == MapCourse(cs[i])
  {
    seq(|cs|, i requires 0 <= i < |cs| => MapCourse(cs[i]))
  }

  datatype PageState = PageState(
    courses: seq<Course>, selectedCourse: Option<Course>, summary: Option<Summary>,
    students: seq<DetailedReport.StudentAttendance>, showDetailedReport: bool, loading: bool)

  /** `fetchCourses` as written: only an OK answer changes the list, and the
      installed courses never name a lecturer. */
  function CoursesLoadedAsWritten(p: PageState, reply: Reply): (q: PageState)
    ensures reply.Thrown? || !reply.ok ==> q == p
    ensures reply.Reply? && reply.ok && reply.payload.Listed? ==> q == p.(courses := MapCoursesAsWritten(reply.payload.all))
    ensures reply.Reply? && reply.ok && reply.payload.Wrapped? ==> q == p.(courses := MapCoursesAsWritten(reply.payload.courses.GetOr([])))
    ensures reply.Reply? && reply.ok ==> forall i :: 0 <= i < |q.courses| ==> q.courses[i].lecturerName == None
  {
    if reply.Thrown? || !reply.ok then p
    else match reply.payload
      case Listed(all) => p.(courses := MapCoursesAsWritten(all))
      case Wrapped(cs) => p.(courses := MapCoursesAsWritten(cs.GetOr([])))
  }

  /** `fetchCourses` with the corrected lecturer field: only an OK answer
      changes the list. */
  function CoursesLoaded(p: PageState, reply: Reply): (q: PageState)
    ensures reply.Thrown? || !reply.ok ==> q == p
    ensures reply.Reply? && reply.ok && reply.payload.Listed? ==> q == p.(courses := MapCourses(reply.payload.all))
    ensures reply.Reply? && reply.ok && reply.payload.Wrapped? ==> q == p.(courses := MapCourses(reply.payload.courses.GetOr([])))
  {
    if reply.Thrown? || !reply.ok then p
    else match reply.payload
      case Listed(all) => p.(courses := MapCourses(all))
      case Wrapped(cs) => p.(courses := MapCourses(cs.GetOr([])))
  }

  /** The page as written loads the same courses as the corrected loader,
      in the same order, except that no lecturer name survives. */
  lemma CoursesLoadedDifferOnlyInLecturer(p: PageState, reply: Reply)
    ensures |CoursesLoadedAsWritten(p, reply).courses| == |CoursesLoaded(p, reply).courses|
    ensures reply.Reply? && reply.ok ==>
      forall i :: 0 <= i < |CoursesLoaded(p, reply).courses| ==>
        CoursesLoadedAsWritten(p, reply).courses[i] == CoursesLoaded(p, reply).courses[i].(lecturerName := None)
    ensures CoursesLoadedAsWritten(p, reply).(courses := p.courses) == CoursesLoaded(p, reply).(courses := p.courses)
  {
    if reply.Reply? && reply.ok {
      var cs := if reply.payload.Listed? then reply.payload.all else reply.payload.courses.GetOr([]);
      forall i | 0 <= i < |cs| ensures MapCoursesAsWritten(cs)[i] == MapCourses(cs)[i].(lecturerName := None) {
        MappingsDifferOnlyInLecturer(cs[i]);
      }
    }
  }

  // ---------------------------------------------------------------------
  // Summary (lines 98-114)

  /** One student of the summary answer; `attendance_percent` is taken as
      already parsed. */
  datatype RawStudent = RawStudent(studentId: string, name: string, attended: int, attendancePercent: real)

  datatype Summary = Summary(totalSessions: int, attendanceDates: seq<string>, totalStudents: nat,
                             averageAttendance: real, highestAttendance: real, lowestAttendance: real)

  function Percentages(students: seq<RawStudent>): (ps: seq<real>)
    ensures |ps| == |students|
    ensures forall i :: 0 <= i < |ps| ==> ps[i] == students[i].attendancePercent
  {
    seq(|students|, i requires 0 <= i < |students| => students[i].attendancePercent)
  }

  function SumReal(s: seq<real>): real {
    if |s| == 0 then 0.0 else SumReal(s[..|s| - 1]) + s[|s| - 1]
  }

  /** `Math.max(...s)` of a non-empty list. */
  function Max(s: seq<real>): (m: real)
    requires |s| > 0
    ensures m in s
    ensures forall i :: 0 <= i < |s| ==> s[i] <= m
  {
    if |s| == 1 then s[0]
    else
      var m := Max(s[..|s| - 1]);
      assert forall i :: 0 <= i < |s| - 1 ==> s[..|s| - 1][i] == s[i];
      if s[|s| - 1] > m then s[|s| - 1] else m
  }

  /** `Math.min(...s)` of a non-empty list. */
  function Min(s: seq<real>): (m: real)
    requires |s| > 0
    ensures m in s
    ensures forall i :: 0 <= i < |s| ==> m <= s[i]
  {
    if |s| == 1 then s[0]
    else
      var m := Min(s[..|s| - 1]);
      assert forall i :: 0 <= i < |s| - 1 ==> s[..|s| - 1][i] == s[i];
      if s[|s| - 1] < m then s[|s| - 1] else m
  }

  function Summarize(totalSessions: int, students: seq<RawStudent>): (s: Summary)
    ensures s.totalStudents == |students| && s.attendanceDates == [] && s.totalSessions == totalSessions
    ensures |students| == 0 ==> s.averageAttendance == 0.0 && s.highestAttendance == 0.0 && s.lowestAttendance == 0.0
    ensures |students| > 0 ==> s.averageAttendance * (|students| as real) == SumReal(Percentages(students))
    ensures |students| > 0 ==> s.highestAttendance in Percentages(students) && s.lowestAttendance in Percentages(students)
    ensures forall i :: 0 <= i < |students| ==> s.lowestAttendance <= students[i].attendancePercent <= s.highestAttendance
  {
    var ps := Percentages(students);
    if |students| == 0 then Summary(totalSessions, [], 0, 0.0, 0.0, 0.0)
    else Summary(totalSessions, [], |students|, SumReal(ps) / (|students| as real), Max(ps), Min(ps))
  }

  /** A sum of n terms lies between n times the least and n times the
      greatest. */
  lemma {:induction false} SumBetween(s: seq<real>, lo: real, hi: real)
    requires forall i :: 0 <= i < |s| ==> lo <= s[i] <= hi
    ensures (|s| as real) * lo <= SumReal(s) <= (|s| as real) * hi
  {
    if |s| > 0 {
      var t := s[..|s| - 1];
      assert forall i :: 0 <= i < |t| ==> t[i] == s[i];
      SumBetween(t, lo, hi);
      assert (|s| as real) * lo == (|t| as real) * lo + lo;
      assert (|s| as real) * hi == (|t| as real) * hi + hi;
    }
  }

  /** The average lies between the lowest and the highest percentage. */
  lemma AverageBetweenExtremes(totalSessions: int, students: seq<RawStudent>)
    ensures var s := Summarize(totalSessions, students);
            s.lowestAttendance <= s.averageAttendance <= s.highestAttendance
  {
    var s := Summarize(totalSessions, students);
    if |students| > 0 {
      MeanBetween(Percentages(students), s.averageAttendance, s.lowestAttendance, s.highestAttendance);
    }
  }

  /** A mean of values within [lo, hi] lies within [lo, hi]. */
  lemma MeanBetween(ps: seq<real>, avg: real, lo: real, hi: real)
    requires |ps| > 0 && avg * (|ps| as real) == SumReal(ps)
    requires forall i :: 0 <= i < |ps| ==> lo <= ps[i] <= hi
    ensures lo <= avg <= hi
  {
    SumBetween(ps, lo, hi);
    var n := |ps| as real;
    assert n * lo <= SumReal(ps) <= n * hi;
    assert n * avg == SumReal(ps);
    ScaleLe(n, lo, avg);
    ScaleLe(n, avg, hi);
  }

  /** A positive factor can be divided out of an inequality. */
  lemma ScaleLe(n: real, a: real, b: real)
    requires n > 0.0 && n * a <= n * b
    ensures a <= b
  {
    assert n * (b - a) == n * b - n * a;
  }

  /** One detailed-report row per backend student, in order, without per-date
      records. */
  function MapStudents(students: seq<RawStudent>): (r: seq<DetailedReport.StudentAttendance>)
    ensures |r| == |students|
    ensures forall i :: 0 <= i < |r| ==>
      r[i] == DetailedReport.StudentAttendance(students[i].studentId, students[i].name, map[], students[i].attended, students[i].attendancePercent)
  {
    seq(|students|, i requires 0 <= i < |students| =>
      DetailedReport.StudentAttendance(students[i].studentId, students[i].name, map[], students[i].attended, students[i].attendancePercent))
  }

  datatype SummaryReply = SummaryThrown | SummaryReply(ok: bool, totalSessions: int, students: seq<RawStudent>)

  /** `fetchAttendanceSummary`: an OK answer sets the summary and the rows;
      anything else keeps them. Loading ends either way. */
  function SummaryLoaded(p: PageState, reply: SummaryReply): (q: PageState)
    ensures !q.loading && q.courses == p.courses && q.selectedCourse == p.selectedCourse && q.showDetailedReport == p.showDetailedReport
    ensures reply.SummaryReply? && reply.ok ==>
      q.summary == Some(Summarize(reply.totalSessions, reply.students)) && q.students == MapStudents(reply.students)
    ensures reply.SummaryThrown? || !reply.ok ==> q.summary == p.summary && q.students == p.students
  {
    if reply.SummaryReply? && reply.ok then
      p.(summary := Some(Summarize(reply.totalSessions, reply.students)), students := MapStudents(reply.students), loading := false)
    else p.(loading := false)
  }

  /** With no dates and no per-date records, every row of the detailed
      report shows every date as "Absent", whatever dates it is given. */
  lemma RowsAllAbsent(students: seq<RawStudent>, dates: seq<string>)
    ensures forall i, k :: 0 <= i < |students| && 0 <= k < |dates| ==> DetailedReport.Row(MapStudents(students)[i], dates)[k] == "Absent"
  {
  }

  // ---------------------------------------------------------------------
  // Selection (lines 133-140)

  /** `courses.find(c => c.id === courseId)`. */
  function Find(courses: seq<Course>, id: string): (r: Option<Course>)
    ensures r.None? <==> forall i :: 0 <= i < |courses| ==> courses[i].id != id
    ensures r.Some? ==> exists i :: 0 <= i < |courses| && courses[i] == r.value && r.value.id == id && (forall j :: 0 <= j < i ==> courses[j].id != id)
  {
    if |courses| == 0 then None
    else if courses[0].id == id then Some(courses[0])
    else
      var r := Find(courses[1..], id);
      assert forall i :: 0 <= i < |courses| - 1 ==> courses[1..][i] == courses[i + 1];
      r
  }

  /** `handleCourseSelect`: a known id selects the first course with that id,
      hides the detailed report and asks for its summary; an unknown id
      changes nothing and asks for nothing. */
  function Select(p: PageState, id: string): (r: (PageState, Option<string>))
    ensures Find(p.courses, id).None? ==> r == (p, None)
    ensures Find(p.courses, id).Some? ==>
      r.0 == p.(selectedCourse := Find(p.courses, id), showDetailedReport := false) && r.1 == Some(id)
  {
    var c := Find(p.courses, id);
    if c.None? then (p, None) else (p.(selectedCourse := c, showDetailedReport := false), Some(id))
  }
}

=== FILE: auth.dfy ===
/** The authentication context (lib/auth-context.tsx): the signed-in user
    and token, kept in memory and mirrored in local storage under
    `auth_token` and `auth_user`. Storage is a value passed in and out; the
    user record is kept as a value rather than as JSON text. */
module Auth {
  import opened Wrappers
  import Js

  /** `username` and `role` come from the backend and may be missing. */
  datatype User = User(id: int, username: Option<string>, email: string, role: Option<string>)

  /** The two storage entries, each possibly absent. */
  datatype Storage = Storage(token: Option<string>, user: Option<User>)

  /** In-memory state; a token of None is null or undefined. */
  datatype AuthState = AuthState(user: Option<User>, token: Option<string>, isLoading: bool)

  const Initial := AuthState(None, None, true)

  /** `isAuthenticated: !!user && !!token`. */
  predicate IsAuthenticated(st: AuthState) {
    st.user.Some? && Js.TruthyStr(st.token)
  }

  /** The effect on mount: both saved entries present (the token non-empty)
      restore the session; loading ends either way. */
  function Restore(st: AuthState, storage: Storage): (t: AuthState)
    ensures !t.isLoading
    ensures Js.TruthyStr(storage.token) && storage.user.Some? ==> t.user == storage.user && t.token == storage.token
    ensures !(Js.TruthyStr(storage.token) && storage.user.Some?) ==> t == st.(isLoading := false)
    ensures IsAuthenticated(t) <==> IsAuthenticated(st) || (Js.TruthyStr(storage.token) && storage.user.Some?)
  {
    if Js.TruthyStr(storage.token) && storage.user.Some? then AuthState(storage.user, storage.token, false)
    else st.(isLoading := false)
  }

  /** The sign-in answer: any failure (a thrown request, a non-OK status, an
      unreadable body), or the body's `name`, `role` and `access_token`. */
  datatype LoginReply = LoginFailed | LoginOk(name: Option<string>, role: Option<string>, accessToken: Option<string>)

  /** The result of `login`: new state, new storage, and the returned flag. */
  datatype LoginResult = LoginResult(state: AuthState, storage: Storage, success: bool)

  /** `localStorage.setItem(key, value)` stores `String(value)`: a missing
      value is stored as the text "undefined". */
  function Stored(v: Option<string>): (r: string)
    ensures v.Some? ==> r == v.value
    ensures v.None? ==> r == "undefined"
  {
    if v.Some? then v.value else "undefined"
  }

  /** `login` as written: any OK answer counts as success, even one without
      an access token. */
  function LoginAsWritten(st: AuthState, storage: Storage, email: string, reply: LoginReply): (r: LoginResult)
    ensures reply.LoginFailed? ==> r == LoginResult(st, storage, false)
    ensures reply.LoginOk? ==> r.success
    ensures reply.LoginOk? ==> r.state.user == Some(User(0, reply.name, email, reply.role)) && r.state.token == reply.accessToken
    ensures reply.LoginOk? ==> r.storage == Storage(Some(Stored(reply.accessToken)), r.state.user)
  {
    match reply
    case LoginFailed => LoginResult(st, storage, false)
    case LoginOk(name, role, token) =>
      var user := User(0, name, email, role);
      LoginResult(st.(user := Some(user), token := token), Storage(Some(Stored(token)), Some(user)), true)
  }

  /** An OK answer without `access_token` reports success but leaves the
      page signed out, and a reload then restores a session whose token is
      the text "undefined". */
  lemma AsWrittenMissingTokenDisagrees(st: AuthState, storage: Storage, email: string)
    ensures var r := LoginAsWritten(st, storage, email, LoginOk(Some("Dr Sop"), Some("lecturer"), None));
            && r.success
            && !IsAuthenticated(r.state)
            && IsAuthenticated(Restore(Initial, r.storage))
            && Restore(Initial, r.storage).token == Some("undefined")
  {
  }

  /** `login` with a missing or empty token treated as a failure; every other
      answer is handled as written. */
  function Login(st: AuthState, storage: Storage, email: string, reply: LoginReply): (r: LoginResult)
    ensures reply.LoginFailed? || (reply.LoginOk? && !Js.TruthyStr(reply.accessToken)) ==> r == LoginResult(st, storage, false)
    ensures reply.LoginOk? && Js.TruthyStr(reply.accessToken) ==> r == LoginAsWritten(st, storage, email, reply)
  {
    if reply.LoginOk? && Js.TruthyStr(reply.accessToken) then LoginAsWritten(st, storage, email, reply)
    else LoginResult(st, storage, false)
  }

  /** The flag tells the truth, and a reload after a successful sign-in
      restores exactly the signed-in session. */
  lemma LoginPersists(st: AuthState, storage: Storage, email: string, reply: LoginReply)
    ensures var r := Login(st, storage, email, reply);
            && (r.success ==> IsAuthenticated(r.state))
            && (r.success <==> reply.LoginOk? && Js.TruthyStr(reply.accessToken))
            && (r.success ==> Restore(Initial, r.storage) == r.state.(isLoading := false))
            && (!r.success ==> r.state == st && r.storage == storage)
  {
  }

  /** `logout`: both state fields and both storage entries cleared. */
  function Logout(st: AuthState, storage: Storage): (r: (AuthState, Storage))
    ensures r.0 == st.(user := None, token := None) && r.1 == Storage(None, None)
    ensures !IsAuthenticated(r.0)
  {
    (st.(user := None, token := None), Storage(None, None))
  }

  /** Logging out twice is logging out once, and a reload after it restores
      nothing. */
  lemma LogoutIdempotent(st: AuthState, storage: Storage)
    ensures var (s1, t1) := Logout(st, storage);
            Logout(s1, t1) == (s1, t1) && !IsAuthenticated(Restore(s1, t1))
  {
  }
}

=== FILE: camera_registration.dfy ===
/** Registration with live camera samples
    (components/admin/live-camera-registration.tsx): ten frames are taken on
    a timer, then sent with the form. The camera and canvas are left out; a
    capture is an optional frame (a data URL) handed to each tick. */
module CameraRegistration {
  import opened Wrappers
  import Js
  import Text
  import Registration

  const TotalSamples: nat := 10
  const CameraFailed := "Failed to access camera. Please ensure camera permissions are granted."
  const TooFew := "Please capture all 10 facial samples before submitting"
  const DefaultMime := "image/jpeg"

  datatype State = State(
    form: Registration.FormData,
    streamOn: bool,
    cameraError: string,
    isCapturing: bool,
    captureProgress: real,
    capturedSamples: nat,
    capturedImages: seq<string>,
    error: string,
    isSubmitting: bool)

  const Initial := State(Registration.Empty, false, "", false, 0.0, 0, [], "", false)

  // ---------------------------------------------------------------------
  // Camera (lines 64-90)

  /** `startCamera`: whether the browser granted a stream. */
  function StartCamera(s: State, granted: bool): (t: State)
    ensures granted ==> t == s.(streamOn := true, cameraError := "")
    ensures !granted ==> t == s.(cameraError := CameraFailed)
  {
    if granted then s.(streamOn := true, cameraError := "") else s.(cameraError := CameraFailed)
  }

  function StopCamera(s: State): (t: State)
    ensures t == s.(streamOn := false)
  {
    s.(streamOn := false)
  }

  // ---------------------------------------------------------------------
  // Capturing (lines 108-139)

  /** The sampling invariant: at most ten samples, never more images than
      samples, the progress is the sample share in percent, and a running
      capture has not reached ten. */
  predicate Valid(s: State) {
    s.capturedSamples <= TotalSamples
    && |s.capturedImages| <= s.capturedSamples
    && s.captureProgress == s.capturedSamples as real * 10.0
    && (s.isCapturing ==> s.capturedSamples < TotalSamples)
  }

  /** `startCapturing`: nothing without a stream (a toast instead); else the
      count, the progress and the images start over. */
  function StartCapturing(s: State): (t: State)
    ensures !s.streamOn ==> t == s
    ensures s.streamOn ==> t == s.(isCapturing := true, capturedSamples := 0, captureProgress := 0.0, capturedImages := [])
    ensures Valid(s) ==> Valid(t)
  {
    if !s.streamOn then s
    else s.(isCapturing := true, capturedSamples := 0, captureProgress := 0.0, capturedImages := [])
  }

  /** One firing of the interval, which only runs while capturing: the count
      goes up, the progress follows, the interval stops at ten, and a frame is
      kept when the canvas produced one. */
  function Tick(s: State, frame: Option<string>): (t: State)
    ensures !s.isCapturing ==> t == s
    ensures s.isCapturing ==> t.capturedSamples == s.capturedSamples + 1
    ensures s.isCapturing ==> t.captureProgress == t.capturedSamples as real / TotalSamples as real * 100.0
    ensures s.isCapturing ==> (t.isCapturing <==> t.capturedSamples < TotalSamples)
    ensures s.isCapturing ==> t.capturedImages == s.capturedImages + Kept([frame])
    ensures t.form == s.form && t.streamOn == s.streamOn && t.error == s.error
    ensures Valid(s) ==> Valid(t)
  {
    if !s.isCapturing then s
    else
      var n := s.capturedSamples + 1;
      s.(capturedSamples := n, captureProgress := n as real * 10.0, isCapturing := n < TotalSamples,
         capturedImages := s.capturedImages + Kept([frame]))
  }

  /** The frames the canvas actually produced (`if (imageData)`). */
  function Kept(frames: seq<Option<string>>): (r: seq<string>)
    ensures |r| <= |frames|
    ensures forall k :: 0 <= k < |r| ==> r[k] != ""
  {
    if |frames| == 0 then []
    else (if Js.TruthyStr(frames[0]) then [frames[0].value] else []) + Kept(frames[1..])
  }

  /** Successive ticks, one frame each. */
  function Ticks(s: State, frames: seq<Option<string>>): State
    decreases |frames|
  {
    if |frames| == 0 then s else Ticks(Tick(s, frames[0]), frames[1..])
  }

  /** A running capture with `10 - count` ticks to go ends with ten samples,
      the progress at 100, the interval stopped, and the produced frames
      appended in order. */
  lemma {:induction false} TicksFinish(s: State, frames: seq<Option<string>>)
    requires Valid(s) && s.isCapturing
    requires |frames| == TotalSamples - s.capturedSamples
    ensures var t := Ticks(s, frames);
            && t.capturedSamples == TotalSamples && !t.isCapturing && t.captureProgress == 100.0
            && t.capturedImages == s.capturedImages + Kept(frames)
            && t.form == s.form && Valid(t)
    decreases |frames|
  {
    var u := Tick(s, frames[0]);
    assert Kept(frames) == Kept([frames[0]]) + Kept(frames[1..]) by {
      assert [frames[0]][1..] == [];
    }
    if u.isCapturing {
      TicksFinish(u, frames[1..]);
    } else {
      assert frames[1..] == [];
    }
  }

  /** Starting with a stream and letting ten ticks run captures exactly the
      produced frames; a further tick changes nothing. */
  lemma CaptureRun(s: State, frames: seq<Option<string>>, extra: Option<string>)
    requires Valid(s) && s.streamOn && |frames| == TotalSamples
    ensures var t := Ticks(StartCapturing(s), frames);
            t.capturedSamples == TotalSamples && !t.isCapturing && t.capturedImages == Kept(frames)
            && Tick(t, extra) == t
  {
    TicksFinish(StartCapturing(s), frames);
  }

  // ---------------------------------------------------------------------
  // Submitting (lines 141-211)

  /** `arr[0].match(/:(.*?);/)`: from the first ':' that is followed by a
      ';' with no line break in between, the text up to that ';'. */
  function MatchMime(h: string): (r: Option<string>)
    ensures r.Some? ==> ';' !in r.value
    decreases |h|
  {
    if ':' !in h then None
    else
      var rest := h[Text.IndexOf(h, ':') + 1..];
      var stop := FirstStop(rest);
      if stop < |rest| && rest[stop] == ';' then Some(rest[..stop]) else MatchMime(rest)
  }

  predicate LineBreak(c: char) {
    c == '\n' || c == '\r' || c == '\U{2028}' || c == '\U{2029}'
  }

  /** The index of the first ';' or line break, or the length. */
  function FirstStop(s: string): (i: nat)
    ensures i <= |s|
    ensures forall k :: 0 <= k < i ==> s[k] != ';' && !LineBreak(s[k])
    ensures i < |s| ==> s[i] == ';' || LineBreak(s[i])
  {
    if |s| == 0 || s[0] == ';' || LineBreak(s[0]) then 0 else 1 + FirstStop(s[1..])
  }

  /** The MIME type of a captured frame: from its data-URL header (the text
      before the first ','), else "image/jpeg". */
  function MimeOf(image: string): (m: string)
    ensures MatchMime(Text.Split(image, ',')[0]).None? ==> m == DefaultMime
  {
    var header := Text.Split(image, ',')[0];
    var matched := MatchMime(header);
    if matched.Some? then matched.value else DefaultMime
  }

  /** A data URL `data:<type>;base64,<payload>` yields its type. */
  lemma MimeOfDataUrl(mime: string, payload: string)
    requires ',' !in mime && ';' !in mime && ':' !in mime
    requires forall k :: 0 <= k < |mime| ==> !LineBreak(mime[k])
    ensures MimeOf("data:" + mime + ";base64," + payload) == mime
  {
    DataUrlHeader(mime, payload);
    MatchDataHeader(mime);
  }

  /** The text before the first ',' of a data URL is `data:<type>;base64`. */
  lemma DataUrlHeader(mime: string, payload: string)
    requires ',' !in mime
    ensures Text.Split("data:" + mime + ";base64," + payload, ',')[0] == "data:" + mime + ";base64"
  {
    var header := "data:" + mime + ";base64";
    assert ',' !in header by {
      assert forall k :: 0 <= k < |header| && k >= 5 + |mime| ==> header[k] in ";base64";
    }
    assert "data:" + mime + ";base64," + payload == header + [','] + payload;
    Text.SplitCons(header, ',', payload);
  }

  /** The lazy match on `data:<type>;base64` captures the type. */
  lemma MatchDataHeader(mime: string)
    requires ';' !in mime && ':' !in mime
    requires forall k :: 0 <= k < |mime| ==> !LineBreak(mime[k])
    ensures MatchMime("data:" + mime + ";base64") == Some(mime)
  {
    var prefix := "data:";
    var rest := mime + ";base64";
    var header := prefix + rest;
    assert header == "data:" + mime + ";base64";
    assert header[4] == ':' && header[..4] == "data";
    assert ':' !in header[..4];
    Text.IndexOfAt(header, ':', 4);
    assert header[5..] == rest;
    assert rest[|mime|] == ';';
    assert rest[..|mime|] == mime;
    FirstStopAt(rest, |mime|);
  }

  lemma FirstStopAt(s: string, i: nat)
    requires i < |s| && s[i] == ';'
    requires forall k :: 0 <= k < i ==> s[k] != ';' && !LineBreak(s[k])
    ensures FirstStop(s) == i
  {
  }

  /** A frame without any ':' falls back to "image/jpeg". */
  lemma MimeDefault(image: string)
    requires ':' !in image
    ensures MimeOf(image) == DefaultMime
  {
    Text.SplitHeadPrefix(image, ',');
    var header := Text.Split(image, ',')[0];
    assert forall k :: 0 <= k < |header| ==> header[k] == image[k];
  }

  /** One uploaded sample: its file name and MIME type. */
  datatype Sample = Sample(fileName: string, mime: string)

  /** The multipart request: the five fields and one `image` part per frame. */
  datatype Request = Request(studentId: string, name: string, department: string, email: string, level: string, images: seq<Sample>)

  function Samples(images: seq<string>): (r: seq<Sample>)
    ensures |r| == |images|
    ensures forall i :: 0 <= i < |r| ==> r[i] == Sample("sample_" + Text.NatToString(i + 1) + ".jpg", MimeOf(images[i]))
  {
    seq(|images|, i requires 0 <= i < |images| => Sample("sample_" + Text.NatToString(i + 1) + ".jpg", MimeOf(images[i])))
  }

  /** The state after the handler, the request it built (if it got that
      far), and the name passed to the success callback. */
  datatype Outcome = Outcome(state: State, request: Option<Request>, registered: Option<string>)

  function Submit(s: State, reply: Registration.Reply): (o: Outcome)
    ensures var check := Registration.Check(s.form, |s.capturedImages|, TotalSamples, TooFew);
            check.Some? ==> o == Outcome(s.(error := check.value), None, None)
    ensures o.request.Some? <==> Registration.Check(s.form, |s.capturedImages|, TotalSamples, TooFew).None?
    ensures o.request.Some? ==> o.request.value == Request(s.form.userId, s.form.fullName, s.form.department, s.form.email, s.form.level, Samples(s.capturedImages))
    ensures o.registered.Some? <==> o.request.Some? && reply.Reply? && reply.ok
    ensures o.registered.Some? ==>
      && o.registered.value == s.form.fullName
      && o.state == s.(form := Registration.Empty, capturedSamples := 0, captureProgress := 0.0, capturedImages := [], streamOn := false, error := "", isSubmitting := false)
    ensures o.request.Some? && o.registered.None? ==>
      o.state == s.(error := Registration.FailureMessage(reply), isSubmitting := false)
    ensures Valid(s) ==> Valid(o.state)
  {
    var check := Registration.Check(s.form, |s.capturedImages|, TotalSamples, TooFew);
    if check.Some? then Outcome(s.(error := check.value), None, None)
    else
      var request := Request(s.form.userId, s.form.fullName, s.form.department, s.form.email, s.form.level, Samples(s.capturedImages));
      if reply.Reply? && reply.ok then
        Outcome(s.(form := Registration.Empty, capturedSamples := 0, captureProgress := 0.0, capturedImages := [], streamOn := false, error := "", isSubmitting := false),
                Some(request), Some(s.form.fullName))
      else Outcome(s.(error := Registration.FailureMessage(reply), isSubmitting := false), Some(request), None)
  }

  /** A complete capture run with every frame produced meets the sample
      check: a filled form with a numeric level is sent with ten samples. */
  lemma FullCaptureSubmits(s: State, frames: seq<Option<string>>, reply: Registration.Reply)
    requires Valid(s) && s.streamOn && |frames| == TotalSamples
    requires forall k :: 0 <= k < |frames| ==> Js.TruthyStr(frames[k])
    requires Registration.AllFilled(s.form) && Registration.IsNumeric(s.form.level)
    ensures var o := Submit(Ticks(StartCapturing(s), frames), reply);
            o.request.Some? && |o.request.value.images| == TotalSamples
  {
    TicksFinish(StartCapturing(s), frames);
    KeptAll(frames);
  }

  lemma {:induction false} KeptAll(frames: seq<Option<string>>)
    requires forall k :: 0 <= k < |frames| ==> Js.TruthyStr(frames[k])
    ensures |Kept(frames)| == |frames|
  {
    if |frames| > 0 {
      KeptAll(frames[1..]);
    }
  }
}

=== FILE: course_list.dfy ===
/** The course directory (components/admin/course-list.tsx): search, session
    and assignment filters over the page's normalized courses. */
module CourseList {
  import opened Wrappers
  import Js
  import Text
  import Seqs
  import AdminCourses

  type Course = AdminCourses.Course

  /** `field?.toLowerCase() || ""` for an optional string field. */
  function LowerOr(o: Option<string>): string {
    if o.Some? then Text.ToLower(o.value) else ""
  }

  /** The same for the lecturer name, which normalization leaves a string or
      undefined. */
  function LowerScalar(v: Js.Scalar): string {
    if v.Str? then Text.ToLower(v.s) else ""
  }

  /** Case-insensitive substring search on name, code or lecturer name. */
  predicate MatchesSearch(c: Course, term: string) {
    var t := Text.ToLower(term);
    Text.Contains(LowerOr(c.name), t) || Text.Contains(LowerOr(c.courseCode), t) || Text.Contains(LowerScalar(c.lecturerName), t)
  }

  predicate MatchesSession(c: Course, session: string) {
    session == "all" || c.session == Some(session)
  }

  predicate MatchesAssignment(c: Course, assignment: string) {
    || assignment == "all"
    || (assignment == "assigned" && AdminCourses.HasLecturer(c))
    || (assignment == "unassigned" && AdminCourses.NoLecturer(c))
  }

  predicate Shown(c: Course, term: string, session: string, assignment: string) {
    MatchesSearch(c, term) && MatchesSession(c, session) && MatchesAssignment(c, assignment)
  }

  /** `filteredCourses`: exactly the courses all three filters accept, in
      their original order. */
  function Filtered(cs: seq<Course>, term: string, session: string, assignment: string): (r: seq<Course>)
    ensures forall c :: c in r <==> c in cs && Shown(c, term, session, assignment)
    ensures Seqs.Subsequence(r, cs)
  {
    Seqs.Filter(cs, (c: Course) => Shown(c, term, session, assignment))
  }

  /** The initial filters (empty search, "all", "all") show every course. */
  lemma DefaultFiltersShowAll(cs: seq<Course>)
    ensures Filtered(cs, "", "all", "all") == cs
  {
    forall i | 0 <= i < |cs| ensures Shown(cs[i], "", "all", "all") {
      Text.ContainsEmpty(LowerOr(cs[i].name));
    }
    Seqs.FilterAll(cs, (c: Course) => Shown(c, "", "all", "all"));
  }

  /** For any search and session, the "assigned" and "unassigned" views split
      the "all" view between them. */
  lemma AssignmentViewsPartition(cs: seq<Course>, term: string, session: string)
    ensures |Filtered(cs, term, session, "assigned")| + |Filtered(cs, term, session, "unassigned")|
            == |Filtered(cs, term, session, "all")|
  {
    var all := (c: Course) => Shown(c, term, session, "all");
    var base := Seqs.Filter(cs, all);
    Seqs.FilterFilter(cs, all, AdminCourses.HasLecturer, (c: Course) => Shown(c, term, session, "assigned"));
    Seqs.FilterFilter(cs, all, AdminCourses.NoLecturer, (c: Course) => Shown(c, term, session, "unassigned"));
    Seqs.CountComplement(base, AdminCourses.HasLecturer, AdminCourses.NoLecturer);
  }

  /** The session drop-down: every session value once, in order of first
      appearance. */
  function SessionOptions(cs: seq<Course>): (r: seq<Option<string>>)
    ensures Seqs.NoDuplicates(r)
    ensures forall i :: 0 <= i < |cs| ==> cs[i].session in r
    ensures forall s :: s in r ==> exists i :: 0 <= i < |cs| && cs[i].session == s
    ensures |r| <= |cs|
  {
    var ss := AdminCourses.Sessions(cs);
    assert forall i :: 0 <= i < |cs| ==> ss[i] in ss;
    Seqs.Distinct(ss)
  }

  /** The two-letter badge of line 142. */
  function Badge(code: Option<string>): (b: string)
    ensures |b| == 2
    ensures code.Some? && |code.value| >= 2 ==> Text.IsPrefix(b, code.value)
    ensures code.None? || |code.value| < 2 ==> b == "--"
  {
    if code.Some? && |code.value| >= 2 then code.value[..2] else "--"
  }
}

=== FILE: course_students.dfy ===
/** The lecturer's course-students page (app/lecturer/students/page.tsx):
    how the enrolment list is mapped, the stats cards, the search and type
    filters, and the CSV export. */
module CourseStudents {
  import opened Wrappers
  import Js
  import Text
  import Seqs
  import Csv

  /** A student of the enrolment answer. `level` may be a number or missing. */
  datatype RawStudent = RawStudent(studentId: Option<string>, name: Option<string>, department: Option<string>, level: Js.Scalar)

  /** The course record of the second request, when it succeeds. */
  datatype CourseDetails = CourseDetails(courseCode: Option<string>, name: Option<string>, session: Option<string>)

  datatype Course = Course(id: string, courseCode: string, courseName: string, session: string)

  datatype Student = Student(id: string, studentId: string, name: string, department: string, level: Js.Scalar, kind: string)

  datatype Stats = Stats(totalStudents: nat, regularStudents: nat, carryoverStudents: nat)

  datatype CourseData = CourseData(course: Course, stats: Stats, students: seq<Student>)

  // ---------------------------------------------------------------------
  // Mapping (lines 84-104)

  /** Student number `idx` of the answer. */
  function MapStudent(s: RawStudent, idx: nat): (r: Student)
    ensures r.id == Js.OrStr(s.studentId, Text.NatToString(idx)) && r.id != ""
    ensures r.studentId == Js.OrStr(s.studentId, "") && r.name == Js.OrStr(s.name, "") && r.department == Js.OrStr(s.department, "")
    ensures r.level == (if Js.Truthy(s.level) then s.level else Js.Str(""))
    ensures r.kind == "Regular"
  {
    Student(Js.OrStr(s.studentId, Text.NatToString(idx)), Js.OrStr(s.studentId, ""), Js.OrStr(s.name, ""),
            Js.OrStr(s.department, ""), if Js.Truthy(s.level) then s.level else Js.Str(""), "Regular")
  }

  function MapStudents(data: seq<RawStudent>): (r: seq<Student>)
    ensures |r| == |data|
    ensures forall i :: 0 <= i < |r| ==> r[i] == MapStudent(data[i], i)
  {
    seq(|data|, i requires 0 <= i < |data| => MapStudent(data[i], i))
  }

  /** The page's course data after both requests: the course fields fall back
      to "" when the details request failed; every student is counted as
      regular. */
  function Loaded(courseId: string, data: seq<RawStudent>, details: Option<CourseDetails>): (d: CourseData)
    ensures d.course.id == courseId
    ensures details.None? ==> d.course == Course(courseId, "", "", "")
    ensures details.Some? ==> d.course == Course(courseId, Js.OrStr(details.value.courseCode, ""), Js.OrStr(details.value.name, ""), Js.OrStr(details.value.session, ""))
    ensures d.stats == Stats(|data|, |data|, 0)
    ensures d.students == MapStudents(data)
  {
    var c := if details.None? then Course(courseId, "", "", "")
             else Course(courseId, Js.OrStr(details.value.courseCode, ""), Js.OrStr(details.value.name, ""), Js.OrStr(details.value.session, ""));
    CourseData(c, Stats(|data|, |data|, 0), MapStudents(data))
  }

  /** The stats agree with the list: every mapped student is regular. */
  lemma StatsAgreeWithStudents(courseId: string, data: seq<RawStudent>, details: Option<CourseDetails>)
    ensures var d := Loaded(courseId, data, details);
            && d.stats.totalStudents == |d.students|
            && d.stats.regularStudents == Seqs.Count(d.students, IsRegular)
            && d.stats.carryoverStudents == Seqs.Count(d.students, (s: Student) => !IsRegular(s))
  {
    var d := Loaded(courseId, data, details);
    Seqs.FilterAll(d.students, IsRegular);
    Seqs.CountComplement(d.students, IsRegular, (s: Student) => !IsRegular(s));
  }

  predicate IsRegular(s: Student) { s.kind == "Regular" }

  // ---------------------------------------------------------------------
  // Filters (lines 123-133)

  predicate MatchesSearch(s: Student, term: string) {
    Text.ContainsIgnoreCase(s.name, term) || Text.ContainsIgnoreCase(s.studentId, term) || Text.ContainsIgnoreCase(s.department, term)
  }

  predicate MatchesType(s: Student, filter: string) {
    filter == "all" || Text.ToLower(s.kind) == Text.ToLower(filter)
  }

  /** `filteredStudents`, empty when there is no course data. */
  function Filtered(data: Option<CourseData>, term: string, filter: string): (r: seq<Student>)
    ensures data.None? ==> r == []
    ensures data.Some? ==> forall s :: s in r <==> s in data.value.students && MatchesSearch(s, term) && MatchesType(s, filter)
    ensures data.Some? ==> Seqs.Subsequence(r, data.value.students)
  {
    if data.None? then [] else Seqs.Filter(data.value.students, (s: Student) => MatchesSearch(s, term) && MatchesType(s, filter))
  }

  /** Mapped students are all regular, so the "carryover" view is empty. */
  lemma CarryoverViewEmpty(courseId: string, data: seq<RawStudent>, details: Option<CourseDetails>, term: string)
    ensures Filtered(Some(Loaded(courseId, data, details)), term, "carryover") == []
  {
    var d := Loaded(courseId, data, details);
    forall i | 0 <= i < |d.students| ensures !MatchesType(d.students[i], "carryover") {
      assert Text.ToLower(d.students[i].kind)[0] == 'r';
    }
    Seqs.FilterNone(d.students, (s: Student) => MatchesSearch(s, term) && MatchesType(s, "carryover"));
  }

  // ---------------------------------------------------------------------
  // CSV export (lines 139-160)

  const Header := ["ID", "Name", "Department", "Level", "Type"]

  /** The five cells of a student's line. */
  function Cells(s: Student): (cells: seq<string>)
    ensures |cells| == 5 && cells[0] == s.studentId && cells[1] == s.name && cells[4] == s.kind
  {
    [s.studentId, s.name, s.department, Js.ToStr(s.level), s.kind]
  }

  function Rows(students: seq<Student>): (rows: seq<seq<string>>)
    ensures |rows| == |students|
    ensures forall i :: 0 <= i < |rows| ==> rows[i] == Cells(students[i])
  {
    seq(|students|, i requires 0 <= i < |students| => Cells(students[i]))
  }

  /** The CSV text: the header and one line per student (all of them, not
      the filtered view). */
  function CsvText(students: seq<Student>): string {
    Csv.Render(Header, Rows(students))
  }

  /** `exportToCSV`: nothing without course data; the text and the file name
      `<code>_students_<YYYY-MM-DD>.csv` otherwise. */
  function Export(data: Option<CourseData>, iso: string): (r: Option<(string, string)>)
    ensures data.None? <==> r.None?
    ensures r.Some? ==> r.value.0 == CsvText(data.value.students)
    ensures r.Some? ==> r.value.1 == data.value.course.courseCode + "_students_" + Text.Prefix(iso, 10) + ".csv"
  {
    if data.None? then None
    else Some((CsvText(data.value.students), data.value.course.courseCode + "_students_" + Text.Prefix(iso, 10) + ".csv"))
  }

  /** When no cell holds a comma or a newline, the exported text reads back
      as the header line and then, line by line, every student's five cells
      in list order. */
  lemma CsvRoundTrip(students: seq<Student>)
    requires forall i :: 0 <= i < |students| ==> Csv.PlainRow(Cells(students[i]))
    ensures |Text.Split(CsvText(students), '\n')| == |students| + 1
    ensures Text.Split(Text.Split(CsvText(students), '\n')[0], ',') == Header
    ensures forall i :: 0 <= i < |students| ==> Text.Split(Text.Split(CsvText(students), '\n')[i + 1], ',') == Cells(students[i])
  {
    HeaderPlain();
    Csv.RoundTrip(Header, Rows(students));
  }

  /** No header cell holds a comma or a line break. */
  lemma HeaderPlain()
    ensures Csv.PlainRow(Header)
  {
    assert Csv.PlainCell("ID") && Csv.PlainCell("Name") && Csv.PlainCell("Department") && Csv.PlainCell("Level") && Csv.PlainCell("Type");
  }
}

=== FILE: create_course_form.dfy ===
/** The create-course form (components/admin/create-course-form.tsx): field
    validation, editing, and the message chosen when the backend refuses. */
module CreateCourseForm {
  import opened Wrappers
  import Text
  import Js
  import AdminCourses

  datatype Field = CodeField | NameField | SessionField

  datatype FormData = FormData(courseCode: string, courseName: string, session: string)
  {
    function Get(f: Field): string {
      match f
      case CodeField => courseCode
      case NameField => courseName
      case SessionField => session
    }

    /** `{ ...prev, [field]: value }`. */
    function Set(f: Field, v: string): (d: FormData)
      ensures d.Get(f) == v
      ensures forall g :: g != f ==> d.Get(g) == Get(g)
    {
      match f
      case CodeField => this.(courseCode := v)
      case NameField => this.(courseName := v)
      case SessionField => this.(session := v)
    }
  }

  const Empty := FormData("", "", "")

  const AllFields: set<Field> := {CodeField, NameField, SessionField}

  /** The message `validateForm` records for one field, if it fails. */
  function FieldError(d: FormData, f: Field): (e: Option<string>)
    ensures f == CodeField ==> (e.Some? <==> Text.IsBlank(d.courseCode))
    ensures f == NameField ==> (e.Some? <==> Text.IsBlank(d.courseName))
    ensures f == SessionField ==> (e.Some? <==> d.session == "")
    ensures e.Some? ==> e.value != ""
  {
    match f
    case CodeField => if Text.IsBlank(d.courseCode) then Some("Course code is required") else None
    case NameField => if Text.IsBlank(d.courseName) then Some("Course name is required") else None
    case SessionField => if d.session == "" then Some("Session is required") else None
  }

  /** `validateForm`'s error map: one non-empty message per failing field. */
  function Validate(d: FormData): (errors: map<Field, string>)
    ensures forall f :: f in errors <==> FieldError(d, f).Some?
    ensures forall f :: f in errors ==> errors[f] == FieldError(d, f).value != ""
  {
    map f | f in AllFields && FieldError(d, f).Some? :: FieldError(d, f).value
  }

  predicate IsValid(d: FormData) { Validate(d) == map[] }

  /** The form is valid exactly when code and name are not blank and a
      session is chosen. */
  lemma ValidIff(d: FormData)
    ensures IsValid(d) <==> !Text.IsBlank(d.courseCode) && !Text.IsBlank(d.courseName) && d.session != ""
  {
    var errors := Validate(d);
    if errors != map[] {
      var f :| f in errors;
    } else {
      assert CodeField !in errors && NameField !in errors && SessionField !in errors;
    }
  }

  datatype FormState = FormState(data: FormData, errors: map<Field, string>, error: string, loading: bool)

  /** `handleInputChange`: the field takes the new value, and its error, when
      one is shown, is blanked; its key stays in the map. */
  function Edit(s: FormState, f: Field, v: string): (t: FormState)
    ensures t.data.Get(f) == v
    ensures forall g :: g != f ==> t.data.Get(g) == s.data.Get(g)
    ensures t.errors.Keys == s.errors.Keys
    ensures forall g :: g in s.errors && g != f ==> t.errors[g] == s.errors[g]
    ensures f in t.errors ==> t.errors[f] == ""
    ensures t.error == s.error && t.loading == s.loading
  {
    var errors := if f in s.errors && s.errors[f] != "" then s.errors[f := ""] else s.errors;
    s.(data := s.data.Set(f, v), errors := errors)
  }

  /** `clearForm`. */
  function Clear(s: FormState): (t: FormState)
    ensures forall f :: t.data.Get(f) == ""
    ensures t.errors == map[] && t.error == "" && t.loading == s.loading
  {
    s.(data := Empty, errors := map[], error := "")
  }

  /** The `detail` field of a refusal: absent (or of another type), a list of
      validation entries whose `msg` may be missing, or a string. */
  datatype Detail = NoDetail | Entries(msgs: seq<Option<string>>) | Message(s: string)

  /** `entries.map(e => e.msg).join("; ")`: a missing `msg` joins as "". */
  function JoinMessages(msgs: seq<Option<string>>): string {
    Text.Join(seq(|msgs|, i requires 0 <= i < |msgs| => msgs[i].GetOr("")), "; ")
  }

  /** The refusal message of lines 106-114: a list detail first, then a
      string detail, then a truthy `error`, then the default. */
  function FailureMessage(detail: Detail, error: Option<string>): (m: string)
    ensures detail.Entries? ==> m == JoinMessages(detail.msgs)
    ensures detail.Message? ==> m == detail.s
    ensures detail.NoDetail? && Js.TruthyStr(error) ==> m == error.value
    ensures detail.NoDetail? && !Js.TruthyStr(error) ==> m == "Failed to create course"
  {
    match detail
    case Entries(msgs) => JoinMessages(msgs)
    case Message(s) => s
    case NoDetail => Js.OrStr(error, "Failed to create course")
  }

  /** The message shown can be empty: exactly for an empty string detail, an
      empty list, or a single entry without text. */
  lemma FailureMessageEmptyIff(detail: Detail, error: Option<string>)
    ensures FailureMessage(detail, error) == "" <==>
      || detail == Message("")
      || (detail.Entries? && (|detail.msgs| == 0 || (|detail.msgs| == 1 && detail.msgs[0].GetOr("") == "")))
  {
    if detail.Entries? {
      var msgs := detail.msgs;
      Text.JoinEmpty(seq(|msgs|, i requires 0 <= i < |msgs| => msgs[i].GetOr("")), "; ");
    }
  }

  datatype CreateReply = CreateThrown | CreateReply(ok: bool, course: AdminCourses.Course, detail: Detail, error: Option<string>)

  /** The body of the creation request: `course_code`, `name` and `session`,
      as typed (the checks trim, the request does not). */
  datatype Create = Create(courseCode: string, name: string, session: string)

  /** The state after submitting, the request that went out, if any, and the
      course handed to the page, if any. */
  datatype Outcome = Outcome(state: FormState, request: Option<Create>, created: Option<AdminCourses.Course>)

  /** `handleSubmit`. */
  function Submit(s: FormState, reply: CreateReply): (o: Outcome)
    ensures o.request.Some? <==> IsValid(s.data)
    ensures o.request.Some? ==> o.request.value == Create(s.data.courseCode, s.data.courseName, s.data.session)
    ensures !IsValid(s.data) ==> o == Outcome(s.(errors := Validate(s.data)), None, None)
    ensures o.created.Some? <==> IsValid(s.data) && reply.CreateReply? && reply.ok
    ensures o.created.Some? ==> o.created.value == reply.course && o.state.data == Empty && o.state.errors == map[] && o.state.error == ""
    ensures IsValid(s.data) && reply.CreateThrown? ==> o.state.error == "Network error. Please try again." && o.state.data == s.data
    ensures IsValid(s.data) && reply.CreateReply? && !reply.ok ==> o.state.error == FailureMessage(reply.detail, reply.error) && o.state.data == s.data
    ensures o.request.Some? ==> !o.state.loading
  {
    var errors := Validate(s.data);
    if errors != map[] then Outcome(s.(errors := errors), None, None)
    else
      var sent := s.(errors := errors, error := "");
      var request := Some(Create(s.data.courseCode, s.data.courseName, s.data.session));
      match reply
      case CreateThrown => Outcome(sent.(error := "Network error. Please try again.", loading := false), request, None)
      case CreateReply(ok, course, detail, error) =>
        if ok then Outcome(sent.(data := Empty, errors := map[], loading := false), request, Some(course))
        else Outcome(sent.(error := FailureMessage(detail, error), loading := false), request, None)
  }

  /** A course the form reports as created is appended to the page's list
      and counted in its cards; an invalid form reports nothing. */
  lemma CreatedCourseListed(p: AdminCourses.PageState, s: FormState, reply: CreateReply)
    ensures !IsValid(s.data) ==> Submit(s, reply).created.None?
    ensures Submit(s, reply).created.Some? ==>
      var q := AdminCourses.CourseCreated(p, reply.course);
      && q.courses == p.courses + [reply.course]
      && AdminCourses.ComputeStats(q.courses).total == |p.courses| + 1
  {
    if Submit(s, reply).created.Some? {
      AdminCourses.CreatedCourseCounted(p, reply.course);
    }
  }
}

=== FILE: csv.dfy ===
/** The naive CSV text both export buttons build: cells joined by ",",
    lines by "\n", with no quoting and no trailing newline. */
module Csv {
  import Text

  /** No cell may hold the separators for the text to read back. */
  predicate PlainCell(cell: string) {
    ',' !in cell && '\n' !in cell
  }

  predicate PlainRow(row: seq<string>) {
    forall k :: 0 <= k < |row| ==> PlainCell(row[k])
  }

  function Line(row: seq<string>): string {
    Text.Join(row, ",")
  }

  /** The header line followed by one line per row, in order. */
  function Lines(header: seq<string>, rows: seq<seq<string>>): (lines: seq<string>)
    ensures |lines| == |rows| + 1 && lines[0] == Line(header)
    ensures forall i :: 0 <= i < |rows| ==> lines[i + 1] == Line(rows[i])
  {
    [Line(header)] + seq(|rows|, i requires 0 <= i < |rows| => Line(rows[i]))
  }

  function Render(header: seq<string>, rows: seq<seq<string>>): string {
    Text.Join(Lines(header, rows), "\n")
  }

  /** A line of plain cells holds no newline. */
  lemma {:induction false} PlainLine(row: seq<string>)
    requires PlainRow(row)
    ensures '\n' !in Line(row)
  {
    if |row| > 1 {
      PlainLine(row[1..]);
    }
  }

  /** Reading the text back: splitting at newlines gives the lines, and
      splitting a row's line at commas gives the row again. */
  lemma RoundTrip(header: seq<string>, rows: seq<seq<string>>)
    requires |header| >= 1 && PlainRow(header)
    requires forall i :: 0 <= i < |rows| ==> |rows[i]| >= 1 && PlainRow(rows[i])
    ensures Text.Split(Render(header, rows), '\n') == Lines(header, rows)
    ensures Text.Split(Text.Split(Render(header, rows), '\n')[0], ',') == header
    ensures forall i :: 0 <= i < |rows| ==> Text.Split(Text.Split(Render(header, rows), '\n')[i + 1], ',') == rows[i]
  {
    var lines := Lines(header, rows);
    forall k | 0 <= k < |lines| ensures '\n' !in lines[k] {
      if k == 0 {
        PlainLine(header);
      } else {
        PlainLine(rows[k - 1]);
      }
    }
    Text.SplitJoin(lines, '\n');
    Text.SplitJoin(header, ',');
    forall i | 0 <= i < |rows| ensures Text.Split(lines[i + 1], ',') == rows[i] {
      Text.SplitJoin(rows[i], ',');
    }
  }
}

=== FILE: dashboard.dfy ===
/** The lecturer dashboard (app/lecturer/dashboard/page.tsx): the lecturer's
    courses mapped from the backend with fallbacks and a colour cycle, the
    course-scoped menu links, and logging out. */
module Dashboard {
  import opened Wrappers
  import Js
  import Auth

  /** A course as the backend sends it; every field may be missing. */
  datatype RawCourse = RawCourse(
    id: Js.Scalar,
    name: Option<string>, title: Option<string>,
    code: Option<string>, courseCode: Option<string>,
    semester: Option<string>, semesterName: Option<string>,
    studentCount: Option<int>, studentsCount: Option<int>,
    attendanceRate: Option<int>,
    lastSession: Option<string>)

  /** A course card. */
  datatype Course = Course(id: Js.Scalar, name: string, code: string, semester: string, students: int, attendance: int, lastSession: string, color: string)

  const Palette: seq<string> := [
    "from-blue-500 to-blue-600",
    "from-purple-500 to-purple-600",
    "from-green-500 to-green-600",
    "from-orange-500 to-orange-600",
    "from-red-500 to-red-600",
    "from-indigo-500 to-indigo-600"]

  function Colour(idx: nat): (c: string)
    ensures c in Palette
  {
    Palette[idx % |Palette|]
  }

  /** Lines 71-80, for the course at position `idx`. */
  function MapCourse(c: RawCourse, idx: nat): (r: Course)
    ensures r.id == c.id && r.color == Palette[idx % 6]
    ensures r.name == Js.OrStr(c.name, Js.OrStr(c.title, "Untitled Course")) && r.name != ""
    ensures r.code == Js.OrStr(c.code, Js.OrStr(c.courseCode, ""))
    ensures r.semester == Js.OrStr(c.semester, Js.OrStr(c.semesterName, ""))
    ensures r.students == Js.OrNum(c.studentCount, Js.OrNum(c.studentsCount, 0))
    ensures r.attendance == Js.OrNum(c.attendanceRate, 0)
    ensures r.lastSession == Js.OrStr(c.lastSession, "-") && r.lastSession != ""
  {
    Course(
      c.id,
      Js.OrStr(c.name, Js.OrStr(c.title, "Untitled Course")),
      Js.OrStr(c.code, Js.OrStr(c.courseCode, "")),
      Js.OrStr(c.semester, Js.OrStr(c.semesterName, "")),
      Js.OrNum(c.studentCount, Js.OrNum(c.studentsCount, 0)),
      Js.OrNum(c.attendanceRate, 0),
      Js.OrStr(c.lastSession, "-"),
      Colour(idx))
  }

  function MapCourses(cs: seq<RawCourse>): (r: seq<Course>)
    ensures |r| == |cs|
    ensures forall i :: 0 <= i < |r| ==> r[i] == MapCourse(cs[i], i)
  {
    seq(|cs|, i requires 0 <= i < |cs| => MapCourse(cs[i], i))
  }

  /** The mapping keeps the backend's order, and the colours cycle with
      period six: neighbours differ and courses six apart share a colour. */
  lemma MappingOrderAndColours(cs: seq<RawCourse>)
    ensures forall i :: 0 <= i < |cs| ==> MapCourses(cs)[i].id == cs[i].id
    ensures forall i :: 0 <= i < |cs| - 6 ==> MapCourses(cs)[i].color == MapCourses(cs)[i + 6].color
    ensures forall i :: 0 <= i < |cs| - 1 ==> MapCourses(cs)[i].color != MapCourses(cs)[i + 1].color
  {
    var r := MapCourses(cs);
    forall i | 0 <= i < |cs| - 6
      ensures r[i].color == r[i + 6].color
    {
      assert (i + 6) % 6 == i % 6;
    }
    forall i | 0 <= i < |cs| - 1
      ensures r[i].color != r[i + 1].color
    {
      NeighbourColoursDiffer(i);
    }
  }

  /** Consecutive positions get different palette entries. */
  lemma NeighbourColoursDiffer(i: nat)
    ensures Palette[i % 6] != Palette[(i + 1) % 6]
  {
    var k := i % 6;
    if k == 5 {
      assert (i + 1) % 6 == 0;
    } else {
      assert (i + 1) % 6 == k + 1;
    }
    PaletteNeighboursDiffer(k);
  }

  /** The palette's entries differ at their sixth character, so neighbours
      in the cycle differ. */
  lemma PaletteNeighboursDiffer(k: nat)
    requires k < 6
    ensures Palette[k] != Palette[(k + 1) % 6]
  {
    var sixth := "bpgori";
    assert forall j :: 0 <= j < 6 ==> Palette[j][5] == sixth[j];
    assert sixth[k] != sixth[(k + 1) % 6];
  }

  /** A backend course with every field filled keeps its values on the card. */
  lemma FilledCourseKept(c: RawCourse, idx: nat)
    requires Js.TruthyStr(c.name) && Js.TruthyStr(c.code) && Js.TruthyStr(c.semester) && Js.TruthyStr(c.lastSession)
    requires Js.TruthyNum(c.studentCount) && Js.TruthyNum(c.attendanceRate)
    ensures var r := MapCourse(c, idx);
            r.name == c.name.value && r.code == c.code.value && r.semester == c.semester.value
            && r.students == c.studentCount.value && r.attendance == c.attendanceRate.value && r.lastSession == c.lastSession.value
  {
  }

  /** The course request: it threw (network, unreadable or non-array body),
      answered not OK, or answered OK with a list or `null`. */
  datatype Reply = Thrown | NotOk | Ok(data: Option<seq<RawCourse>>)

  datatype PageState = PageState(selectedCourse: Option<Course>, courses: seq<Course>)

  /** `fetchCourses`: only an OK answer replaces the list; `null` gives the
      empty list. */
  function Fetched(p: PageState, reply: Reply): (q: PageState)
    ensures q.selectedCourse == p.selectedCourse
    ensures !reply.Ok? ==> q == p
    ensures reply.Ok? && reply.data.None? ==> q.courses == []
    ensures reply.Ok? && reply.data.Some? ==> q.courses == MapCourses(reply.data.value)
  {
    match reply
    case Ok(data) => p.(courses := MapCourses(data.GetOr([])))
    case _ => p
  }

  /** Clicking a card selects it. */
  function Select(p: PageState, c: Course): (q: PageState)
    ensures q.selectedCourse == Some(c) && q.courses == p.courses
  {
    p.(selectedCourse := Some(c))
  }

  /** The menu targets of lines 113-194, in display order. */
  const MenuTargets: seq<string> := [
    "/lecturer/attendance/facial",
    "/lecturer/attendance/manual",
    "/lecturer/students",
    "/lecturer/students/add",
    "/lecturer/attendance/records",
    "/lecturer/reports",
    "/lecturer/email/settings",
    "/lecturer/email/send"]

  /** The links of the selected course's menu: every target carries the
      course id as its `course` query parameter. */
  function MenuLinks(courseId: string): (links: seq<string>)
    ensures |links| == |MenuTargets|
    ensures forall i :: 0 <= i < |links| ==>
      |MenuTargets[i]| <= |links[i]| && links[i][..|MenuTargets[i]|] == MenuTargets[i] && links[i][|MenuTargets[i]|..] == "?course=" + courseId
  {
    seq(|MenuTargets|, i requires 0 <= i < |MenuTargets| => MenuTargets[i] + "?course=" + courseId)
  }

  /** The greeting name: the username when non-empty, else "Lecturer". */
  function WelcomeName(user: Option<Auth.User>): (n: string)
    ensures n != ""
    ensures user.Some? && Js.TruthyStr(user.value.username) ==> n == user.value.username.value
    ensures user.None? ==> n == "Lecturer"
  {
    if user.Some? then Js.OrStr(user.value.username, "Lecturer") else "Lecturer"
  }

  const LoginPage := "/lecturer/login"

  /** `handleLogout`: the session is cleared, then the login page opened. */
  function HandleLogout(st: Auth.AuthState, storage: Auth.Storage): (r: (Auth.AuthState, Auth.Storage, string))
    ensures (r.0, r.1) == Auth.Logout(st, storage)
    ensures r.2 == LoginPage
    ensures !Auth.IsAuthenticated(r.0) && !Auth.IsAuthenticated(Auth.Restore(r.0, r.1))
  {
    Auth.LogoutIdempotent(st, storage);
    var (s1, t1) := Auth.Logout(st, storage);
    (s1, t1, LoginPage)
  }
}

=== FILE: department_students.dfy ===
/** The student list of one department card
    (components/admin/students-by-department-list.tsx): it normalizes the
    backend's students and shows those of its department that match the
    search. */
module DepartmentStudents {
  import opened Wrappers
  import Js
  import Text
  import Seqs

  /** A student as the backend may send it, under either field naming. */
  datatype RawStudent = RawStudent(
    id: string,
    studentId: Option<string>, student_id: Option<string>, idNumber: Option<string>,
    name: string, email: string, department: string,
    level: Option<string>, classLevel: Option<string>)

  datatype Student = Student(id: string, studentId: string, name: string, email: string, department: string, level: string)

  /** The answer's body: a bare array, or an object whose `students` field may
      be missing. */
  datatype Body = ArrayBody(items: seq<RawStudent>) | ObjectBody(students: Option<seq<RawStudent>>)

  /** The request: it threw (with an optional message), answered with a
      non-OK status, or answered OK. */
  datatype Reply = Failed(message: Option<string>) | NotOk | Ok(body: Body)

  datatype State = State(students: seq<Student>, isLoading: bool, error: Option<string>)

  /** Lines 40-47. */
  function Normalize(s: RawStudent): (n: Student)
    ensures n.id == s.id && n.name == s.name && n.email == s.email && n.department == s.department
    ensures n.studentId == Js.OrStr(s.studentId, Js.OrStr(s.student_id, Js.OrStr(s.idNumber, "")))
    ensures n.level == Js.OrStr(s.level, Js.OrStr(s.classLevel, ""))
    ensures Js.TruthyStr(s.studentId) ==> n.studentId == s.studentId.value
    ensures !Js.TruthyStr(s.studentId) && !Js.TruthyStr(s.student_id) && !Js.TruthyStr(s.idNumber) ==> n.studentId == ""
  {
    Student(s.id, Js.OrStr(s.studentId, Js.OrStr(s.student_id, Js.OrStr(s.idNumber, ""))), s.name, s.email, s.department,
            Js.OrStr(s.level, Js.OrStr(s.classLevel, "")))
  }

  /** `Array.isArray(data) ? data : data.students || []`. */
  function StudentsArray(b: Body): (r: seq<RawStudent>)
    ensures b.ArrayBody? ==> r == b.items
    ensures b.ObjectBody? && b.students.None? ==> r == []
    ensures b.ObjectBody? && b.students.Some? ==> r == b.students.value
  {
    match b
    case ArrayBody(items) => items
    case ObjectBody(students) => if students.Some? then students.value else []
  }

  function NormalizeAll(raw: seq<RawStudent>): (r: seq<Student>)
    ensures |r| == |raw|
    ensures forall i :: 0 <= i < |r| ==> r[i] == Normalize(raw[i])
  {
    seq(|raw|, i requires 0 <= i < |raw| => Normalize(raw[i]))
  }

  const FetchFailed := "Failed to fetch students"

  /** The effect of `fetchStudents`: success replaces the list and leaves no
      error; a failure keeps the list and records the exception's message,
      or "Unknown error" when it has none. */
  function Fetched(p: State, reply: Reply): (q: State)
    ensures !q.isLoading
    ensures reply.Ok? ==> q.students == NormalizeAll(StudentsArray(reply.body)) && q.error == None
    ensures !reply.Ok? ==> q.students == p.students && q.error.Some? && q.error.value != ""
    ensures reply.NotOk? ==> q.error == Some(FetchFailed)
    ensures reply.Failed? ==> q.error == Some(Js.OrStr(reply.message, "Unknown error"))
  {
    match reply
    case Ok(body) => State(NormalizeAll(StudentsArray(body)), false, None)
    case NotOk => State(p.students, false, Some(FetchFailed))
    case Failed(message) => State(p.students, false, Some(Js.OrStr(message, "Unknown error")))
  }

  predicate MatchesSearch(s: Student, term: string) {
    Text.ContainsIgnoreCase(s.name, term) || Text.ContainsIgnoreCase(s.studentId, term) || Text.ContainsIgnoreCase(s.email, term)
  }

  /** Lines 76-84: the students of the card's department matching the search. */
  function Filtered(students: seq<Student>, department: string, term: string): (r: seq<Student>)
    ensures forall s :: s in r <==> s in students && s.department == department && MatchesSearch(s, term)
    ensures Seqs.Subsequence(r, students)
  {
    Seqs.Filter(students, (s: Student) => s.department == department && MatchesSearch(s, term))
  }

  /** With an empty search the card lists every student of its department. */
  lemma EmptySearchListsDepartment(students: seq<Student>, department: string)
    ensures Filtered(students, department, "") == Seqs.Filter(students, (s: Student) => s.department == department)
    ensures forall s :: s in Filtered(students, department, "") <==> s in students && s.department == department
  {
    forall s: Student ensures MatchesSearch(s, "") {
      Text.ContainsEmpty(Text.ToLower(s.name));
    }
    Seqs.FilterFilter(students, (s: Student) => s.department == department, (s: Student) => true,
                      (s: Student) => s.department == department && MatchesSearch(s, ""));
    Seqs.FilterAll(Seqs.Filter(students, (s: Student) => s.department == department), (s: Student) => true);
  }

  /** What the card renders. */
  datatype View = Loading | ErrorText(message: string) | NoStudents(department: string) | Listed(students: seq<Student>)

  function Render(st: State, department: string, term: string): (v: View)
    ensures st.isLoading ==> v == Loading
    ensures v.ErrorText? <==> !st.isLoading && Js.TruthyStr(st.error)
    ensures v.Listed? ==> v.students == Filtered(st.students, department, term) && |v.students| > 0
    ensures v.NoStudents? ==> |Filtered(st.students, department, term)| == 0
  {
    if st.isLoading then Loading
    else if Js.TruthyStr(st.error) then ErrorText(st.error.value)
    else
      var shown := Filtered(st.students, department, term);
      if |shown| == 0 then NoStudents(department) else Listed(shown)
  }

  /** After a successful load, a department with a student renders that
      student when there is no search. */
  lemma LoadedDepartmentListed(p: State, body: Body, department: string, i: nat)
    requires i < |StudentsArray(body)| && StudentsArray(body)[i].department == department
    ensures var v := Render(Fetched(p, Ok(body)), department, "");
            v.Listed? && Normalize(StudentsArray(body)[i]) in v.students
  {
    var st := Fetched(p, Ok(body));
    EmptySearchListsDepartment(st.students, department);
    assert st.students[i] == Normalize(StudentsArray(body)[i]);
  }
}

=== FILE: departments.dfy ===
/** The administrator's students-by-department page
    (app/admin/students/departments/page.tsx): the total, the department
    and level filters, the per-department student lists, and the average
    per department. */
module Departments {
  import opened Wrappers
  import Js
  import Text
  import Seqs

  /** A student; `level` may be missing. */
  datatype Student = Student(id: string, studentId: string, name: string, email: string, department: string, level: Option<string>)

  datatype DepartmentData = DepartmentData(department: string, students: seq<Student>, totalCount: Option<int>)

  /** The answer's body: `departments` when it is an array, `total_students`
      when it is a number. */
  datatype Payload = Payload(departments: Option<seq<DepartmentData>>, totalStudents: Option<int>)

  datatype Reply = Thrown | Reply(ok: bool, payload: Payload)

  /** The page's state; `departmentData` is None once the answer had no
      department array (the page then cannot render its lists). */
  datatype PageState = PageState(departmentData: Option<seq<DepartmentData>>, totalStudents: int, isLoading: bool)

  // ---------------------------------------------------------------------
  // Loading (lines 44-73)

  function TotalCounts(ds: seq<DepartmentData>): (ns: seq<int>)
    ensures |ns| == |ds|
    ensures forall i :: 0 <= i < |ns| ==> ns[i] == Js.OrNum(ds[i].totalCount, 0)
  {
    seq(|ds|, i requires 0 <= i < |ds| => Js.OrNum(ds[i].totalCount, 0))
  }

  /** `fetchStudentsByDepartment`: the backend total when it is a number,
      else the sum of the departments' counts (missing as 0) when there is a
      department array, else the previous total. */
  function Fetched(p: PageState, reply: Reply): (q: PageState)
    ensures !q.isLoading
    ensures !(reply.Reply? && reply.ok) ==> q == p.(isLoading := false)
    ensures reply.Reply? && reply.ok ==> q.departmentData == reply.payload.departments
    ensures reply.Reply? && reply.ok && reply.payload.totalStudents.Some? ==> q.totalStudents == reply.payload.totalStudents.value
    ensures reply.Reply? && reply.ok && reply.payload.totalStudents.None? && reply.payload.departments.Some? ==>
      q.totalStudents == Seqs.Sum(TotalCounts(reply.payload.departments.value))
    ensures reply.Reply? && reply.ok && reply.payload.totalStudents.None? && reply.payload.departments.None? ==>
      q.totalStudents == p.totalStudents
  {
    if !(reply.Reply? && reply.ok) then p.(isLoading := false)
    else
      var total :=
        if reply.payload.totalStudents.Some? then reply.payload.totalStudents.value
        else if reply.payload.departments.Some? then Seqs.Sum(TotalCounts(reply.payload.departments.value))
        else p.totalStudents;
      PageState(reply.payload.departments, total, false)
  }

  /** Without a backend total, departments with non-negative counts give a
      non-negative total that is at least each department's count. */
  lemma SummedTotalBounds(p: PageState, ds: seq<DepartmentData>)
    requires forall i :: 0 <= i < |ds| ==> Js.OrNum(ds[i].totalCount, 0) >= 0
    ensures var q := Fetched(p, Reply(true, Payload(Some(ds), None)));
            q.totalStudents >= 0 && forall i :: 0 <= i < |ds| ==> Js.OrNum(ds[i].totalCount, 0) <= q.totalStudents
  {
    Seqs.SumNonNegative(TotalCounts(ds));
  }

  // ---------------------------------------------------------------------
  // Filters (lines 75-104)

  predicate MatchesStudent(s: Student, term: string) {
    Text.ContainsIgnoreCase(s.name, term) || Text.ContainsIgnoreCase(s.studentId, term) || Text.ContainsIgnoreCase(s.email, term)
  }

  predicate MatchesDepartment(d: DepartmentData, selected: string) {
    selected == "all" || d.department == selected
  }

  predicate MatchesSearch(d: DepartmentData, term: string) {
    term == "" || exists i :: 0 <= i < |d.students| && MatchesStudent(d.students[i], term)
  }

  /** `filteredDepartments`. */
  function FilteredDepartments(ds: seq<DepartmentData>, selected: string, term: string): (r: seq<DepartmentData>)
    ensures forall d :: d in r <==> d in ds && MatchesDepartment(d, selected) && MatchesSearch(d, term)
    ensures Seqs.Subsequence(r, ds)
  {
    Seqs.Filter(ds, (d: DepartmentData) => MatchesDepartment(d, selected) && MatchesSearch(d, term))
  }

  /** The level filter is on unless the level is "all" or blank. */
  predicate LevelFilterOn(level: string) {
    level != "all" && Text.Trim(level) != ""
  }

  /** A student's level equals the chosen one after trimming and lower-casing;
      a missing or empty level never matches. */
  predicate MatchesLevel(s: Student, level: string) {
    Js.TruthyStr(s.level) && Text.ToLower(Text.Trim(s.level.value)) == Text.ToLower(Text.Trim(level))
  }

  /** `getFilteredStudents`: the level filter, then the search filter. */
  function FilteredStudents(students: seq<Student>, level: string, term: string): seq<Student> {
    var byLevel := if LevelFilterOn(level) then Seqs.Filter(students, (s: Student) => MatchesLevel(s, level)) else students;
    if term == "" then byLevel else Seqs.Filter(byLevel, (s: Student) => MatchesStudent(s, term))
  }

  /** The condition both filters together apply to one student. */
  predicate Shown(s: Student, level: string, term: string) {
    (!LevelFilterOn(level) || MatchesLevel(s, level)) && (term == "" || MatchesStudent(s, term))
  }

  /** The two passes select the same students, in the same order, as a single
      filter by their conjunction; so the result is an order-preserving
      subsequence of the department's students. */
  lemma FilteredStudentsOnePass(students: seq<Student>, level: string, term: string)
    ensures FilteredStudents(students, level, term) == Seqs.Filter(students, (s: Student) => Shown(s, level, term))
    ensures Seqs.Subsequence(FilteredStudents(students, level, term), students)
    ensures forall s :: s in FilteredStudents(students, level, term) <==> s in students && Shown(s, level, term)
  {
    var shown := (s: Student) => Shown(s, level, term);
    var byLevel := (s: Student) => MatchesLevel(s, level);
    var bySearch := (s: Student) => MatchesStudent(s, term);
    if LevelFilterOn(level) && term != "" {
      Seqs.FilterFilter(students, byLevel, bySearch, shown);
    } else if LevelFilterOn(level) {
      Seqs.FilterFilter(students, byLevel, (s: Student) => true, shown);
      Seqs.FilterAll(Seqs.Filter(students, byLevel), (s: Student) => true);
    } else if term != "" {
      Seqs.FilterFilter(students, (s: Student) => true, bySearch, shown);
      Seqs.FilterAll(students, (s: Student) => true);
    } else {
      Seqs.FilterAll(students, shown);
    }
  }

  /** With no level and no search, every student of a department is listed. */
  lemma NoFiltersListAll(students: seq<Student>)
    ensures FilteredStudents(students, "all", "") == students
  {
  }

  /** A department card is left out exactly when its filtered list is empty
      and there is a search. */
  predicate CardSkipped(d: DepartmentData, level: string, term: string) {
    |FilteredStudents(d.students, level, term)| == 0 && term != ""
  }

  /** A card that shows under a search has a student the department search
      also found: the card list never shows a department the department
      filter would have dropped for the search. */
  lemma ShownCardMatchesSearch(d: DepartmentData, level: string, term: string)
    requires !CardSkipped(d, level, term)
    requires term != ""
    ensures MatchesSearch(d, term)
  {
    FilteredStudentsOnePass(d.students, level, term);
    var r := FilteredStudents(d.students, level, term);
    assert r[0] in d.students;
    var i :| 0 <= i < |d.students| && d.students[i] == r[0];
    assert MatchesStudent(d.students[i], term);
  }

  // ---------------------------------------------------------------------
  // The level input (lines 211-216)

  /** The value the level input writes: an emptied input means "all". */
  function LevelInput(typed: string): (level: string)
    ensures typed == "" ==> level == "all"
    ensures typed != "" ==> level == typed
  {
    if typed == "" then "all" else typed
  }

  /** The value the level input shows. */
  function LevelShown(level: string): (shown: string)
    ensures level == "all" ==> shown == ""
    ensures level != "all" ==> shown == level
  {
    if level == "all" then "" else level
  }

  /** The input shows back what was typed, except the literal word "all",
      which reads as an empty input. */
  lemma LevelInputRoundTrip(typed: string)
    ensures typed != "all" ==> LevelShown(LevelInput(typed)) == typed
    ensures LevelShown(LevelInput("all")) == ""
    ensures !LevelFilterOn(LevelInput(""))
  {
  }

  // ---------------------------------------------------------------------
  // Level suggestions (lines 218-227)

  /** The levels of one department's students, in order. */
  function StudentLevels(d: DepartmentData): (ls: seq<Option<string>>)
    ensures |ls| == |d.students|
    ensures forall j :: 0 <= j < |ls| ==> ls[j] == d.students[j].level
  {
    seq(|d.students|, j requires 0 <= j < |d.students| => d.students[j].level)
  }

  /** Some department of `ds` has a student with level `l`. */
  predicate HasLevel(ds: seq<DepartmentData>, l: Option<string>) {
    exists d :: d in ds && l in StudentLevels(d)
  }

  /** `flatMap(dept => dept.students.map(s => s.level))`. */
  function Levels(ds: seq<DepartmentData>): seq<Option<string>> {
    if |ds| == 0 then [] else StudentLevels(ds[0]) + Levels(ds[1..])
  }

  lemma {:induction false} LevelsMembers(ds: seq<DepartmentData>, l: Option<string>)
    ensures l in Levels(ds) <==> HasLevel(ds, l)
  {
    if |ds| > 0 {
      LevelsMembers(ds[1..], l);
      if HasLevel(ds, l) && l !in StudentLevels(ds[0]) {
        var d :| d in ds && l in StudentLevels(d);
        assert d in ds[1..];
      }
      if HasLevel(ds[1..], l) {
        var d :| d in ds[1..] && l in StudentLevels(d);
        assert d in ds;
      }
    }
  }

  /** The suggestions: the distinct non-empty levels of the departments the
      department filter keeps. */
  function LevelSuggestions(ds: seq<DepartmentData>, selected: string): (r: seq<string>)
    ensures Seqs.NoDuplicates(r)
    ensures forall l :: l in r <==> (l != "" && exists d :: d in ds && MatchesDepartment(d, selected) && Some(l) in StudentLevels(d))
  {
    var kept := Seqs.Filter(ds, (d: DepartmentData) => MatchesDepartment(d, selected));
    var present := Seqs.Filter(Levels(kept), Js.TruthyStr);
    var values := seq(|present|, k requires 0 <= k < |present| => present[k].value);
    assert forall l :: l in values <==> (l != "" && exists d :: d in ds && MatchesDepartment(d, selected) && Some(l) in StudentLevels(d)) by {
      forall l ensures l in values <==> (l != "" && exists d :: d in ds && MatchesDepartment(d, selected) && Some(l) in StudentLevels(d)) {
        LevelsMembers(kept, Some(l));
        if l in values {
          var k :| 0 <= k < |present| && values[k] == l;
          assert present[k] == Some(l);
        }
        if Some(l) in present {
          var k :| 0 <= k < |present| && present[k] == Some(l);
          assert values[k] == l;
        }
      }
    }
    Seqs.Distinct(values)
  }

  // ---------------------------------------------------------------------
  // Average per department (line 168)

  /** `Math.round(totalStudents / departmentData.length)`, 0 without
      departments. */
  function AveragePerDepartment(total: int, ds: seq<DepartmentData>): (avg: int)
    ensures |ds| == 0 ==> avg == 0
    ensures |ds| > 0 ==> 2 * total - |ds| < 2 * |ds| * avg <= 2 * total + |ds|
    ensures |ds| > 0 && total >= 0 ==> 0 <= avg <= total
  {
    if |ds| == 0 then 0
    else
      if total >= 0 then
        Seqs.RoundDivBounds(total, |ds|);
        Seqs.RoundDiv(total, |ds|)
      else Seqs.RoundDiv(total, |ds|)
  }
}

=== FILE: detailed_report.dfy ===
/** The per-student attendance table (components/admin/detailed-attendance-report.tsx):
    search and band filters, and the status shown for each session date. */
module DetailedReport {
  import Text
  import Seqs
  import Reports

  datatype StudentAttendance = StudentAttendance(
    studentId: string, studentName: string, attendanceRecords: map<string, string>,
    presentCount: int, attendancePercentage: real)

  predicate MatchesSearch(s: StudentAttendance, term: string) {
    Text.ContainsIgnoreCase(s.studentName, term) || Text.ContainsIgnoreCase(s.studentId, term)
  }

  /** The band filter of lines 38-42, spelled with the table's own
      comparisons. */
  predicate MatchesFilter(s: StudentAttendance, filter: string) {
    || filter == "all"
    || (filter == "good" && s.attendancePercentage >= 75.0)
    || (filter == "average" && s.attendancePercentage >= 50.0 && s.attendancePercentage < 75.0)
    || (filter == "poor" && s.attendancePercentage < 50.0)
  }

  predicate Shown(s: StudentAttendance, term: string, filter: string) {
    MatchesSearch(s, term) && MatchesFilter(s, filter)
  }

  function Filtered(students: seq<StudentAttendance>, term: string, filter: string): (r: seq<StudentAttendance>)
    ensures forall s :: s in r <==> s in students && Shown(s, term, filter)
    ensures Seqs.Subsequence(r, students)
  {
    Seqs.Filter(students, (s: StudentAttendance) => Shown(s, term, filter))
  }

  /** The filter bands are the badge colour's bands: "good", "average" and
      "poor" select exactly the students coloured green, yellow and red. */
  lemma FilterAgreesWithColor(s: StudentAttendance)
    ensures MatchesFilter(s, "good") <==> Reports.BandOf(s.attendancePercentage) == Reports.Good
    ensures MatchesFilter(s, "average") <==> Reports.BandOf(s.attendancePercentage) == Reports.Average
    ensures MatchesFilter(s, "poor") <==> Reports.BandOf(s.attendancePercentage) == Reports.Poor
  {
  }

  /** For a fixed search, the three bands split the "all" view. */
  lemma BandsPartition(students: seq<StudentAttendance>, term: string)
    ensures |Filtered(students, term, "good")| + |Filtered(students, term, "average")| + |Filtered(students, term, "poor")|
            == |Filtered(students, term, "all")|
  {
    var all := (s: StudentAttendance) => Shown(s, term, "all");
    var good := (s: StudentAttendance) => MatchesFilter(s, "good");
    var average := (s: StudentAttendance) => MatchesFilter(s, "average");
    var poor := (s: StudentAttendance) => MatchesFilter(s, "poor");
    Seqs.FilterFilter(students, all, good, (s: StudentAttendance) => Shown(s, term, "good"));
    Seqs.FilterFilter(students, all, average, (s: StudentAttendance) => Shown(s, term, "average"));
    Seqs.FilterFilter(students, all, poor, (s: StudentAttendance) => Shown(s, term, "poor"));
    Seqs.CountThreeWay(Seqs.Filter(students, all), good, average, poor);
  }

  /** An empty search with "all" shows every student. */
  lemma DefaultFiltersShowAll(students: seq<StudentAttendance>)
    ensures Filtered(students, "", "all") == students
  {
    forall i | 0 <= i < |students| ensures Shown(students[i], "", "all") {
      Text.ContainsEmpty(Text.ToLower(students[i].studentName));
    }
    Seqs.FilterAll(students, (s: StudentAttendance) => Shown(s, "", "all"));
  }

  /** `attendanceRecords[date] || "Absent"`. */
  function StatusOn(s: StudentAttendance, date: string): (status: string)
    ensures date !in s.attendanceRecords ==> status == "Absent"
    ensures date in s.attendanceRecords && s.attendanceRecords[date] != "" ==> status == s.attendanceRecords[date]
    ensures status != ""
  {
    if date in s.attendanceRecords && s.attendanceRecords[date] != "" then s.attendanceRecords[date] else "Absent"
  }

  /** One cell per session date, in the order of the dates. */
  function Row(s: StudentAttendance, dates: seq<string>): (cells: seq<string>)
    ensures |cells| == |dates|
    ensures forall k :: 0 <= k < |dates| ==> cells[k] == StatusOn(s, dates[k])
  {
    seq(|dates|, k requires 0 <= k < |dates| => StatusOn(s, dates[k]))
  }

  /** A student with no records shows "Absent" on every date. */
  lemma NoRecordsAllAbsent(s: StudentAttendance, dates: seq<string>)
    requires s.attendanceRecords == map[]
    ensures forall k :: 0 <= k < |dates| ==> Row(s, dates)[k] == "Absent"
  {
  }
}

=== FILE: duration.dfy ===
/** `formatDuration` (app/lib/utils.ts), which the facial attendance page
    repeats word for word: seconds shown as `mm:ss`. */
module Duration {
  import Text

  /** JavaScript's `a % b` for a positive divisor: the remainder takes the
      sign of the dividend (truncating division), unlike Dafny's `%`. */
  function JsRem(a: int, b: int): (r: int)
    requires b > 0
    ensures a >= 0 ==> r == a % b
    ensures a < 0 ==> -b < r <= 0 && r == -((-a) % b)
  {
    if a >= 0 then a % b else -((-a) % b)
  }

  /** `Math.floor(seconds / 60)`: Dafny's division by a positive divisor
      already rounds toward negative infinity. */
  function Minutes(seconds: int): int {
    seconds / 60
  }

  function Seconds(seconds: int): int {
    JsRem(seconds, 60)
  }

  /** `n.toString().padStart(2, "0")`. */
  function Field(n: int): string {
    Text.PadStart(Text.IntToString(n), 2, '0')
  }

  function FormatDuration(seconds: int): (r: string)
    ensures seconds >= 0 ==> |r| >= 5 && r[|r| - 3] == ':'
  {
    Field(Minutes(seconds)) + ":" + Field(Seconds(seconds))
  }

  /** For a non-negative count the two fields split it into whole minutes and
      a seconds remainder below 60. */
  lemma FieldsSplit(seconds: nat)
    ensures 60 * Minutes(seconds) + Seconds(seconds) == seconds
    ensures 0 <= Seconds(seconds) < 60 && Minutes(seconds) >= 0
  {
  }

  /** A padded field of a natural number is zeros followed by its digits. */
  lemma FieldDigits(n: nat)
    ensures Text.AllDigits(Field(n)) && |Field(n)| >= 2
    ensures Text.ParseNat(Field(n)) == n
    ensures n < 100 ==> |Field(n)| == 2
  {
    var d := Text.NatToString(n);
    Text.NatToStringRoundTrip(n);
    var z := if |d| >= 2 then 0 else 2 - |d|;
    assert Field(n) == Text.Repeat('0', z) + d;
    Text.ParseNatLeadingZeros(z, d);
  }

  /** Reading the text back: the digits before the first ':' are the minutes,
      the two digits after it the seconds, and 60 * minutes + seconds is the
      input again. */
  lemma FormatDurationRoundTrip(seconds: nat)
    ensures ':' in FormatDuration(seconds)
    ensures var r := FormatDuration(seconds);
            var i := Text.IndexOf(r, ':');
            && Text.AllDigits(r[..i]) && |r[..i]| >= 2
            && Text.AllDigits(r[i + 1..]) && |r[i + 1..]| == 2
            && 60 * Text.ParseNat(r[..i]) + Text.ParseNat(r[i + 1..]) == seconds
  {
    var m := Field(Minutes(seconds));
    var s := Field(Seconds(seconds));
    FieldDigits(Minutes(seconds));
    FieldDigits(Seconds(seconds));
    var r := FormatDuration(seconds);
    assert r == m + ":" + s;
    assert r[..|m|] == m && r[|m| + 1..] == s;
    assert ':' !in m by {
      assert forall k :: 0 <= k < |m| ==> Text.IsDigit(m[k]);
    }
    Text.IndexOfAt(r, ':', |m|);
  }

  /** Below 100 minutes the text is exactly `mm:ss`. */
  lemma FormatDurationShort(seconds: nat)
    requires seconds < 6000
    ensures |FormatDuration(seconds)| == 5 && FormatDuration(seconds)[2] == ':'
  {
    FieldDigits(Minutes(seconds));
    FieldDigits(Seconds(seconds));
  }
}

=== FILE: email_patterns.dfy ===
/** The two e-mail address patterns the portal uses, as string predicates.

    - The anchored pattern `^[^\s@]+@[^\s@]+\.[^\s@]+$` (e-mail settings page,
      administrator login route): the whole string is `local@domain.tld` with
      no white space and no second `@`.
    - The unanchored pattern `\S+@\S+\.\S+` (add-lecturer form): tested with
      `RegExp.prototype.test`, so it only has to match somewhere inside. */
module EmailPatterns {
  import Text

  /** No character of `t` is white space or `@` (the class `[^\s@]`). */
  predicate NoSpaceNoAt(t: string) {
    forall k :: 0 <= k < |t| ==> !Text.IsSpace(t[k]) && t[k] != '@'
  }

  /** No character of `t` is white space (the class `\S`). */
  predicate NoSpace(t: string) {
    forall k :: 0 <= k < |t| ==> !Text.IsSpace(t[k])
  }

  /** The anchored pattern matches with its `@` at `i` and the literal `.` at
      `j`: three non-empty `[^\s@]+` runs around them cover the whole string. */
  predicate AnchoredAt(s: string, i: int, j: int) {
    && 0 < i && i + 1 < j && j + 1 < |s|
    && s[i] == '@' && s[j] == '.'
    && NoSpaceNoAt(s[..i]) && NoSpaceNoAt(s[i + 1..j]) && NoSpaceNoAt(s[j + 1..])
  }

  /** `/^[^\s@]+@[^\s@]+\.[^\s@]+$/.test(s)`. */
  predicate AnchoredEmail(s: string) {
    exists i, j | 0 <= i < |s| && 0 <= j < |s| :: AnchoredAt(s, i, j)
  }

  /** The unanchored pattern matches with its `@` at `i` and the literal `.`
      at `j`: a non-space before the `@`, a non-empty non-space run between
      `@` and `.`, and a non-space after the `.`. */
  predicate LooseAt(s: string, i: int, j: int) {
    && 1 <= i && i + 1 < j && j + 1 < |s|
    && s[i] == '@' && s[j] == '.'
    && !Text.IsSpace(s[i - 1]) && NoSpace(s[i + 1..j]) && !Text.IsSpace(s[j + 1])
  }

  /** `/\S+@\S+\.\S+/.test(s)`. */
  predicate LooseEmail(s: string) {
    exists i, j | 0 <= i < |s| && 0 <= j < |s| :: LooseAt(s, i, j)
  }

  /** The anchored pattern, read as a shape: no white space anywhere, exactly
      one `@`, not first, and a `.` strictly inside the part after it (at
      least one character between `@` and `.`, and at least one after `.`). */
  predicate AnchoredShape(s: string) {
    && NoSpace(s)
    && '@' in s
    && var i := Text.IndexOf(s, '@');
       && i > 0
       && '@' !in s[i + 1..]
       && i + 2 < |s| && '.' in s[i + 2..|s| - 1]
  }

  /** The regular expression and the shape reading accept the same strings. */
  lemma AnchoredEmailShape(s: string)
    ensures AnchoredEmail(s) <==> AnchoredShape(s)
  {
    if AnchoredEmail(s) {
      var i, j :| 0 <= i < |s| && 0 <= j < |s| && AnchoredAt(s, i, j);
      AnchoredAtShape(s, i, j);
    }
    if AnchoredShape(s) {
      ShapeAnchored(s);
    }
  }

  /** A match of the pattern has the shape. */
  lemma AnchoredAtShape(s: string, i: int, j: int)
    requires AnchoredAt(s, i, j)
    ensures AnchoredShape(s)
  {
    assert '@' !in s[..i] by {
      assert forall k :: 0 <= k < i ==> s[..i][k] != '@';
    }
    Text.IndexOfAt(s, '@', i);
    forall k | 0 <= k < |s| ensures !Text.IsSpace(s[k]) {
      if k < i {
        assert s[k] == s[..i][k];
      } else if i < k < j {
        assert s[k] == s[i + 1..j][k - i - 1];
      } else if j < k {
        assert s[k] == s[j + 1..][k - j - 1];
      }
    }
    assert '@' !in s[i + 1..] by {
      forall k | i + 1 <= k < |s| ensures s[k] != '@' {
        if k < j {
          assert s[k] == s[i + 1..j][k - i - 1];
        } else if j < k {
          assert s[k] == s[j + 1..][k - j - 1];
        }
      }
    }
    assert s[i + 2..|s| - 1][j - i - 2] == '.';
  }

  /** A string of that shape matches the pattern at its `@` and at the first
      `.` after the character following it. */
  lemma ShapeAnchored(s: string)
    requires AnchoredShape(s)
    ensures AnchoredEmail(s)
  {
    var i := Text.IndexOf(s, '@');
    var t := s[i + 2..|s| - 1];
    var j := Text.IndexOf(t, '.') + i + 2;
    assert s[j] == '.';
    assert forall k :: i + 1 <= k < |s| ==> s[k] == s[i + 1..][k - i - 1];
    assert forall k :: i + 1 <= k < |s| ==> s[k] != '@';
    assert NoSpaceNoAt(s[..i]) by {
      forall k | 0 <= k < i ensures !Text.IsSpace(s[..i][k]) && s[..i][k] != '@' {
        assert s[..i][k] == s[k];
      }
    }
    assert AnchoredAt(s, i, j);
  }

  /** Every address the anchored pattern accepts, the unanchored one accepts. */
  lemma AnchoredImpliesLoose(s: string)
    requires AnchoredEmail(s)
    ensures LooseEmail(s)
  {
    var i, j :| 0 <= i < |s| && 0 <= j < |s| && AnchoredAt(s, i, j);
    assert s[i - 1] == s[..i][i - 1];
    assert s[j + 1] == s[j + 1..][0];
    assert NoSpace(s[i + 1..j]);
    assert LooseAt(s, i, j);
  }

  /** The converse fails: the unanchored pattern accepts text around an
      address, white space included, and a second `@`. */
  lemma LooseAdmitsMore()
    ensures LooseEmail("a b@c.d") && !AnchoredEmail("a b@c.d")
    ensures LooseEmail("a@b@c.d") && !AnchoredEmail("a@b@c.d")
  {
    var s := "a b@c.d";
    assert LooseAt(s, 3, 5);
    AnchoredEmailShape(s);
    assert Text.IsSpace(s[1]);
    var u := "a@b@c.d";
    assert LooseAt(u, 3, 5);
    AnchoredEmailShape(u);
    assert Text.IndexOf(u, '@') == 1;
    assert u[2..][1] == '@';
  }
}

=== FILE: email_send_page.dfy ===
/** The lecturer's bulk attendance e-mail page (app/lecturer/email/send/page.tsx):
    recipient selection, the two send guards, and the reconciliation of the
    backend's per-student report into displayed statuses. */
module EmailSendPage {
  import opened Wrappers
  import Text
  import Seqs
  import EmailSendRoute

  type EmailStatus = EmailSendRoute.EmailStatus

  datatype Course = Course(id: string, courseCode: string, courseName: string, session: string)
  datatype Student = Student(id: string, studentId: string, name: string, email: string, department: string, level: int)
  datatype EmailData = EmailData(course: Course, lecturerName: string, lecturerEmail: string, students: seq<Student>, hasEmailSettings: bool)

  datatype PageState = PageState(
    data: Option<EmailData>,
    selected: seq<string>,
    subject: string,
    message: string,
    statuses: seq<EmailStatus>,
    sending: bool,
    loading: bool,
    complete: bool,
    step: nat)

  const Initial := PageState(None, [], "", "", [], false, true, false, 1)

  /** The ids of every student of the course, in course order. */
  function AllIds(d: EmailData): (ids: seq<string>)
    ensures |ids| == |d.students|
    ensures forall i :: 0 <= i < |ids| ==> ids[i] == d.students[i].id
  {
    seq(|d.students|, i requires 0 <= i < |d.students| => d.students[i].id)
  }

  // ---------------------------------------------------------------------
  // Loading (lines 66-146)

  function DefaultSubject(c: Course): string {
    "Attendance Report - " + c.courseName + " (" + c.courseCode + ")"
  }

  /** The fixed parts of the template message of lines 77-98. */
  const Greeting := "Dear Student,"
  const Opening := Greeting + "\n\nI hope this email finds you well.\n\nPlease find your attendance report for "
  const Notes :=
    ".\n\nThis report contains your attendance records for all sessions conducted so far. "
    + "Please review your attendance status and contact me if you have any questions or concerns.\n\n"
    + "Important Notes:\n"
    + "\U{2022} Regular attendance is crucial for your academic success\n"
    + "\U{2022} If you have any valid reasons for absences, please discuss them with me\n"
    + "\U{2022} Make sure to attend future sessions to improve your attendance percentage\n\n"
    + "If you need any clarification regarding your attendance records, feel free to reach out to me during office hours or via email.\n\n"
    + "Best regards,\n"
  const Footer := "\n\n---\nThis is an automated message from the Facial Attendance System."

  /** The template message: a fixed letter that names the course, its code
      and session, and signs with the lecturer's name and e-mail address. */
  function DefaultMessage(d: EmailData): string {
    Opening + (d.course.courseName + " (" + d.course.courseCode + ") - " + d.course.session
    + Notes + d.lecturerName + "\n" + d.lecturerEmail + Footer)
  }

  datatype LoadReply = LoadThrown | LoadReply(ok: bool, data: EmailData)

  /** The mount effect and the follow-up effect that fills in the default
      subject and message once course data arrives. */
  function Load(p: PageState, courseId: string, reply: LoadReply): (q: PageState)
    ensures !q.loading
    ensures courseId != "" && reply.LoadReply? && reply.ok ==>
      && q.data == Some(reply.data)
      && q.selected == AllIds(reply.data)
      && q.subject == DefaultSubject(reply.data.course)
      && q.message == DefaultMessage(reply.data)
    ensures !(courseId != "" && reply.LoadReply? && reply.ok) ==> q == p.(loading := false)
  {
    if courseId != "" && reply.LoadReply? && reply.ok then
      var d := reply.data;
      p.(data := Some(d), selected := AllIds(d), subject := DefaultSubject(d.course), message := DefaultMessage(d), loading := false)
    else p.(loading := false)
  }

  /** The default subject always passes the page's content guard. */
  lemma DefaultSubjectNotBlank(c: Course)
    ensures !Text.IsBlank(DefaultSubject(c))
  {
    var s := DefaultSubject(c);
    assert s[0] == 'A';
    Text.BlankIffAllSpace(s);
  }

  /** So does the default message, whatever the course and lecturer. */
  lemma DefaultMessageNotBlank(d: EmailData)
    ensures !Text.IsBlank(DefaultMessage(d))
  {
    var s := DefaultMessage(d);
    assert Greeting[0] == 'D';
    assert Opening[0] == Greeting[0];
    assert s[0] == Opening[0];
    Text.BlankIffAllSpace(s);
  }

  /** Loading a course with at least one student leaves a page whose "Send"
      is not refused: data, recipients, subject and message are all there. */
  lemma LoadThenSendAccepted(p: PageState, courseId: string, reply: LoadReply)
    requires courseId != "" && reply.LoadReply? && reply.ok && |reply.data.students| > 0
    ensures !Refused(Load(p, courseId, reply))
  {
    DefaultSubjectNotBlank(reply.data.course);
    DefaultMessageNotBlank(reply.data);
  }

  // ---------------------------------------------------------------------
  // Selection (lines 148-164)

  /** `handleStudentSelection`: checking appends the id (no de-duplication);
      unchecking removes every occurrence. */
  function Select(p: PageState, studentId: string, checked: bool): (q: PageState)
    ensures checked ==> q.selected == p.selected + [studentId]
    ensures !checked ==> studentId !in q.selected
    ensures !checked ==> forall x :: x in q.selected <==> x in p.selected && x != studentId
    ensures !checked ==> Seqs.Subsequence(q.selected, p.selected)
    ensures q.(selected := p.selected) == p
  {
    if checked then p.(selected := p.selected + [studentId])
    else p.(selected := Seqs.Filter(p.selected, (x: string) => x != studentId))
  }

  /** Unchecking undoes any number of checks of the same student. */
  lemma UncheckUndoesChecks(p: PageState, studentId: string, times: nat)
    ensures Select(CheckTimes(p, studentId, times), studentId, false) == Select(p, studentId, false)
  {
    var keep := (x: string) => x != studentId;
    var extra := Repeated(studentId, times);
    assert CheckTimes(p, studentId, times).selected == p.selected + extra by {
      CheckTimesAppends(p, studentId, times);
    }
    Seqs.FilterConcat(p.selected, extra, keep);
    FilterOutRepeated(studentId, times);
  }

  function Repeated(x: string, n: nat): (r: seq<string>)
    ensures |r| == n && forall i :: 0 <= i < n ==> r[i] == x
  {
    if n == 0 then [] else Repeated(x, n - 1) + [x]
  }

  /** Checking the same box `times` times in a row. */
  function CheckTimes(p: PageState, studentId: string, times: nat): PageState {
    if times == 0 then p else Select(CheckTimes(p, studentId, times - 1), studentId, true)
  }

  lemma {:induction false} CheckTimesAppends(p: PageState, studentId: string, times: nat)
    ensures CheckTimes(p, studentId, times) == p.(selected := p.selected + Repeated(studentId, times))
  {
    if times > 0 {
      CheckTimesAppends(p, studentId, times - 1);
      assert p.selected + Repeated(studentId, times - 1) + [studentId] == p.selected + Repeated(studentId, times);
    } else {
      assert p.selected + [] == p.selected;
    }
  }

  lemma FilterOutRepeated(x: string, n: nat)
    ensures Seqs.Filter(Repeated(x, n), (y: string) => y != x) == []
  {
    Seqs.FilterNone(Repeated(x, n), (y: string) => y != x);
  }

  /** `selectAllStudents`: the whole course, in order; without data, nothing. */
  function SelectAll(p: PageState): (q: PageState)
    ensures p.data.Some? ==> q.selected == AllIds(p.data.value)
    ensures p.data.None? ==> q == p
    ensures q.(selected := p.selected) == p
  {
    if p.data.Some? then p.(selected := AllIds(p.data.value)) else p
  }

  /** `deselectAllStudents`. */
  function DeselectAll(p: PageState): (q: PageState)
    ensures q.selected == [] && q.(selected := p.selected) == p
  {
    p.(selected := [])
  }

  // ---------------------------------------------------------------------
  // Sending (lines 166-263)

  /** One entry of `student_details`. */
  datatype StudentDetail = StudentDetail(studentId: string, studentName: string, email: string)

  /** The parsed body of a successful bulk-send reply; absent fields are None. */
  datatype BulkResult = BulkResult(
    studentDetails: Option<seq<StudentDetail>>,
    successEmails: Option<seq<string>>,
    failedEmails: Option<seq<string>>,
    emailStatuses: Option<seq<EmailStatus>>)

  /** The bulk-send request: it threw (network error or unreadable JSON), or
      it answered with a status and, when OK, the parsed result. */
  datatype SendReply = SendThrown | SendReply(ok: bool, result: BulkResult)

  /** What the page does on "Send": the guards refuse, or it sends. */
  predicate Refused(p: PageState) {
    p.data.None? || |p.selected| == 0 || Text.IsBlank(p.subject) || Text.IsBlank(p.message)
  }

  /** The course students whose id is selected, in course order. */
  function Recipients(d: EmailData, selected: seq<string>): (rs: seq<Student>)
    ensures forall s :: s in rs <==> s in d.students && s.id in selected
    ensures Seqs.Subsequence(rs, d.students)
  {
    Seqs.Filter(d.students, (s: Student) => s.id in selected)
  }

  lemma RecipientsCons(d: EmailData, selected: seq<string>)
    requires |d.students| > 0
    ensures d.students[0].id in selected ==>
      Recipients(d, selected) == [d.students[0]] + Recipients(d.(students := d.students[1..]), selected)
    ensures d.students[0].id !in selected ==>
      Recipients(d, selected) == Recipients(d.(students := d.students[1..]), selected)
  {
  }

  /** The "pending" status shown for one recipient. */
  function Pending(s: Student): EmailStatus {
    EmailSendRoute.EmailStatus(s.id, s.name, s.email, "pending", None)
  }

  /** One "pending" status per course student whose id is selected, in
      course order (lines 190-197). A student selected twice still gets one
      status; a selected id outside the course gets none. */
  function InitialStatuses(d: EmailData, selected: seq<string>): (r: seq<EmailStatus>)
    ensures |r| == |Recipients(d, selected)| <= |d.students|
    ensures forall i :: 0 <= i < |r| ==> r[i] == Pending(Recipients(d, selected)[i])
    ensures forall i :: 0 <= i < |r| ==> r[i].status == "pending" && r[i].studentId in selected
    ensures forall s :: s in d.students && s.id in selected ==>
      exists st :: st in r && st.studentId == s.id && st.email == s.email
    decreases |d.students|
  {
    if |d.students| == 0 then []
    else
      var s := d.students[0];
      var tail := d.(students := d.students[1..]);
      var rest := InitialStatuses(tail, selected);
      RecipientsCons(d, selected);
      var r := if s.id in selected then PendingCons(s, Recipients(tail, selected), rest); [Pending(s)] + rest else rest;
      PendingCovers(d, selected, r);
      r
  }

  /** Prepending a recipient prepends its pending status. */
  lemma PendingCons(s: Student, rs: seq<Student>, rest: seq<EmailStatus>)
    requires |rest| == |rs|
    requires forall i :: 0 <= i < |rest| ==> rest[i] == Pending(rs[i])
    ensures forall i :: 0 <= i < |rest| + 1 ==> ([Pending(s)] + rest)[i] == Pending(([s] + rs)[i])
  {
  }

  /** A pointwise image of the recipients has a status for each of them. */
  lemma PendingCovers(d: EmailData, selected: seq<string>, r: seq<EmailStatus>)
    requires |r| == |Recipients(d, selected)|
    requires forall i :: 0 <= i < |r| ==> r[i] == Pending(Recipients(d, selected)[i])
    ensures forall i :: 0 <= i < |r| ==> r[i].status == "pending" && r[i].studentId in selected
    ensures forall s :: s in d.students && s.id in selected ==>
      exists st :: st in r && st.studentId == s.id && st.email == s.email
  {
    var rs := Recipients(d, selected);
    forall i | 0 <= i < |r|
      ensures r[i].studentId in selected
    {
      assert rs[i] in rs;
    }
    forall s | s in d.students && s.id in selected
      ensures exists st :: st in r && st.studentId == s.id && st.email == s.email
    {
      var i :| 0 <= i < |rs| && rs[i] == s;
      assert r[i] in r;
    }
  }

  /** The status of one reported student: sent if in the success list, else
      failed if in the failure list, else pending. Missing lists count as
      empty. */
  function Classify(email: string, success: seq<string>, failed: seq<string>): (status: string)
    ensures status == "sent" <==> email in success
    ensures status == "failed" <==> email !in success && email in failed
    ensures status == "pending" <==> email !in success && email !in failed
  {
    if email in success then "sent" else if email in failed then "failed" else "pending"
  }

  /** Reconciliation of the reply into statuses (lines 222-232), with a
      missing success or failure list read as empty. */
  function Reconcile(r: BulkResult): (statuses: seq<EmailStatus>)
    ensures r.studentDetails.Some? && (r.successEmails.Some? || r.failedEmails.Some?) ==>
      && |statuses| == |r.studentDetails.value|
      && forall i :: 0 <= i < |statuses| ==>
           && statuses[i].studentId == r.studentDetails.value[i].studentId
           && statuses[i].email == r.studentDetails.value[i].email
           && statuses[i].status == Classify(r.studentDetails.value[i].email, r.successEmails.GetOr([]), r.failedEmails.GetOr([]))
    ensures !(r.studentDetails.Some? && (r.successEmails.Some? || r.failedEmails.Some?)) ==>
      statuses == r.emailStatuses.GetOr([])
  {
    if r.studentDetails.Some? && (r.successEmails.Some? || r.failedEmails.Some?) then
      var details := r.studentDetails.value;
      var success := r.successEmails.GetOr([]);
      var failed := r.failedEmails.GetOr([]);
      seq(|details|, i requires 0 <= i < |details| =>
        EmailSendRoute.EmailStatus(details[i].studentId, details[i].studentName, details[i].email,
                                   Classify(details[i].email, success, failed), None))
    else r.emailStatuses.GetOr([])
  }

  /** Reconciliation as the page is written: `includes` is called on both
      lists unguarded, so a reported student not in the present list reaches
      the missing one and the call throws (None). */
  function ReconcileAsWritten(r: BulkResult): (statuses: Option<seq<EmailStatus>>)
    ensures statuses.Some? ==> statuses.value == Reconcile(r)
    ensures r.studentDetails.Some? && r.successEmails.Some? && r.failedEmails.Some? ==> statuses.Some?
  {
    if r.studentDetails.Some? && (r.successEmails.Some? || r.failedEmails.Some?) then
      var details := r.studentDetails.value;
      var reachesMissing := exists i | 0 <= i < |details| ::
        r.successEmails.None? || (details[i].email !in r.successEmails.value && r.failedEmails.None?);
      if reachesMissing then None else Some(Reconcile(r))
    else Some(Reconcile(r))
  }

  /** A reply with details and only a failure list throws as written, so the
      page reports a network error and returns to step 1; read with the
      missing list as empty, the same reply shows the student as failed. */
  lemma ReconcileMissingListThrows()
    ensures var r := BulkResult(Some([StudentDetail("1", "A", "a@x.io")]), None, Some(["a@x.io"]), None);
            && ReconcileAsWritten(r) == None
            && Reconcile(r)[0].status == "failed"
  {
    var r := BulkResult(Some([StudentDetail("1", "A", "a@x.io")]), None, Some(["a@x.io"]), None);
    assert r.studentDetails.value[0].email !in r.successEmails.GetOr([]);
  }

  function SentCount(statuses: seq<EmailStatus>): nat {
    Seqs.Count(statuses, EmailSendRoute.IsSent)
  }

  function FailCount(statuses: seq<EmailStatus>): nat {
    Seqs.Count(statuses, EmailSendRoute.IsFailed)
  }

  /** The toast's two counts never exceed the number of statuses together. */
  lemma CountsBounded(statuses: seq<EmailStatus>)
    ensures SentCount(statuses) + FailCount(statuses) <= |statuses|
  {
    var notSent := (s: EmailStatus) => !EmailSendRoute.IsSent(s);
    Seqs.CountComplement(statuses, EmailSendRoute.IsSent, notSent);
    Seqs.CountMonotone(statuses, EmailSendRoute.IsFailed, notSent);
  }

  /** `sendEmails`, with the corrected reconciliation. A refusal changes
      nothing (only a toast is shown). */
  function SendEmails(p: PageState, reply: SendReply): (q: PageState)
    ensures Refused(p) ==> q == p
    ensures !Refused(p) ==> !q.sending
    ensures !Refused(p) ==> (q.step == 3 <==> reply.SendReply? && reply.ok)
    ensures !Refused(p) && q.step != 3 ==>
      q.step == 1 && !q.complete && q.statuses == InitialStatuses(p.data.value, p.selected)
    ensures !Refused(p) && reply.SendReply? && reply.ok ==>
      q.complete && q.statuses == Reconcile(reply.result)
    ensures q.selected == p.selected && q.data == p.data && q.subject == p.subject && q.message == p.message
  {
    if Refused(p) then p
    else
      var initial := InitialStatuses(p.data.value, p.selected);
      var pending := p.(sending := false, complete := false, statuses := initial);
      if reply.SendReply? && reply.ok then
        pending.(statuses := Reconcile(reply.result), complete := true, step := 3)
      else pending.(step := 1)
  }

  /** `sendEmails` as the page is written: when the reconciliation throws,
      the catch block reports a network error and returns to step 1 with the
      pending statuses still shown. */
  function SendEmailsAsWritten(p: PageState, reply: SendReply): (q: PageState)
    ensures Refused(p) ==> q == p
    ensures !Refused(p) ==>
      (q.step == 3 <==> reply.SendReply? && reply.ok && ReconcileAsWritten(reply.result).Some?)
    ensures !Refused(p) && q.step != 3 ==>
      q.step == 1 && !q.complete && !q.sending && q.statuses == InitialStatuses(p.data.value, p.selected)
  {
    if Refused(p) then p
    else
      var initial := InitialStatuses(p.data.value, p.selected);
      var pending := p.(sending := false, complete := false, statuses := initial);
      if reply.SendReply? && reply.ok then
        match ReconcileAsWritten(reply.result)
        case Some(statuses) => pending.(statuses := statuses, complete := true, step := 3)
        case None => pending.(step := 1)
      else pending.(step := 1)
  }

  /** The two versions differ only on replies whose reconciliation throws. */
  lemma SendEmailsAgreesUnlessThrown(p: PageState, reply: SendReply)
    requires !(reply.SendReply? && reply.ok && ReconcileAsWritten(reply.result).None?)
    ensures SendEmailsAsWritten(p, reply) == SendEmails(p, reply)
  {
  }

  /** A reply with details and only a failure list: as written the page falls
      back to step 1 although the backend answered OK; corrected, it shows
      the report. */
  lemma SendEmailsMissingListFallsBack(p: PageState)
    requires !Refused(p)
    ensures var reply := SendReply(true, BulkResult(Some([StudentDetail("1", "A", "a@x.io")]), None, Some(["a@x.io"]), None));
            && SendEmailsAsWritten(p, reply).step == 1
            && SendEmails(p, reply).step == 3
  {
    ReconcileMissingListThrows();
  }

  /** `resetForm`: back to step 1 with every student selected again. */
  function ResetForm(p: PageState): (q: PageState)
    ensures q.step == 1 && !q.complete && q.statuses == []
    ensures p.data.Some? ==> q.selected == AllIds(p.data.value)
    ensures p.data.None? ==> q.selected == p.selected
    ensures q.data == p.data && q.subject == p.subject && q.message == p.message
  {
    SelectAll(p.(step := 1, complete := false, statuses := []))
  }

  /** The selection buttons forget any earlier editing: "Select all" after a
      check, an uncheck or "Deselect all" selects the whole course again. */
  lemma SelectAllForgetsEdits(p: PageState, studentId: string, checked: bool)
    requires p.data.Some?
    ensures SelectAll(Select(p, studentId, checked)) == SelectAll(p)
    ensures SelectAll(DeselectAll(p)) == SelectAll(p)
  {
  }

  /** The whole flow: after loading a course with students and sending
      (whatever the outcome), "Send another" leaves a page that may send
      again, with every student selected. */
  lemma ResetAfterSendAccepted(p: PageState, courseId: string, reply: LoadReply, sendReply: SendReply)
    requires courseId != "" && reply.LoadReply? && reply.ok && |reply.data.students| > 0
    ensures var q := ResetForm(SendEmails(Load(p, courseId, reply), sendReply));
            && !Refused(q) && q.step == 1 && q.selected == AllIds(reply.data)
  {
    LoadThenSendAccepted(p, courseId, reply);
  }

  /** Loading then sending with an OK reply reaches the report step with the
      reconciled statuses. */
  lemma LoadThenSendReports(p: PageState, courseId: string, reply: LoadReply, result: BulkResult)
    requires courseId != "" && reply.LoadReply? && reply.ok && |reply.data.students| > 0
    ensures var q := SendEmails(Load(p, courseId, reply), SendReply(true, result));
            && q.step == 3 && q.complete && q.statuses == Reconcile(result)
  {
    LoadThenSendAccepted(p, courseId, reply);
  }
}

=== FILE: email_send_route.dfy ===
/** The mock bulk-send handler `POST /api/lecturer/email/send`
    (app/api/lecturer/email/send/route.ts): it looks up the course's students
    in a fixed table, keeps the selected ones, and "sends" to each with a
    random outcome. The random draw is an oracle parameter. */
module EmailSendRoute {
  import opened Wrappers
  import Seqs

  datatype Student = Student(id: string, studentId: string, name: string, email: string, department: string, level: int)

  /** One delivery outcome; `status` is "sent" or "failed" here. */
  datatype EmailStatus = EmailStatus(studentId: string, studentName: string, email: string, status: string, error: Option<string>)

  const Wesley := Student("1", "FE21A160", "Wesley Mungo", "wesleymungo808@gmail.com", "CEF", 500)
  const Kanjo := Student("2", "FE21A159", "Kanjo Daryl", "chrismaxbrown0123456789@gmail.com", "CEF", 500)
  const Brendan := Student("3", "FE21A140", "Brendan", "brendan@gmail.com", "CEF", 500)

  const SmtpFailure := "SMTP connection failed"

  /** Keys every plain JavaScript object inherits from `Object.prototype`:
      indexing the table with one of them yields a function or object, which
      is truthy and has no `filter` method. */
  predicate InheritedKey(key: string) {
    key in {"constructor", "hasOwnProperty", "isPrototypeOf", "propertyIsEnumerable",
            "toLocaleString", "toString", "valueOf", "__proto__",
            "__defineGetter__", "__defineSetter__", "__lookupGetter__", "__lookupSetter__"}
  }

  /** `mockStudents[courseId] || []` for a key that is not inherited. */
  function CourseStudents(courseId: string): (r: seq<Student>)
    ensures courseId != "2" && courseId != "3" ==> r == []
    ensures courseId == "2" ==> |r| == 3 && r[0] == Wesley
  {
    if courseId == "3" then [Wesley]
    else if courseId == "2" then [Wesley, Kanjo, Brendan]
    else []
  }

  /** The parsed request body; `selectedStudents` is None when it is missing
      or not an array. */
  datatype SendRequest = SendRequest(courseId: string, selectedStudents: Option<seq<string>>, subject: string, message: string)

  datatype Body = Malformed | Parsed(request: SendRequest)

  datatype Summary = Summary(attempted: nat, sent: nat, failed: nat)

  datatype Response =
    | Sent(statuses: seq<EmailStatus>, summary: Summary)
    | ServerError(status: int, error: string)

  predicate IsSent(s: EmailStatus) { s.status == "sent" }
  predicate IsFailed(s: EmailStatus) { s.status == "failed" }

  /** The status of one attempt given the oracle's verdict. */
  function Attempt(s: Student, success: bool): (st: EmailStatus)
    ensures st.studentId == s.id && st.studentName == s.name && st.email == s.email
    ensures success ==> st.status == "sent" && st.error == None
    ensures !success ==> st.status == "failed" && st.error == Some(SmtpFailure)
  {
    EmailStatus(s.id, s.name, s.email, if success then "sent" else "failed", if success then None else Some(SmtpFailure))
  }

  /** The loop of lines 54-68; attempt number `k + i` asks `draw(k + i)`. */
  function Attempts(students: seq<Student>, draw: nat -> bool, k: nat): (r: seq<EmailStatus>)
    ensures |r| == |students|
    ensures forall i :: 0 <= i < |r| ==> r[i] == Attempt(students[i], draw(k + i))
    decreases |students|
  {
    if |students| == 0 then []
    else [Attempt(students[0], draw(k))] + Attempts(students[1..], draw, k + 1)
  }

  function Selected(courseStudents: seq<Student>, selected: seq<string>): seq<Student> {
    Seqs.Filter(courseStudents, (s: Student) => s.id in selected)
  }

  /** The handler. Reading the body can throw (malformed JSON); so can
      indexing with an inherited key, and calling `includes` on a missing
      selection when the course has students. All three end in the 500. */
  function Post(body: Body, draw: nat -> bool): (r: Response)
    ensures body.Malformed? ==> r == ServerError(500, "Failed to send emails")
    ensures r.ServerError? ==> r == ServerError(500, "Failed to send emails")
    ensures r.Sent? ==> r.summary.attempted == |r.statuses|
    ensures r.Sent? ==> forall i :: 0 <= i < |r.statuses| ==>
      (r.statuses[i].status == "sent" && r.statuses[i].error == None)
      || (r.statuses[i].status == "failed" && r.statuses[i].error == Some(SmtpFailure))
    ensures body.Parsed? && !InheritedKey(body.request.courseId) && body.request.selectedStudents.Some? ==> r.Sent?
    ensures body.Parsed? && r.Sent? ==> |r.statuses| <= |CourseStudents(body.request.courseId)|
  {
    match body
    case Malformed => ServerError(500, "Failed to send emails")
    case Parsed(req) =>
      if InheritedKey(req.courseId) then ServerError(500, "Failed to send emails")
      else
        var course := CourseStudents(req.courseId);
        if req.selectedStudents.None? && |course| > 0 then ServerError(500, "Failed to send emails")
        else
          var chosen := if req.selectedStudents.Some? then Selected(course, req.selectedStudents.value) else [];
          var statuses := Attempts(chosen, draw, 0);
          Sent(statuses, Summary(|statuses|, Seqs.Count(statuses, IsSent), Seqs.Count(statuses, IsFailed)))
  }

  /** An unknown course answers with no statuses at all. */
  lemma UnknownCourseSendsNothing(req: SendRequest, draw: nat -> bool)
    requires !InheritedKey(req.courseId) && req.courseId != "2" && req.courseId != "3"
    ensures Post(Parsed(req), draw) == Sent([], Summary(0, 0, 0))
  {
    if req.selectedStudents.Some? {
      assert Selected([], req.selectedStudents.value) == [];
    }
  }

  /** The statuses are one per selected course student, in course order. */
  lemma PostFollowsCourseOrder(req: SendRequest, draw: nat -> bool)
    requires !InheritedKey(req.courseId) && req.selectedStudents.Some?
    ensures var r := Post(Parsed(req), draw);
            var chosen := Selected(CourseStudents(req.courseId), req.selectedStudents.value);
            && |r.statuses| == |chosen|
            && (forall i :: 0 <= i < |chosen| ==> r.statuses[i].studentId == chosen[i].id && r.statuses[i].email == chosen[i].email)
            && (forall st :: st in r.statuses ==> exists s :: s in CourseStudents(req.courseId) && s.id in req.selectedStudents.value && st.studentId == s.id)
  {
    var chosen := Selected(CourseStudents(req.courseId), req.selectedStudents.value);
    var r := Post(Parsed(req), draw);
    forall st | st in r.statuses
      ensures exists s :: s in CourseStudents(req.courseId) && s.id in req.selectedStudents.value && st.studentId == s.id
    {
      var i :| 0 <= i < |r.statuses| && r.statuses[i] == st;
      assert chosen[i] in chosen;
    }
  }

  /** Every attempt is counted once: sent + failed = attempted. */
  lemma SummaryAddsUp(body: Body, draw: nat -> bool)
    ensures var r := Post(body, draw);
            r.Sent? ==> r.summary.sent + r.summary.failed == r.summary.attempted
  {
    var r := Post(body, draw);
    if r.Sent? {
      var notSent := (s: EmailStatus) => !IsSent(s);
      Seqs.CountComplement(r.statuses, IsSent, notSent);
      Seqs.CountMonotone(r.statuses, IsFailed, notSent);
      Seqs.CountMonotone(r.statuses, notSent, IsFailed);
    }
  }
}

=== FILE: email_settings_page.dfy ===
/** The lecturer's e-mail settings page (app/lecturer/email/settings/page.tsx):
    loading the stored settings, saving them, and testing them. Toasts are
    modelled as the message the handler shows. */
module EmailSettingsPage {
  import opened Wrappers
  import Js
  import EmailPatterns
  import EmailSettingsRoute
  import EmailTestRoute

  datatype Settings = Settings(email: string, password: string, smtpServer: string, smtpPort: int)

  datatype PageState = PageState(settings: Settings, isLoading: bool, isSaving: bool, hasExistingSettings: bool)

  const Initial := PageState(Settings("", "", EmailSettingsRoute.DefaultServer, EmailSettingsRoute.DefaultPort), true, false, false)

  /** The `settings` object of the GET answer; its fields may be missing. */
  datatype Loaded = Loaded(email: Option<string>, smtpServer: Option<string>, smtpPort: Option<int>)

  /** A request: it threw (also on an unreadable body), or answered. */
  datatype Reply<T> = Thrown | Reply(ok: bool, payload: T)

  // ---------------------------------------------------------------------
  // Loading (lines 37-58)

  /** `loadEmailSettings`: present settings replace the form with an empty
      password and defaulted server and port, and mark settings as existing;
      anything else leaves the form. */
  function Load(p: PageState, reply: Reply<Option<Loaded>>): (q: PageState)
    ensures !q.isLoading && q.isSaving == p.isSaving
    ensures q.settings.password == "" || q.settings == p.settings
    ensures reply.Reply? && reply.ok && reply.payload.Some? ==>
      var l := reply.payload.value;
      q.settings == Settings(Js.OrStr(l.email, ""), "", Js.OrStr(l.smtpServer, EmailSettingsRoute.DefaultServer), Js.OrNum(l.smtpPort, EmailSettingsRoute.DefaultPort))
      && q.hasExistingSettings
    ensures !(reply.Reply? && reply.ok && reply.payload.Some?) ==> q == p.(isLoading := false)
  {
    if reply.Reply? && reply.ok && reply.payload.Some? then
      var l := reply.payload.value;
      p.(settings := Settings(Js.OrStr(l.email, ""), "", Js.OrStr(l.smtpServer, EmailSettingsRoute.DefaultServer), Js.OrNum(l.smtpPort, EmailSettingsRoute.DefaultPort)),
         hasExistingSettings := true, isLoading := false)
    else p.(isLoading := false)
  }

  // ---------------------------------------------------------------------
  // Saving (lines 60-114)

  const BothRequired := "Please enter both email address and password"
  const InvalidEmail := "Please enter a valid email address"
  const SaveFailed := "Failed to save email settings"
  const Saved := "Email settings saved securely!"

  /** The state after a handler, the body it sent (if any), and its toast. */
  datatype Outcome = Outcome(state: PageState, sent: Option<Settings>, toast: string)

  /** `handleSaveSettings`. The answer of a failed save carries an optional
      `error`. */
  function Save(p: PageState, reply: Reply<Option<string>>): (o: Outcome)
    ensures p.settings.email == "" || p.settings.password == "" ==> o == Outcome(p, None, BothRequired)
    ensures p.settings.email != "" && p.settings.password != "" && !EmailPatterns.AnchoredEmail(p.settings.email) ==>
      o == Outcome(p, None, InvalidEmail)
    ensures o.sent.Some? <==> p.settings.email != "" && p.settings.password != "" && EmailPatterns.AnchoredEmail(p.settings.email)
    ensures o.sent.Some? ==> o.sent.value == p.settings && !o.state.isSaving
    ensures o.sent.Some? && reply.Reply? && reply.ok ==>
      o.state == p.(hasExistingSettings := true, settings := p.settings.(password := ""), isSaving := false) && o.toast == Saved
    ensures o.sent.Some? && reply.Thrown? ==> o == Outcome(p.(isSaving := false), Some(p.settings), SaveFailed)
    ensures o.sent.Some? && reply.Reply? && !reply.ok ==> o == Outcome(p.(isSaving := false), Some(p.settings), Js.OrStr(reply.payload, SaveFailed))
  {
    if p.settings.email == "" || p.settings.password == "" then Outcome(p, None, BothRequired)
    else if !EmailPatterns.AnchoredEmail(p.settings.email) then Outcome(p, None, InvalidEmail)
    else match reply
      case Thrown => Outcome(p.(isSaving := false), Some(p.settings), SaveFailed)
      case Reply(ok, error) =>
        if ok then Outcome(p.(hasExistingSettings := true, settings := p.settings.(password := ""), isSaving := false), Some(p.settings), Saved)
        else Outcome(p.(isSaving := false), Some(p.settings), Js.OrStr(error, SaveFailed))
  }

  /** The body the page posts, as the settings route reads it. */
  function AsBody(s: Settings): EmailSettingsRoute.Body {
    EmailSettingsRoute.Parsed(Some(s.email), Some(s.password), Some(s.smtpServer), Some(s.smtpPort))
  }

  /** Saving and reloading: whatever the page sends passes the route's
      required-field check, and reloading afterwards shows the same e-mail,
      server and port with the password cleared (for a non-empty server and
      a non-zero port). */
  lemma SaveThenReload(p: PageState, store: EmailSettingsRoute.Store)
    requires Save(p, Reply(true, None)).sent.Some?
    requires p.settings.smtpServer != "" && p.settings.smtpPort != 0
    ensures var o := Save(p, Reply(true, None));
            var (store2, resp) := EmailSettingsRoute.Post(store, AsBody(o.sent.value));
            var get := EmailSettingsRoute.Get(store2);
            var l := Loaded(Some(get.settings.value.email), Some(get.settings.value.smtpServer), Some(get.settings.value.smtpPort));
            && resp.Saved? && get.settings.Some?
            && Load(o.state, Reply(true, Some(l))).settings == p.settings.(password := "")
  {
  }

  // ---------------------------------------------------------------------
  // Testing (lines 116-153)

  const MissingInformation := "Please enter email and password before testing"
  const ConnectionOk := "Email configuration is working correctly"

  /** `testEmailConnection`: the form is sent as it is when both the e-mail
      and the password are filled. */
  function Test(p: PageState, reply: Reply<Option<string>>): (o: Outcome)
    ensures o.state == p
    ensures o.sent.Some? <==> p.settings.email != "" && p.settings.password != ""
    ensures o.sent.None? ==> o.toast == MissingInformation
    ensures o.sent.Some? ==> o.sent.value == p.settings
    ensures o.sent.Some? && reply.Thrown? ==> o.toast == "Failed to test email connection"
    ensures o.sent.Some? && reply.Reply? && reply.ok ==> o.toast == ConnectionOk
    ensures o.sent.Some? && reply.Reply? && !reply.ok ==> o.toast == Js.OrStr(reply.payload, "Failed to connect with email settings")
  {
    if p.settings.email == "" || p.settings.password == "" then Outcome(p, None, MissingInformation)
    else match reply
      case Thrown => Outcome(p, Some(p.settings), "Failed to test email connection")
      case Reply(ok, error) =>
        if ok then Outcome(p, Some(p.settings), ConnectionOk)
        else Outcome(p, Some(p.settings), Js.OrStr(error, "Failed to connect with email settings"))
  }

  /** The test route's answer as the page receives it. */
  function TestReply(r: EmailTestRoute.Response): Reply<Option<string>> {
    match r
    case Ok(_) => Reply(true, None)
    case Failure(_, error) => Reply(false, Some(error))
  }

  /** Against the test route, a filled form is confirmed exactly when the
      e-mail has an '@' and the password six characters; otherwise the
      route's reason is shown. */
  lemma TestAgainstRoute(p: PageState)
    requires p.settings.email != "" && p.settings.password != ""
    ensures var r := EmailTestRoute.Post(EmailTestRoute.Parsed(Some(p.settings.email), Some(p.settings.password), Some(p.settings.smtpServer), Some(p.settings.smtpPort)));
            var o := Test(p, TestReply(r));
            && (o.toast == ConnectionOk <==> '@' in p.settings.email && |p.settings.password| >= 6)
            && ('@' !in p.settings.email ==> o.toast == "Invalid email address")
            && ('@' in p.settings.email && |p.settings.password| < 6 ==> o.toast == "Password too short")
  {
  }

  /** A form the save handler accepts always passes the test route. */
  lemma SavableIsTestable(p: PageState)
    requires Save(p, Thrown).sent.Some? && |p.settings.password| >= 6
    ensures EmailTestRoute.Post(EmailTestRoute.Parsed(Some(p.settings.email), Some(p.settings.password), None, None)).Ok?
  {
    EmailPatterns.AnchoredImpliesLoose(p.settings.email);
    EmailPatterns.AnchoredEmailShape(p.settings.email);
  }
}

=== FILE: email_settings_route.dfy ===
/** The mock settings store behind `/api/lecturer/email/settings`
    (app/api/lecturer/email/settings/route.ts): one stored record, read by
    GET without its password and replaced by POST. */
module EmailSettingsRoute {
  import opened Wrappers
  import Js

  const DefaultServer := "smtp.gmail.com"
  const DefaultPort := 587

  datatype Store = Store(lecturerId: string, email: string, password: string, smtpServer: string, smtpPort: int)

  const Initial := Store("1", "", "", DefaultServer, DefaultPort)

  /** What GET reveals of the store: no password. */
  datatype PublicSettings = PublicSettings(email: string, smtpServer: string, smtpPort: int)

  datatype GetResponse = GetResponse(settings: Option<PublicSettings>)

  /** GET: the settings, or null while no e-mail is stored. */
  function Get(st: Store): (r: GetResponse)
    ensures r.settings.None? <==> st.email == ""
    ensures r.settings.Some? ==> r.settings.value == PublicSettings(st.email, st.smtpServer, st.smtpPort)
  {
    GetResponse(if st.email != "" then Some(PublicSettings(st.email, st.smtpServer, st.smtpPort)) else None)
  }

  /** GET's answer does not depend on the stored password. */
  lemma GetHidesPassword(st: Store, other: string)
    ensures Get(st.(password := other)) == Get(st)
  {
  }

  /** The POST body; a field that is not there is None. */
  datatype Body = Malformed | Parsed(email: Option<string>, password: Option<string>, smtpServer: Option<string>, smtpPort: Option<int>)

  datatype PostResponse = Saved(message: string) | Failure(status: int, error: string)

  /** POST: the new store and the answer. */
  function Post(st: Store, body: Body): (r: (Store, PostResponse))
    ensures body.Malformed? ==> r == (st, Failure(500, "Failed to save email settings"))
    ensures body.Parsed? && (!Js.TruthyStr(body.email) || !Js.TruthyStr(body.password)) ==>
      r == (st, Failure(400, "Email and password are required"))
    ensures r.1.Saved? <==> body.Parsed? && Js.TruthyStr(body.email) && Js.TruthyStr(body.password)
    ensures r.1.Saved? ==> r.0 == Store("1", body.email.value, body.password.value,
                                         Js.OrStr(body.smtpServer, DefaultServer), Js.OrNum(body.smtpPort, DefaultPort))
    ensures r.1.Saved? ==> r.1.message == "Email settings saved securely!"
  {
    match body
    case Malformed => (st, Failure(500, "Failed to save email settings"))
    case Parsed(email, password, server, port) =>
      if !Js.TruthyStr(email) || !Js.TruthyStr(password) then (st, Failure(400, "Email and password are required"))
      else (Store("1", email.value, password.value, Js.OrStr(server, DefaultServer), Js.OrNum(port, DefaultPort)),
            Saved("Email settings saved securely!"))
  }

  /** A saved record reads back: GET answers the posted e-mail and the
      server and port with their defaults applied (a port of 0 becomes 587). */
  lemma PostThenGet(st: Store, email: string, password: string, server: Option<string>, port: Option<int>)
    requires email != "" && password != ""
    ensures var (st2, resp) := Post(st, Parsed(Some(email), Some(password), server, port));
            resp.Saved? && Get(st2).settings == Some(PublicSettings(email, Js.OrStr(server, DefaultServer), Js.OrNum(port, DefaultPort)))
    ensures Js.OrNum(Some(0), DefaultPort) == 587
  {
  }

  /** Before anything is saved, GET answers null. */
  lemma InitiallyEmpty()
    ensures Get(Initial).settings == None
  {
  }
}

=== FILE: email_test_route.dfy ===
/** The simulated connection test `POST /api/lecturer/email/test`
    (app/api/lecturer/email/test/route.ts): two checks on the credentials,
    the SMTP fields ignored. The one-second delay is left out. */
module EmailTestRoute {
  import opened Wrappers
  import Text

  /** The body; a missing field is None. */
  datatype Body = Malformed | Parsed(email: Option<string>, password: Option<string>, smtpServer: Option<string>, smtpPort: Option<int>)

  datatype Response = Ok(message: string) | Failure(status: int, error: string)

  const Crashed := Failure(500, "Failed to test email connection")

  /** An e-mail without '@' is refused first; then a password shorter than
      six; a missing field makes the check itself throw. */
  function Post(body: Body): (r: Response)
    ensures body.Malformed? || (body.Parsed? && body.email.None?) ==> r == Crashed
    ensures body.Parsed? && body.email.Some? && '@' !in body.email.value ==> r == Failure(400, "Invalid email address")
    ensures body.Parsed? && body.email.Some? && '@' in body.email.value && body.password.None? ==> r == Crashed
    ensures body.Parsed? && body.email.Some? && '@' in body.email.value && body.password.Some? && |body.password.value| < 6 ==>
      r == Failure(400, "Password too short")
    ensures r.Ok? <==> body.Parsed? && body.email.Some? && '@' in body.email.value && body.password.Some? && |body.password.value| >= 6
    ensures r.Ok? ==> r.message == "Email configuration is working correctly"
  {
    match body
    case Malformed => Crashed
    case Parsed(email, password, _, _) =>
      if email.None? then Crashed
      else
        ContainsAtChar(email.value);
        if !Text.Contains(email.value, "@") then Failure(400, "Invalid email address")
        else if password.None? then Crashed
        else if |password.value| < 6 then Failure(400, "Password too short")
        else Ok("Email configuration is working correctly")
  }

  /** `includes("@")` is membership of the character. */
  lemma ContainsAtChar(s: string)
    ensures Text.Contains(s, "@") <==> '@' in s
  {
    Text.ContainsAt(s, "@");
    if '@' in s {
      var i :| 0 <= i < |s| && s[i] == '@';
      assert Text.OccursAt(s, "@", i) by { assert s[i..i + 1] == "@"; }
    }
    if Text.Contains(s, "@") {
      var i :| Text.OccursAt(s, "@", i);
      assert s[i] == s[i..i + 1][0];
    }
  }

  /** The answer does not depend on the SMTP server or port. */
  lemma SmtpFieldsIgnored(email: Option<string>, password: Option<string>, s1: Option<string>, p1: Option<int>, s2: Option<string>, p2: Option<int>)
    ensures Post(Parsed(email, password, s1, p1)) == Post(Parsed(email, password, s2, p2))
  {
  }
}

=== FILE: facial_attendance.dfy ===
/** The lecturer's facial-recognition attendance page
    (app/lecturer/attendance/facial/page.tsx) as a state machine.

    Every React state update made by one handler is folded into one atomic
    step: a step function maps the page state before the handler to the page
    state after it. Camera access, frame capture and the two recognition
    endpoints are inputs: `cameraGranted`, an optional captured frame and the
    parsed replies. */
module FacialAttendance {
  import opened Wrappers
  import Js
  import Seqs

  datatype Course = Course(id: string, courseCode: string, courseName: string, session: string, department: string, level: int)

  /** An enrolled student; `kind` is the JSON field `type`. */
  datatype Student = Student(id: string, studentId: string, name: string, department: string, level: int, kind: string)

  datatype Stats = Stats(totalStudents: nat, regularStudents: nat, carryoverStudents: nat)

  datatype AttendanceData = AttendanceData(course: Course, enrolledStudents: seq<Student>, stats: Stats)

  datatype AttendanceRecord = AttendanceRecord(studentId: string, studentName: string, timeRecorded: string, confidence: real)

  /** The page's state hooks; `stream` says whether a camera stream is held. */
  datatype Page = Page(
    data: Option<AttendanceData>,
    active: bool,
    records: seq<AttendanceRecord>,
    startTime: Option<string>,
    duration: nat,
    loading: bool,
    cameraError: string,
    stream: bool,
    processing: bool,
    lastDetection: string,
    strength: real)

  /** The state on first render. */
  const Initial := Page(None, false, [], None, 0, true, "", false, false, "", 0.0)

  const CameraDenied := "Camera access denied. Please grant camera permissions and refresh the page."
  const AlreadyRecorded := " (Already recorded)"
  const Scanning := "Scanning for faces..."
  const SessionComplete := "Session complete. Attendance captured."

  /** The student ids of a log, in log order. */
  function Ids(rs: seq<AttendanceRecord>): (ids: seq<string>)
    ensures |ids| == |rs|
    ensures forall i :: 0 <= i < |rs| ==> ids[i] == rs[i].studentId
  {
    seq(|rs|, i requires 0 <= i < |rs| => rs[i].studentId)
  }

  /** No student appears twice in the log. */
  predicate DistinctIds(rs: seq<AttendanceRecord>) {
    Seqs.NoDuplicates(Ids(rs))
  }

  lemma IdsSnoc(rs: seq<AttendanceRecord>, r: AttendanceRecord)
    ensures Ids(rs + [r]) == Ids(rs) + [r.studentId]
  {
  }

  // ---------------------------------------------------------------------
  // Loading the roster (lines 93-151)

  /** The body of `GET /courses/{id}/students`: an array, or something else. */
  datatype StudentsPayload = StudentList(students: seq<Student>) | NotAList

  /** The roster request: it threw, or it answered with a status and a body. */
  datatype StudentsReply = StudentsThrown | StudentsReply(ok: bool, payload: StudentsPayload)

  predicate IsRegular(s: Student) { s.kind == "Regular" }
  predicate IsCarryover(s: Student) { s.kind == "Carryover" }

  /** The roster counts computed when the roster arrives. */
  function RosterStats(students: seq<Student>): (st: Stats)
    ensures st.totalStudents == |students|
    ensures st.regularStudents + st.carryoverStudents <= st.totalStudents
  {
    Seqs.CountComplement(students, IsRegular, s => !IsRegular(s));
    Seqs.CountMonotone(students, IsCarryover, s => !IsRegular(s));
    Stats(|students|, Seqs.Count(students, IsRegular), Seqs.Count(students, IsCarryover))
  }

  /** When every student is either Regular or Carryover, the two counts add up
      to the roster size. */
  lemma RosterStatsPartition(students: seq<Student>)
    requires forall i :: 0 <= i < |students| ==> IsRegular(students[i]) || IsCarryover(students[i])
    ensures RosterStats(students).regularStudents + RosterStats(students).carryoverStudents == |students|
  {
    var onlyTwo := (s: Student) => s.kind == "Regular" || s.kind == "Carryover";
    var rest := (s: Student) => !(s.kind == "Regular" || s.kind == "Carryover");
    Seqs.CountThreeWay(students, IsRegular, IsCarryover, rest);
    Seqs.CountComplement(students, onlyTwo, rest);
    Seqs.FilterAll(students, onlyTwo);
  }

  /** The mount effect with the `course` query parameter `courseId`. */
  function Load(p: Page, courseId: string, reply: StudentsReply): (q: Page)
    ensures !q.loading
    ensures q.records == p.records && q.active == p.active && q.stream == p.stream
    ensures q.data != p.data ==>
      && courseId != "" && reply.StudentsReply? && reply.ok
      && q.data.Some? && q.data.value.course.id == courseId
    ensures courseId != "" && reply.StudentsReply? && reply.ok && reply.payload.StudentList? ==>
      q.data.Some? && q.data.value.enrolledStudents == reply.payload.students
      && q.data.value.stats.totalStudents == |reply.payload.students|
  {
    if courseId == "" then p.(loading := false)
    else match reply
      case StudentsThrown => p.(loading := false)
      case StudentsReply(ok, payload) =>
        if !ok then p.(loading := false)
        else
          var students := if payload.StudentList? then payload.students else [];
          var course := Course(courseId, "", "", "", "", 0);
          p.(data := Some(AttendanceData(course, students, RosterStats(students))), loading := false)
  }

  // ---------------------------------------------------------------------
  // Camera (lines 153-185)

  /** `stopCamera`: releases a held stream; with none it does nothing. */
  function StopCamera(p: Page): (q: Page)
    ensures !q.stream
    ensures !p.stream ==> q == p
    ensures q.(stream := p.stream) == p
  {
    if p.stream then p.(stream := false) else p
  }

  /** `startCamera`: clears the error, then holds a stream or reports denial. */
  function StartCamera(p: Page, cameraGranted: bool): (q: Page)
    ensures q.stream == (cameraGranted || p.stream)
    ensures q.cameraError == if cameraGranted then "" else CameraDenied
    ensures q.(stream := p.stream, cameraError := p.cameraError) == p
  {
    if cameraGranted then p.(cameraError := "", stream := true)
    else p.(cameraError := CameraDenied)
  }

  // ---------------------------------------------------------------------
  // Per-frame recognition (lines 203-259)

  datatype RecognizedStudent = RecognizedStudent(studentId: string, name: string)

  /** The parsed body of `POST /api/lecturer/attendance/recognize`. */
  datatype Recognition = Recognition(recognized: bool, student: Option<RecognizedStudent>, confidence: real)

  /** The recognition request: it threw (network or JSON error), or it answered. */
  datatype RecognizeReply = RecognizeThrown | RecognizeReply(ok: bool, result: Recognition)

  /** One invocation of `processFacialRecognition`: the captured frame (absent
      when the video or canvas is missing), the endpoint's reply and the clock
      reading used as the record's time. */
  datatype Frame = Frame(image: Option<string>, reply: RecognizeReply, now: string)

  /** The handler runs only with a camera stream and loaded course data. */
  predicate Live(p: Page) {
    p.stream && p.data.Some?
  }

  /** The frame was captured and the endpoint answered OK with a recognized
      student. */
  predicate Sighting(f: Frame) {
    && Js.TruthyStr(f.image)
    && f.reply.RecognizeReply? && f.reply.ok
    && f.reply.result.recognized && f.reply.result.student.Some?
  }

  function SightedStudent(f: Frame): RecognizedStudent
    requires Sighting(f)
  {
    f.reply.result.student.value
  }

  /** A sighting of a student the log does not hold yet. */
  predicate NewSighting(rs: seq<AttendanceRecord>, f: Frame) {
    Sighting(f) && SightedStudent(f).studentId !in Ids(rs)
  }

  /** The record a sighting would add. */
  function SightingRecord(f: Frame): AttendanceRecord
    requires Sighting(f)
  {
    AttendanceRecord(SightedStudent(f).studentId, SightedStudent(f).name, f.now, f.reply.result.confidence)
  }

  /** `processFacialRecognition`: check-then-append of one recognized student. */
  function ProcessResult(p: Page, f: Frame): (q: Page)
    // without a stream or course data the handler returns before any update
    ensures !Live(p) ==> q == p
    ensures Live(p) ==> !q.processing
    // only the log, the detection text, the strength and the flag change
    ensures q.(records := p.records, lastDetection := p.lastDetection, strength := p.strength, processing := p.processing) == p
    // the log is append-only, by at most one record
    ensures |p.records| <= |q.records| <= |p.records| + 1
    ensures q.records[..|p.records|] == p.records
    // a record is added exactly for a sighting of a student not yet logged
    ensures |q.records| > |p.records| <==> Live(p) && NewSighting(p.records, f)
    ensures |q.records| > |p.records| ==>
      && q.records[|p.records|] == SightingRecord(f)
      && q.lastDetection == SightedStudent(f).name
      && q.strength == f.reply.result.confidence * 100.0
    ensures Live(p) && Sighting(f) && SightedStudent(f).studentId in Ids(p.records) ==>
      && q.records == p.records
      && q.lastDetection == SightedStudent(f).name + AlreadyRecorded
      && q.strength == f.reply.result.confidence * 100.0
    // an answer without a recognized student resets the detection display
    ensures Live(p) && Js.TruthyStr(f.image) && f.reply.RecognizeReply? && f.reply.ok && !Sighting(f) ==>
      q == p.(processing := false, lastDetection := Scanning, strength := 0.0)
    // no frame, a failed request or an error status change nothing but the flag
    ensures Live(p) && !(Js.TruthyStr(f.image) && f.reply.RecognizeReply? && f.reply.ok) ==>
      q == p.(processing := false)
    ensures DistinctIds(p.records) ==> DistinctIds(q.records)
  {
    if !Live(p) then p
    else
      var done := p.(processing := false);
      if !(Js.TruthyStr(f.image) && f.reply.RecognizeReply? && f.reply.ok) then done
      else if !Sighting(f) then done.(lastDetection := Scanning, strength := 0.0)
      else
        var st := SightedStudent(f);
        var seen := done.(strength := f.reply.result.confidence * 100.0);
        if st.studentId in Ids(p.records) then
          seen.(lastDetection := st.name + AlreadyRecorded)
        else
          IdsSnoc(p.records, SightingRecord(f));
          assert (p.records + [SightingRecord(f)])[..|p.records|] == p.records;
          seen.(records := p.records + [SightingRecord(f)], lastDetection := st.name)
  }

  /** The page after a sequence of `processFacialRecognition` calls. */
  function Run(p: Page, fs: seq<Frame>): Page
    decreases |fs|
  {
    if |fs| == 0 then p else Run(ProcessResult(p, fs[0]), fs[1..])
  }

  lemma {:induction false} RunConcat(p: Page, a: seq<Frame>, b: seq<Frame>)
    ensures Run(p, a + b) == Run(Run(p, a), b)
    decreases |a|
  {
    if |a| > 0 {
      assert (a + b)[0] == a[0] && (a + b)[1..] == a[1..] + b;
      RunConcat(ProcessResult(p, a[0]), a[1..], b);
    } else {
      assert a + b == b;
    }
  }

  /** Over any sequence of frames the old log stays a prefix of the new one,
      pairwise distinct student ids stay distinct, and the stream and course
      data are untouched. */
  lemma {:induction false} RunAppendOnly(p: Page, fs: seq<Frame>)
    ensures |p.records| <= |Run(p, fs).records|
    ensures Run(p, fs).records[..|p.records|] == p.records
    ensures DistinctIds(p.records) ==> DistinctIds(Run(p, fs).records)
    ensures Run(p, fs).stream == p.stream && Run(p, fs).data == p.data
    decreases |fs|
  {
    if |fs| > 0 {
      var q := ProcessResult(p, fs[0]);
      RunAppendOnly(q, fs[1..]);
      var r := Run(q, fs[1..]).records;
      assert r[..|p.records|] == r[..|q.records|][..|p.records|];
    }
  }

  /** Every student sighted while the camera runs with course data loaded
      ends up in the log. */
  lemma {:induction false} RunLogsSightings(p: Page, fs: seq<Frame>)
    requires Live(p)
    ensures forall k :: 0 <= k < |fs| && Sighting(fs[k]) ==> SightedStudent(fs[k]).studentId in Ids(Run(p, fs).records)
    decreases |fs|
  {
    if |fs| > 0 {
      var q := ProcessResult(p, fs[0]);
      RunLogsSightings(q, fs[1..]);
      RunAppendOnly(q, fs[1..]);
      var r := Run(q, fs[1..]).records;
      forall k | 0 <= k < |fs| && Sighting(fs[k])
        ensures SightedStudent(fs[k]).studentId in Ids(r)
      {
        if k == 0 {
          var id := SightedStudent(fs[0]).studentId;
          assert id in Ids(q.records);
          var i :| 0 <= i < |q.records| && Ids(q.records)[i] == id;
          assert r[..|q.records|][i] == q.records[i];
          assert Ids(r)[i] == id;
        } else {
          assert fs[k] == fs[1..][k - 1];
        }
      }
    }
  }

  /** A student the log does not hold and the frames do not sight stays out
      of the log. */
  lemma {:induction false} RunUnsightedAbsent(p: Page, fs: seq<Frame>, id: string)
    requires id !in Ids(p.records)
    requires forall k :: 0 <= k < |fs| && Sighting(fs[k]) ==> SightedStudent(fs[k]).studentId != id
    ensures id !in Ids(Run(p, fs).records)
    decreases |fs|
  {
    if |fs| > 0 {
      var q := ProcessResult(p, fs[0]);
      if |q.records| > |p.records| {
        assert q.records == p.records + [SightingRecord(fs[0])];
        IdsSnoc(p.records, SightingRecord(fs[0]));
      }
      assert forall k :: 0 <= k < |fs| - 1 ==> fs[1..][k] == fs[k + 1];
      RunUnsightedAbsent(q, fs[1..], id);
    }
  }

  /** A new sighting is logged and stays logged whatever follows. */
  lemma SightingThenRun(m: Page, f: Frame, rest: seq<Frame>)
    requires Live(m) && NewSighting(m.records, f)
    ensures SightingRecord(f) in Run(m, [f] + rest).records
  {
    var n := ProcessResult(m, f);
    assert ([f] + rest)[0] == f && ([f] + rest)[1..] == rest;
    assert Run(m, [f] + rest) == Run(n, rest);
    assert n.records[|m.records|] == SightingRecord(f);
    RunAppendOnly(n, rest);
    var r := Run(n, rest).records;
    assert r[..|n.records|][|m.records|] == SightingRecord(f);
  }

  /** A student's record carries the time, name and confidence of the first
      frame that sighted them. */
  lemma FirstSightingRecorded(p: Page, before: seq<Frame>, f: Frame, after: seq<Frame>)
    requires Live(p) && Sighting(f)
    requires SightedStudent(f).studentId !in Ids(p.records)
    requires forall j :: 0 <= j < |before| && Sighting(before[j]) ==> SightedStudent(before[j]).studentId != SightedStudent(f).studentId
    ensures SightingRecord(f) in Run(p, before + [f] + after).records
  {
    assert before + [f] + after == before + ([f] + after);
    RunConcat(p, before, [f] + after);
    RunUnsightedAbsent(p, before, SightedStudent(f).studentId);
    RunAppendOnly(p, before);
    SightingThenRun(Run(p, before), f, after);
  }

  // ---------------------------------------------------------------------
  // One-shot backend capture (lines 261-320)

  /** One element of the capture endpoint's `results`. */
  datatype BackendResult = BackendResult(recognized: bool, studentId: Option<string>, name: string, timestamp: string, distance: Option<real>)

  /** `POST /recognition/lecturer-capture-attendance`: it threw, or it
      answered with a status and the (possibly absent) `results` field. */
  datatype CaptureReply = CaptureThrown | CaptureReply(ok: bool, results: Option<seq<BackendResult>>)

  /** The filter of line 289: recognized and a truthy student id. */
  predicate Captured(b: BackendResult) {
    b.recognized && Js.TruthyStr(b.studentId)
  }

  /** `r.distance ? 1 - r.distance : 1`. */
  function Confidence(distance: Option<real>): (c: real)
    ensures distance.Some? && distance.value != 0.0 ==> c + distance.value == 1.0
    ensures distance.None? || distance.value == 0.0 ==> c == 1.0
  {
    if distance.Some? && distance.value != 0.0 then 1.0 - distance.value else 1.0
  }

  function CaptureRecord(b: BackendResult): AttendanceRecord
    requires Captured(b)
  {
    AttendanceRecord(b.studentId.value, b.name, b.timestamp, Confidence(b.distance))
  }

  /** The filter-then-map of lines 288-295, in backend order. */
  function CaptureRecords(results: seq<BackendResult>): (rs: seq<AttendanceRecord>)
    ensures forall r :: r in rs ==> exists b :: b in results && Captured(b) && r == CaptureRecord(b)
    decreases |results|
  {
    if |results| == 0 then []
    else
      var rest := CaptureRecords(results[1..]);
      var head := if Captured(results[0]) then [CaptureRecord(results[0])] else [];
      assert forall b | b in results[1..] :: b in results;
      head + rest
  }

  /** One record per captured result: no captured result is dropped. */
  lemma {:induction false} CaptureRecordsCount(results: seq<BackendResult>)
    ensures |CaptureRecords(results)| == Seqs.Count(results, Captured)
    decreases |results|
  {
    if |results| > 0 {
      CaptureRecordsCount(results[1..]);
      assert Seqs.Filter(results, Captured) == (if Captured(results[0]) then [results[0]] else []) + Seqs.Filter(results[1..], Captured);
    }
  }

  lemma CaptureRecordsCons(a: seq<BackendResult>)
    requires |a| > 0
    ensures CaptureRecords(a) == (if Captured(a[0]) then [CaptureRecord(a[0])] else []) + CaptureRecords(a[1..])
  {
  }

  /** Capturing a concatenation captures each part in turn, so records keep
      the backend's order. */
  lemma {:induction false} CaptureRecordsConcat(a: seq<BackendResult>, b: seq<BackendResult>)
    ensures CaptureRecords(a + b) == CaptureRecords(a) + CaptureRecords(b)
    decreases |a|
  {
    if |a| > 0 {
      var ab := a + b;
      assert ab[0] == a[0] && ab[1..] == a[1..] + b;
      CaptureRecordsConcat(a[1..], b);
      CaptureRecordsCons(ab);
      CaptureRecordsCons(a);
    } else {
      assert a + b == b;
    }
  }

  /** The capture path does not de-duplicate: a student reported twice is
      logged twice. */
  lemma CaptureKeepsDuplicates(b: BackendResult)
    requires Captured(b)
    ensures CaptureRecords([b, b]) == [CaptureRecord(b), CaptureRecord(b)]
    ensures !DistinctIds(CaptureRecords([b, b]))
  {
    assert [b, b][1..] == [b];
    assert [b][1..] == [];
    CaptureRecordsCons([b, b]);
    CaptureRecordsCons([b]);
    assert Ids(CaptureRecords([b, b]))[0] == Ids(CaptureRecords([b, b]))[1];
  }

  /** The log a capture reply produces, when it produces one. */
  function CapturedLog(reply: CaptureReply): Option<seq<AttendanceRecord>> {
    if reply.CaptureReply? && reply.ok then Some(CaptureRecords(reply.results.GetOr([])))
    else None
  }

  /** The first half of `startAttendanceSession`, up to the awaited capture
      request: the session is active and processing, the log and detection
      text are cleared, and the camera is started. While this state lasts the
      page shows Stop in place of Start and disables Reset. */
  function BeginSession(p: Page, now: string, cameraGranted: bool): (m: Page)
    ensures m.active && m.processing && m.records == [] && m.lastDetection == "" && m.startTime == Some(now)
    ensures m.stream == (cameraGranted || p.stream)
    ensures m.cameraError == if cameraGranted then "" else CameraDenied
    ensures m.data == p.data && m.duration == p.duration && m.strength == p.strength && m.loading == p.loading
  {
    StartCamera(p.(active := true, startTime := Some(now), records := [], processing := true, lastDetection := ""), cameraGranted)
  }

  /** The second half, when the capture answers: an OK answer replaces the
      log with the captured records, and the `finally` block ends the session.
      Its values are those of the render that was clicked: the course data,
      and the `stopCamera` whose guard sees the stream held at the click.
      Nothing here looks at whether the session was stopped meanwhile. */
  function AnswerSession(m: Page, clicked: Page, reply: CaptureReply): (q: Page)
    ensures !q.active && !q.processing
    ensures q.stream <==> m.stream && !clicked.stream
    ensures clicked.data.Some? && CapturedLog(reply).Some? ==>
      q.records == CapturedLog(reply).value && q.lastDetection == SessionComplete
    ensures clicked.data.None? || CapturedLog(reply).None? ==> q.records == m.records && q.lastDetection == m.lastDetection
    ensures q.(active := m.active, processing := m.processing, stream := m.stream, records := m.records, lastDetection := m.lastDetection) == m
  {
    var captured :=
      if clicked.data.Some? && CapturedLog(reply).Some? then
        m.(records := CapturedLog(reply).value, lastDetection := SessionComplete)
      else m;
    var finished := captured.(processing := false, active := false);
    if clicked.stream then StopCamera(finished) else finished
  }

  /** `startAttendanceSession`: clear the log, start the camera, ask the
      backend for a one-shot capture, and always end inactive. Without course
      data the request is never built (the non-null assertion throws into the
      same catch block). The `finally` block calls the `stopCamera` of the
      render that started the session, whose guard sees the stream held at
      that moment, not the one just started: with no stream held at the
      click, the new stream is kept; with one held, the stream state is
      cleared. */
  function StartSession(p: Page, now: string, cameraGranted: bool, reply: CaptureReply): (q: Page)
    ensures !q.active && !q.processing
    ensures q.stream <==> !p.stream && cameraGranted
    ensures q.startTime == Some(now)
    ensures q.cameraError == if cameraGranted then "" else CameraDenied
    ensures p.data.None? || CapturedLog(reply).None? ==> q.records == [] && q.lastDetection == ""
    ensures p.data.Some? && CapturedLog(reply).Some? ==>
      q.records == CapturedLog(reply).value && q.lastDetection == SessionComplete
    ensures q.data == p.data && q.duration == p.duration && q.strength == p.strength && q.loading == p.loading
  {
    AnswerSession(BeginSession(p, now, cameraGranted), p, reply)
  }

  // ---------------------------------------------------------------------
  // Stop, reset and the displayed rate (lines 322-341, 636)

  /** `stopAttendanceSession`: ends the session and releases the camera; the
      log is kept. */
  function Stop(p: Page): (q: Page)
    ensures !q.active && !q.processing && !q.stream
    ensures q.records == p.records && q.lastDetection == p.lastDetection && q.strength == p.strength
    ensures q.(active := p.active, processing := p.processing, stream := p.stream) == p
  {
    StopCamera(p.(active := false, processing := false))
  }

  /** `resetSession`: clears the log, duration, detection text and strength. */
  function Reset(p: Page): (q: Page)
    ensures q.records == [] && q.duration == 0 && q.lastDetection == "" && q.strength == 0.0
    ensures q.(records := p.records, duration := p.duration, lastDetection := p.lastDetection, strength := p.strength) == p
  {
    p.(records := [], duration := 0, lastDetection := "", strength := 0.0)
  }

  /** The Reset button, which is disabled while a session is active. */
  function ResetButton(p: Page): (q: Page)
    ensures p.active ==> q == p
    ensures !p.active ==> q == Reset(p)
  {
    if p.active then p else Reset(p)
  }

  /** The Stop button, which is rendered only while a session is active (in
      its place the page shows Start). */
  function StopButton(p: Page): (q: Page)
    ensures p.active ==> q == Stop(p)
    ensures !p.active ==> q == p
  {
    if p.active then Stop(p) else p
  }

  /** A displayed percentage: a real number, or JavaScript's Infinity/NaN. */
  datatype Rate = Finite(value: real) | NonFinite

  /** `attendanceRate`: 0 without course data; a division by the roster size
      otherwise, which is not finite for an empty roster. */
  function AttendanceRate(p: Page): (r: Rate)
    ensures p.data.None? ==> r == Finite(0.0)
    ensures p.data.Some? ==> (r.Finite? <==> p.data.value.stats.totalStudents > 0)
    ensures r.Finite? ==> r.value >= 0.0
    ensures r.Finite? && p.data.Some? ==> r.value * p.data.value.stats.totalStudents as real == |p.records| as real * 100.0
  {
    if p.data.None? then Finite(0.0)
    else
      var total := p.data.value.stats.totalStudents;
      if total == 0 then NonFinite
      else Finite(|p.records| as real * 100.0 / total as real)
  }

  /** The student ids of a roster. */
  function RosterIds(students: seq<Student>): (ids: seq<string>)
    ensures |ids| == |students|
    ensures forall i :: 0 <= i < |students| ==> ids[i] == students[i].studentId
  {
    seq(|students|, i requires 0 <= i < |students| => students[i].studentId)
  }

  /** A distinct-id log of roster students never shows more than 100%. */
  lemma RateAtMostFull(p: Page)
    requires p.data.Some? && p.data.value.stats.totalStudents == |p.data.value.enrolledStudents|
    requires DistinctIds(p.records)
    requires forall i :: 0 <= i < |p.records| ==> p.records[i].studentId in RosterIds(p.data.value.enrolledStudents)
    ensures AttendanceRate(p).Finite? ==> AttendanceRate(p).value <= 100.0
  {
    var ids := Ids(p.records);
    var roster := RosterIds(p.data.value.enrolledStudents);
    Seqs.DistinctSubsetLength(ids, roster);
    var total := p.data.value.stats.totalStudents;
    if total > 0 {
      assert |p.records| <= total;
      assert (|p.records| as real) * 100.0 <= total as real * 100.0;
    }
  }

  // ---------------------------------------------------------------------
  // The batch session end to end

  /** A successful capture logs exactly the recognized results, one record
      each and in the backend's order, whatever the log held before. */
  lemma SessionLogsCapture(p: Page, now: string, cameraGranted: bool, results: seq<BackendResult>)
    requires p.data.Some?
    ensures var q := StartSession(p, now, cameraGranted, CaptureReply(true, Some(results)));
            && q.records == CaptureRecords(results)
            && |q.records| == Seqs.Count(results, Captured)
  {
    CaptureRecordsCount(results);
  }

  /** A first session with the camera granted ends with the camera still on.
      No control on the page releases it then: Stop is no longer offered and
      Reset leaves the camera alone; only the stale stop at the end of the
      next session does. */
  lemma FirstSessionLeavesCameraOn(p: Page, now: string, reply: CaptureReply, later: string, granted: bool, next: CaptureReply)
    requires !p.stream
    ensures var q := StartSession(p, now, true, reply);
            && q.stream
            && StopButton(q) == q
            && ResetButton(q).stream
            && !StartSession(q, later, granted, next).stream
  {
  }

  /** Once a session has ended the Stop control is gone, the Reset button is
      enabled and empties the log; during a session, Stop keeps the log and
      Reset does nothing. */
  lemma SessionStopReset(p: Page, now: string, cameraGranted: bool, reply: CaptureReply)
    ensures var q := StartSession(p, now, cameraGranted, reply);
            && StopButton(q) == q
            && ResetButton(q) == Reset(q)
            && ResetButton(q).records == []
    ensures p.active ==> StopButton(p).records == p.records && !StopButton(p).active && ResetButton(p) == p
  {
  }

  /** Stop, the only control offered while the capture is awaited, does not
      cancel it: the camera is released at once, but when the answer arrives
      it still replaces the log with the captured records, exactly as without
      the click, and the session ends inactive with the camera off. */
  lemma StopDuringCapture(p: Page, now: string, cameraGranted: bool, reply: CaptureReply)
    ensures var m := BeginSession(p, now, cameraGranted);
            && StopButton(m) == Stop(m) && !StopButton(m).stream
            && ResetButton(m) == m
            && AnswerSession(StopButton(m), p, reply).records == AnswerSession(m, p, reply).records
            && AnswerSession(StopButton(m), p, reply).lastDetection == AnswerSession(m, p, reply).lastDetection
            && !AnswerSession(StopButton(m), p, reply).active && !AnswerSession(StopButton(m), p, reply).stream
  {
  }

  /** In particular a stopped session with course data and an OK answer logs
      exactly the captured records and reports the session complete. */
  lemma StoppedSessionLogsCapture(p: Page, now: string, cameraGranted: bool, results: seq<BackendResult>)
    requires p.data.Some?
    ensures var q := AnswerSession(StopButton(BeginSession(p, now, cameraGranted)), p, CaptureReply(true, Some(results)));
            && q.records == CaptureRecords(results)
            && q.lastDetection == SessionComplete
  {
  }

  /** Stopping twice is stopping once, and a reset after a stop keeps the
      session stopped. */
  lemma StopResetIdempotent(p: Page)
    ensures Stop(Stop(p)) == Stop(p)
    ensures Reset(Reset(p)) == Reset(p)
    ensures !Reset(Stop(p)).active && !Reset(Stop(p)).stream
  {
  }

  /** Loading a non-empty roster makes the displayed rate a finite
      percentage of the log, which loading leaves as it was. */
  lemma LoadedRateFinite(p: Page, courseId: string, students: seq<Student>)
    requires courseId != "" && |students| > 0
    ensures var q := Load(p, courseId, StudentsReply(true, StudentList(students)));
            && q.records == p.records
            && AttendanceRate(q).Finite?
  {
    var q := Load(p, courseId, StudentsReply(true, StudentList(students)));
    assert q.data.Some? && q.data.value.stats.totalStudents == |students|;
  }
}

=== FILE: js.dfy ===
/** The little of JavaScript's value semantics the pages rely on: which values
    are truthy, what `a || b` returns, and what `String(v)` prints. */
module Js {
  import opened Wrappers
  import Text

  /** A JSON scalar as a page receives it from a backend: a field may be
      absent, `null`, a string or a number. Numbers are integral here; `NaN`
      and fractions are not modelled. */
  datatype Scalar = Undefined | Null | Str(s: string) | Num(n: int)

  /** JavaScript truthiness of a scalar: the empty string, 0, `null` and
      `undefined` are falsy. */
  predicate Truthy(v: Scalar) {
    match v
    case Str(s) => s != ""
    case Num(n) => n != 0
    case _ => false
  }

  /** Truthiness of an optional string field. */
  predicate TruthyStr(o: Option<string>) {
    o.Some? && o.value != ""
  }

  /** Truthiness of an optional numeric field. */
  predicate TruthyNum(o: Option<int>) {
    o.Some? && o.value != 0
  }

  /** `a || b` on scalars: the first operand when it is truthy, else the second. */
  function Or(a: Scalar, b: Scalar): (r: Scalar)
    ensures Truthy(r) <==> Truthy(a) || Truthy(b)
    ensures r == a || r == b
  {
    if Truthy(a) then a else b
  }

  /** `a || b` where the fallback `b` is a plain string. */
  function OrStr(a: Option<string>, b: string): (r: string)
    ensures TruthyStr(a) ==> r == a.value
    ensures !TruthyStr(a) ==> r == b
  {
    if TruthyStr(a) then a.value else b
  }

  /** `a || b` where both operands are optional strings. */
  function OrOpt(a: Option<string>, b: Option<string>): (r: Option<string>)
    ensures TruthyStr(r) <==> TruthyStr(a) || TruthyStr(b)
  {
    if TruthyStr(a) then a else b
  }

  /** `a || b` on optional numbers with a numeric fallback. */
  function OrNum(a: Option<int>, b: int): (r: int)
    ensures TruthyNum(a) ==> r == a.value
    ensures !TruthyNum(a) ==> r == b
  {
    if TruthyNum(a) then a.value else b
  }

  /** `String(v)`: JavaScript's conversion of a scalar to a string. */
  function ToStr(v: Scalar): (r: string)
    ensures v.Str? ==> r == v.s
    ensures v.Num? && v.n >= 0 ==> Text.AllDigits(r) && Text.ParseNat(r) == v.n
  {
    match v
    case Undefined => "undefined"
    case Null => "null"
    case Str(s) => s
    case Num(n) => (Text.NatToStringRoundTrip(if n < 0 then -n else n); Text.IntToString(n))
  }
}

=== FILE: lecturer_list.dfy ===
/** The faculty directory (components/admin/lecturer-list.tsx): how backend
    lecturer records become view records, which of them are safe to show,
    and the search, department and course-assignment filters. */
module LecturerList {
  import opened Wrappers
  import Js
  import Text
  import Seqs

  datatype RawCourse = RawCourse(courseCode: Option<string>, code: Option<string>, name: Option<string>, session: Option<string>, semester: Option<string>)

  /** A course as the directory shows it; `id` is absent when code, course
      code and name are all falsy. */
  datatype Course = Course(id: Option<string>, name: string, code: string, semester: string)

  /** A backend lecturer record; `courses` is None when it is not an array. */
  datatype RawLecturer = RawLecturer(
    id: Js.Scalar, name: Option<string>, fullName: Option<string>, username: Option<string>,
    department: Option<string>, email: Option<string>, courses: Option<seq<RawCourse>>)

  datatype Lecturer = Lecturer(
    id: string, lecturerId: string, fullName: string, department: string, email: string,
    assignedCourses: seq<Course>, username: Option<string>)

  /** The lecturers endpoint answers either a bare array or an object whose
      `lecturers` field may be missing. */
  datatype Payload = Listed(all: seq<RawLecturer>) | Wrapped(lecturers: Option<seq<RawLecturer>>)

  datatype Reply = Thrown | Reply(ok: bool, payload: Payload)

  // ---------------------------------------------------------------------
  // Mapping (lines 62-76)

  function MapCourse(c: RawCourse): (r: Course)
    ensures r.id == Js.OrOpt(c.courseCode, Js.OrOpt(c.code, c.name))
    ensures r.code == Js.OrStr(c.courseCode, Js.OrStr(c.code, ""))
    ensures r.name == Js.OrStr(c.name, "")
    ensures r.semester == Js.OrStr(c.session, Js.OrStr(c.semester, ""))
    ensures r.code != "" ==> r.id == Some(r.code)
  {
    Course(Js.OrOpt(c.courseCode, Js.OrOpt(c.code, c.name)), Js.OrStr(c.name, ""),
           Js.OrStr(c.courseCode, Js.OrStr(c.code, "")), Js.OrStr(c.session, Js.OrStr(c.semester, "")))
  }

  function MapCourses(cs: Option<seq<RawCourse>>): (r: seq<Course>)
    ensures cs.None? ==> r == []
    ensures cs.Some? ==> |r| == |cs.value| && forall i :: 0 <= i < |r| ==> r[i] == MapCourse(cs.value[i])
  {
    if cs.None? then [] else seq(|cs.value|, i requires 0 <= i < |cs.value| => MapCourse(cs.value[i]))
  }

  function MapLecturer(l: RawLecturer): (r: Lecturer)
    ensures r.id == r.lecturerId == Js.ToStr(l.id)
    ensures r.fullName == Js.OrStr(l.name, Js.OrStr(l.fullName, Js.OrStr(l.username, "")))
    ensures r.department == Js.OrStr(l.department, "Unknown") && r.department != ""
    ensures r.email == Js.OrStr(l.email, "")
    ensures r.assignedCourses == MapCourses(l.courses) && r.username.None?
  {
    Lecturer(Js.ToStr(l.id), Js.ToStr(l.id), Js.OrStr(l.name, Js.OrStr(l.fullName, Js.OrStr(l.username, ""))),
             Js.OrStr(l.department, "Unknown"), Js.OrStr(l.email, ""), MapCourses(l.courses), None)
  }

  function MapLecturers(ls: seq<RawLecturer>): (r: seq<Lecturer>)
    ensures |r| == |ls|
    ensures forall i :: 0 <= i < |r| ==> r[i] == MapLecturer(ls[i])
  {
    seq(|ls|, i requires 0 <= i < |ls| => MapLecturer(ls[i]))
  }

  /** `fetchLecturers`: a failed or thrown request leaves the list empty. */
  function Fetched(reply: Reply): (r: seq<Lecturer>)
    ensures reply.Thrown? || !reply.ok ==> r == []
    ensures reply.Reply? && reply.ok && reply.payload.Listed? ==> r == MapLecturers(reply.payload.all)
    ensures reply.Reply? && reply.ok && reply.payload.Wrapped? ==> r == MapLecturers(reply.payload.lecturers.GetOr([]))
  {
    if reply.Thrown? || !reply.ok then []
    else match reply.payload
      case Listed(all) => MapLecturers(all)
      case Wrapped(lecturers) => MapLecturers(lecturers.GetOr([]))
  }

  // ---------------------------------------------------------------------
  // Safe lecturers (lines 93-103)

  predicate IsSafe(l: Lecturer) {
    (l.fullName != "" || Js.TruthyStr(l.username)) && l.email != "" && l.lecturerId != ""
  }

  function Completed(l: Lecturer): (r: Lecturer)
    requires IsSafe(l)
    ensures IsSafe(r) && r.fullName != ""
    ensures r.fullName == (if l.fullName != "" then l.fullName else l.username.value)
    ensures r.(fullName := l.fullName) == l
  {
    l.(fullName := if l.fullName != "" then l.fullName else Js.OrStr(l.username, ""))
  }

  /** The lecturers with a name (or username), an e-mail and an id, each with
      its name filled in, in their original order. */
  function SafeLecturers(ls: seq<Lecturer>): (r: seq<Lecturer>)
    ensures |r| <= |ls|
    ensures forall i :: 0 <= i < |r| ==> IsSafe(r[i]) && r[i].fullName != ""
    ensures forall l :: l in ls && IsSafe(l) ==> Completed(l) in r
    ensures forall x :: x in r ==> exists l :: l in ls && IsSafe(l) && x == Completed(l)
  {
    if |ls| == 0 then []
    else
      var rest := SafeLecturers(ls[1..]);
      assert forall l :: l in ls ==> l == ls[0] || l in ls[1..];
      if IsSafe(ls[0]) then [Completed(ls[0])] + rest else rest
  }

  /** Sanitizing twice changes nothing: every safe lecturer already has its
      name. */
  lemma {:induction false} SafeLecturersIdempotent(ls: seq<Lecturer>)
    ensures SafeLecturers(SafeLecturers(ls)) == SafeLecturers(ls)
  {
    if |ls| > 0 {
      SafeLecturersIdempotent(ls[1..]);
      var r := SafeLecturers(ls);
      if IsSafe(ls[0]) {
        assert r[0] == Completed(ls[0]) && r[1..] == SafeLecturers(ls[1..]);
      }
    }
  }

  /** For a mapped lecturer, safety means: some name field is non-empty, the
      e-mail is non-empty, and `String(id)` is non-empty. An absent id prints
      as "undefined" and so still passes. */
  lemma MappedSafety(l: RawLecturer)
    ensures IsSafe(MapLecturer(l)) <==>
      (Js.TruthyStr(l.name) || Js.TruthyStr(l.fullName) || Js.TruthyStr(l.username))
      && Js.TruthyStr(l.email) && Js.ToStr(l.id) != ""
    ensures l.id == Js.Undefined ==> MapLecturer(l).lecturerId == "undefined"
  {
  }

  // ---------------------------------------------------------------------
  // Filters (lines 105-121)

  function DepartmentColumn(ls: seq<Lecturer>): (ds: seq<string>)
    ensures |ds| == |ls|
    ensures forall i :: 0 <= i < |ls| ==> ds[i] == ls[i].department
  {
    seq(|ls|, i requires 0 <= i < |ls| => ls[i].department)
  }

  /** The department drop-down: each department once. */
  function Departments(ls: seq<Lecturer>): (r: seq<string>)
    ensures Seqs.NoDuplicates(r) && |r| <= |ls|
    ensures forall d :: d in r <==> exists i :: 0 <= i < |ls| && ls[i].department == d
  {
    var ds := DepartmentColumn(ls);
    assert forall i :: 0 <= i < |ls| ==> ds[i] in ds;
    Seqs.Distinct(ds)
  }

  predicate MatchesSearch(l: Lecturer, term: string) {
    var t := Text.ToLower(term);
    Text.Contains(Text.ToLower(l.fullName), t) || Text.Contains(Text.ToLower(l.email), t) || Text.Contains(Text.ToLower(l.lecturerId), t)
  }

  predicate HasCourses(l: Lecturer) { |l.assignedCourses| > 0 }
  predicate NoCourses(l: Lecturer) { |l.assignedCourses| == 0 }

  predicate Shown(l: Lecturer, term: string, department: string, course: string) {
    && MatchesSearch(l, term)
    && (department == "all" || l.department == department)
    && (course == "all" || (course == "with-courses" && HasCourses(l)) || (course == "no-courses" && NoCourses(l)))
  }

  function Filtered(ls: seq<Lecturer>, term: string, department: string, course: string): (r: seq<Lecturer>)
    ensures forall l :: l in r <==> l in ls && Shown(l, term, department, course)
    ensures Seqs.Subsequence(r, ls)
  {
    Seqs.Filter(ls, (l: Lecturer) => Shown(l, term, department, course))
  }

  /** The initial filters show every lecturer. */
  lemma DefaultFiltersShowAll(ls: seq<Lecturer>)
    ensures Filtered(ls, "", "all", "all") == ls
  {
    forall i | 0 <= i < |ls| ensures Shown(ls[i], "", "all", "all") {
      Text.ContainsEmpty(Text.ToLower(ls[i].fullName));
    }
    Seqs.FilterAll(ls, (l: Lecturer) => Shown(l, "", "all", "all"));
  }

  /** "with-courses" and "no-courses" split the "all" view between them. */
  lemma CourseViewsPartition(ls: seq<Lecturer>, term: string, department: string)
    ensures |Filtered(ls, term, department, "with-courses")| + |Filtered(ls, term, department, "no-courses")|
            == |Filtered(ls, term, department, "all")|
  {
    var all := (l: Lecturer) => Shown(l, term, department, "all");
    Seqs.FilterFilter(ls, all, HasCourses, (l: Lecturer) => Shown(l, term, department, "with-courses"));
    Seqs.FilterFilter(ls, all, NoCourses, (l: Lecturer) => Shown(l, term, department, "no-courses"));
    Seqs.CountComplement(Seqs.Filter(ls, all), HasCourses, NoCourses);
  }

  /** The course-count badge of line 258. */
  function CourseNoun(n: nat): (w: string)
    ensures w == "Course" <==> n == 1
    ensures w == "Course" || w == "Courses"
  {
    if n == 1 then "Course" else "Courses"
  }
}

=== FILE: lecturer_login.dfy ===
/** The mock lecturer sign-in handler `POST /api/lecturer/login`
    (app/api/lecturer/login/route.ts): the first listed lecturer with exactly
    that e-mail and password signs in, and is returned without the
    password. */
module LecturerLogin {
  import opened Wrappers

  datatype Course = Course(id: int, name: string, code: string)

  datatype MockLecturer = MockLecturer(id: int, email: string, password: string, name: string, courses: seq<Course>)

  /** The lecturer as returned: every field but the password. */
  datatype LecturerData = LecturerData(id: int, email: string, name: string, courses: seq<Course>)

  const Lecturers := [
    MockLecturer(1, "chowesleymungo@gmail.com", "password123", "Dr Sop",
                 [Course(1, "Introduction to ML/AI", "ENG301"), Course(2, "Internship Activity", "CEF500")])
  ]

  /** The body; a field that is missing or not a string is None (strict
      equality never holds for it). */
  datatype Body = Malformed | Parsed(email: Option<string>, password: Option<string>)

  datatype Response = Success(lecturer: LecturerData, message: string) | Failure(status: int, error: string)

  predicate Matches(l: MockLecturer, email: Option<string>, password: Option<string>) {
    email == Some(l.email) && password == Some(l.password)
  }

  /** `mockLecturers.find(...)`: the first match. */
  function Find(ls: seq<MockLecturer>, email: Option<string>, password: Option<string>): (r: Option<MockLecturer>)
    ensures r.None? <==> forall i :: 0 <= i < |ls| ==> !Matches(ls[i], email, password)
    ensures r.Some? ==> exists i :: 0 <= i < |ls| && ls[i] == r.value && Matches(ls[i], email, password)
                                    && forall k :: 0 <= k < i ==> !Matches(ls[k], email, password)
  {
    if |ls| == 0 then None
    else if Matches(ls[0], email, password) then Some(ls[0])
    else
      var r := Find(ls[1..], email, password);
      assert forall i :: 1 <= i < |ls| ==> ls[1..][i - 1] == ls[i];
      if r.Some? then
        var j :| 0 <= j < |ls[1..]| && ls[1..][j] == r.value && Matches(ls[1..][j], email, password)
                 && forall k :: 0 <= k < j ==> !Matches(ls[1..][k], email, password);
        assert ls[j + 1] == r.value;
        r
      else r
  }

  /** `const { password: _, ...lecturerData } = lecturer`. */
  function WithoutPassword(l: MockLecturer): (d: LecturerData)
    ensures d.id == l.id && d.email == l.email && d.name == l.name && d.courses == l.courses
  {
    LecturerData(l.id, l.email, l.name, l.courses)
  }

  function PostTo(ls: seq<MockLecturer>, body: Body): (r: Response)
    ensures body.Malformed? ==> r == Failure(500, "Internal server error")
    ensures body.Parsed? ==> (r.Success? <==> exists i :: 0 <= i < |ls| && Matches(ls[i], body.email, body.password))
    ensures body.Parsed? && r.Failure? ==> r == Failure(401, "Invalid credentials")
    ensures r.Success? ==> r.message == "Login successful" && r.lecturer == WithoutPassword(Find(ls, body.email, body.password).value)
  {
    match body
    case Malformed => Failure(500, "Internal server error")
    case Parsed(email, password) =>
      var l := Find(ls, email, password);
      if l.Some? then Success(WithoutPassword(l.value), "Login successful") else Failure(401, "Invalid credentials")
  }

  /** The handler over its fixed list. */
  function Post(body: Body): Response {
    PostTo(Lecturers, body)
  }

  /** The listed lecturer signs in and gets back its name and both courses,
      and no field of the answer holds the password. */
  lemma DrSopSignsIn()
    ensures var r := Post(Parsed(Some("chowesleymungo@gmail.com"), Some("password123")));
            r.Success? && r.lecturer.name == "Dr Sop" && |r.lecturer.courses| == 2
  {
    assert Matches(Lecturers[0], Some("chowesleymungo@gmail.com"), Some("password123"));
  }

  /** A wrong password is refused even with the right e-mail. */
  lemma WrongPasswordRefused(password: string)
    requires password != "password123"
    ensures Post(Parsed(Some("chowesleymungo@gmail.com"), Some(password))) == Failure(401, "Invalid credentials")
  {
  }
}

=== FILE: protected_route.dfy ===
/** The route guard (components/auth/protected-route.tsx): a spinner while
    the session loads, then either the children or a redirect. */
module ProtectedRoute {
  import opened Wrappers
  import Auth

  datatype View = Spinner | Nothing | Children

  /** What one render shows and where its effect navigates, if anywhere. */
  datatype Decision = Decision(view: View, redirect: Option<string>)

  /** `allowedRoles.includes(user.role)`; a missing role is never included. */
  predicate RoleAllowed(user: Auth.User, allowedRoles: seq<string>) {
    user.role.Some? && user.role.value in allowedRoles
  }

  /** `allowedRoles.length > 0 && user && !allowedRoles.includes(user.role)`. */
  predicate RoleRefused(st: Auth.AuthState, allowedRoles: seq<string>) {
    |allowedRoles| > 0 && st.user.Some? && !RoleAllowed(st.user.value, allowedRoles)
  }

  /** One render and its effect; `redirectTo` None is the default "/login". */
  function Guard(st: Auth.AuthState, allowedRoles: seq<string>, redirectTo: Option<string>): (d: Decision)
    ensures st.isLoading <==> d.view == Spinner
    ensures st.isLoading ==> d.redirect == None
    ensures !st.isLoading && !Auth.IsAuthenticated(st) ==> d == Decision(Nothing, Some(redirectTo.GetOr("/login")))
    ensures !st.isLoading && Auth.IsAuthenticated(st) && RoleRefused(st, allowedRoles) ==> d == Decision(Nothing, Some("/unauthorized"))
    ensures d.view == Children <==>
      !st.isLoading && Auth.IsAuthenticated(st) && (|allowedRoles| == 0 || RoleAllowed(st.user.value, allowedRoles))
    ensures d.view == Children <==> d.redirect == None && !st.isLoading
  {
    if st.isLoading then Decision(Spinner, None)
    else if !Auth.IsAuthenticated(st) then Decision(Nothing, Some(redirectTo.GetOr("/login")))
    else if RoleRefused(st, allowedRoles) then Decision(Nothing, Some("/unauthorized"))
    else Decision(Children, None)
  }

  /** Without a role list every signed-in user sees the children. */
  lemma NoRolesAdmitsAll(st: Auth.AuthState, redirectTo: Option<string>)
    requires !st.isLoading && Auth.IsAuthenticated(st)
    ensures Guard(st, [], redirectTo) == Decision(Children, None)
  {
  }

  /** After a logout the guard sends the visitor to the sign-in page. */
  lemma LogoutRedirects(st: Auth.AuthState, storage: Auth.Storage, allowedRoles: seq<string>, redirectTo: Option<string>)
    requires !st.isLoading
    ensures Guard(Auth.Logout(st, storage).0, allowedRoles, redirectTo).redirect == Some(redirectTo.GetOr("/login"))
  {
  }
}

=== FILE: registration.dfy ===
/** What the two student-registration forms share
    (components/admin/live-camera-registration.tsx and
    components/admin/image-upload-registration.tsx): the five text fields,
    the order of the submit checks, JavaScript's `Number()` test of the
    level, and the reading of the backend's answer. */
module Registration {
  import opened Wrappers
  import Js
  import Text

  datatype Field = UserId | FullName | Department | Email | Level

  datatype FormData = FormData(userId: string, fullName: string, department: string, email: string, level: string) {
    function Get(f: Field): string {
      match f
      case UserId => userId
      case FullName => fullName
      case Department => department
      case Email => email
      case Level => level
    }

    /** `handleInputChange`: one field takes the new value. */
    function Set(f: Field, v: string): (d: FormData)
      ensures d.Get(f) == v
      ensures forall g :: g != f ==> d.Get(g) == Get(g)
    {
      match f
      case UserId => this.(userId := v)
      case FullName => this.(fullName := v)
      case Department => this.(department := v)
      case Email => this.(email := v)
      case Level => this.(level := v)
    }
  }

  const Empty := FormData("", "", "", "", "")

  // ---------------------------------------------------------------------
  // `Number(s)` is not NaN (section 7.1.4.1.1 of ECMA-262, StringToNumber)

  /** The length of the run of decimal digits `s` starts with. */
  function LeadingDigits(s: string): (n: nat)
    ensures n <= |s| && Text.AllDigits(s[..n])
    ensures n == |s| || !Text.IsDigit(s[n])
  {
    if |s| == 0 || !Text.IsDigit(s[0]) then 0
    else
      var n := 1 + LeadingDigits(s[1..]);
      assert s[..n] == [s[0]] + s[1..][..n - 1];
      n
  }

  /** `e` or `E`, an optional sign, and at least one digit. */
  predicate ExponentPart(e: string) {
    |e| >= 2 && (e[0] == 'e' || e[0] == 'E') &&
    var f := if e[1] == '+' || e[1] == '-' then e[2..] else e[1..];
    |f| > 0 && Text.AllDigits(f)
  }

  predicate OptionalExponent(e: string) {
    e == "" || ExponentPart(e)
  }

  /** StrUnsignedDecimalLiteral: "Infinity", or digits with an optional
      fraction and exponent, at least one digit before or after the point. */
  predicate UnsignedDecimal(u: string) {
    u == "Infinity" ||
    var a := LeadingDigits(u);
    var rest := u[a..];
    if |rest| > 0 && rest[0] == '.' then
      var frac := rest[1..];
      var b := LeadingDigits(frac);
      (a > 0 || b > 0) && OptionalExponent(frac[b..])
    else a > 0 && OptionalExponent(rest)
  }

  /** StrDecimalLiteral: an optional sign, then an unsigned literal. */
  predicate DecimalLiteral(t: string) {
    var u := if |t| > 0 && (t[0] == '+' || t[0] == '-') then t[1..] else t;
    UnsignedDecimal(u)
  }

  predicate HexDigit(c: char) {
    Text.IsDigit(c) || 'a' <= c <= 'f' || 'A' <= c <= 'F'
  }

  /** `0b…`, `0o…` or `0x…` with at least one digit of that base, unsigned. */
  predicate NonDecimalInteger(t: string) {
    |t| >= 3 && t[0] == '0' &&
    ((t[1] in "bB" && forall k :: 2 <= k < |t| ==> t[k] in "01")
     || (t[1] in "oO" && forall k :: 2 <= k < |t| ==> '0' <= t[k] <= '7')
     || (t[1] in "xX" && forall k :: 2 <= k < |t| ==> HexDigit(t[k])))
  }

  /** `!isNaN(Number(s))`: after trimming white space the text is empty (0),
      a decimal literal or a prefixed integer literal. */
  predicate IsNumeric(s: string) {
    var t := Text.Trim(s);
    t == "" || DecimalLiteral(t) || NonDecimalInteger(t)
  }

  /** Lower-case Latin letters only, as in a word typed by mistake. */
  predicate LowerWord(w: string) {
    forall k :: 0 <= k < |w| ==> 'a' <= w[k] <= 'z'
  }

  /** Any fraction `digits.digits` passes the "integer" test. */
  lemma FractionAccepted(a: string, b: string)
    requires |a| > 0 && Text.AllDigits(a) && |b| > 0 && Text.AllDigits(b)
    ensures IsNumeric(a + "." + b)
  {
    FractionLiteral(a, b);
    DigitFirstNumeric(a + "." + b);
  }

  lemma FractionLiteral(a: string, b: string)
    requires |a| > 0 && Text.AllDigits(a) && |b| > 0 && Text.AllDigits(b)
    ensures UnsignedDecimal(a + "." + b)
  {
    var s := a + "." + b;
    assert s == a + ("." + b);
    LeadingDigitsStop(a, "." + b);
    var rest := s[|a|..];
    assert rest == "." + b && rest[1..] == b;
    DigitsRun(b);
    assert b[|b|..] == "";
  }

  /** So does any exponent form `digits e digits`. */
  lemma ExponentAccepted(a: string, e: string)
    requires |a| > 0 && Text.AllDigits(a) && |e| > 0 && Text.AllDigits(e)
    ensures IsNumeric(a + "e" + e)
  {
    ExponentLiteral(a, e);
    DigitFirstNumeric(a + "e" + e);
  }

  lemma ExponentLiteral(a: string, e: string)
    requires |a| > 0 && Text.AllDigits(a) && |e| > 0 && Text.AllDigits(e)
    ensures UnsignedDecimal(a + "e" + e)
  {
    var s := a + "e" + e;
    assert s == a + ("e" + e);
    LeadingDigitsStop(a, "e" + e);
    var rest := s[|a|..];
    assert rest == "e" + e && rest[1..] == e;
    assert ExponentPart(rest);
  }

  /** An unsigned literal that starts and ends with a digit is numeric: it
      trims to itself and carries no sign. */
  lemma DigitFirstNumeric(s: string)
    requires |s| > 0 && Text.IsDigit(s[0]) && Text.IsDigit(s[|s| - 1]) && UnsignedDecimal(s)
    ensures IsNumeric(s)
  {
    TrimPlain(s);
    assert DecimalLiteral(s);
  }

  /** Digits followed by a letter fail. */
  lemma TrailingLetterRejected(a: string, c: char)
    requires |a| > 0 && Text.AllDigits(a) && 'a' <= c <= 'z'
    ensures !IsNumeric(a + [c])
  {
    var s := a + [c];
    TrimPlain(s);
    LeadingDigitsStop(a, [c]);
    assert s[|a|..] == [c];
  }

  /** A word fails. */
  lemma WordRejected(w: string)
    requires |w| > 0 && LowerWord(w)
    ensures !IsNumeric(w)
  {
    TrimPlain(w);
    assert w != "Infinity" by { assert w[0] != 'I'; }
    assert LeadingDigits(w) == 0;
    assert w[0..] == w;
  }

  /** The digit run of `a + rest` is `a` when `rest` does not go on with a
      digit. */
  lemma {:induction false} LeadingDigitsStop(a: string, rest: string)
    requires Text.AllDigits(a) && (|rest| == 0 || !Text.IsDigit(rest[0]))
    ensures LeadingDigits(a + rest) == |a|
    decreases |a|
  {
    if |a| > 0 {
      assert (a + rest)[1..] == a[1..] + rest;
      LeadingDigitsStop(a[1..], rest);
    } else {
      assert a + rest == rest;
    }
  }

  /** A non-empty run of digits is numeric. */
  lemma DigitsNumeric(s: string)
    requires |s| > 0 && Text.AllDigits(s)
    ensures IsNumeric(s)
  {
    TrimPlain(s);
    assert LeadingDigits(s) == |s| by {
      DigitsRun(s);
    }
  }

  /** Text starting and ending with a non-space character trims to itself. */
  lemma TrimPlain(s: string)
    requires |s| > 0 && !Text.IsSpace(s[0]) && !Text.IsSpace(s[|s| - 1])
    ensures Text.Trim(s) == s
  {
  }

  lemma {:induction false} DigitsRun(s: string)
    requires Text.AllDigits(s)
    ensures LeadingDigits(s) == |s|
  {
    if |s| > 0 {
      DigitsRun(s[1..]);
    }
  }

  // ---------------------------------------------------------------------
  // Submitting

  /** `!userId || !fullName || !department || !email || !level`. */
  predicate AllFilled(d: FormData) {
    d.userId != "" && d.fullName != "" && d.department != "" && d.email != "" && d.level != ""
  }

  const AllRequired := "All fields are required"
  const LevelInteger := "Level must be an integer"
  const Failed := "Registration failed. Please try again."

  /** The checks before the request, in order: filled fields, a numeric level,
      then at least `needed` images; the first failure's message. */
  function Check(d: FormData, images: nat, needed: nat, tooFew: string): (r: Option<string>)
    ensures !AllFilled(d) ==> r == Some(AllRequired)
    ensures AllFilled(d) && !IsNumeric(d.level) ==> r == Some(LevelInteger)
    ensures AllFilled(d) && IsNumeric(d.level) && images < needed ==> r == Some(tooFew)
    ensures r == None <==> AllFilled(d) && IsNumeric(d.level) && images >= needed
  {
    if !AllFilled(d) then Some(AllRequired)
    else if !IsNumeric(d.level) then Some(LevelInteger)
    else if images < needed then Some(tooFew)
    else None
  }

  /** The registration request: it threw (also while building the request),
      or it answered with an ok flag and its body as text. */
  datatype Reply = Thrown | Reply(ok: bool, text: string)

  /** The error shown after a failed request: the body's text, else the
      generic message. */
  function FailureMessage(reply: Reply): (m: string)
    requires !(reply.Reply? && reply.ok)
    ensures m != ""
    ensures reply.Thrown? ==> m == Failed
    ensures reply.Reply? ==> m == (if reply.text != "" then reply.text else Failed)
  {
    if reply.Thrown? then Failed else Js.OrStr(Some(reply.text), Failed)
  }

  /** A blank level is filled and numeric (`Number("   ")` is 0), so it passes
      both checks. */
  lemma BlankLevelPasses(d: FormData)
    requires AllFilled(d.(level := "x")) && d.level == "   "
    ensures Check(d, 10, 10, "") == None
  {
    assert Text.AllSpace(d.level);
    Text.BlankIffAllSpace(d.level);
    assert IsNumeric(d.level);
    assert AllFilled(d);
  }
}

=== FILE: reports.dfy ===
/** The lecturer's attendance report page (app/lecturer/reports/page.tsx):
    the 75/50 attendance bands, the summary counts per band, and the name of
    the exported spreadsheet. */
module Reports {
  import opened Wrappers
  import Text
  import Seqs

  /** The three attendance bands. */
  datatype Band = Good | Average | Poor

  /** `getAttendanceColor`'s thresholds: 75 and above is good, 50 and above
      average, anything lower poor. */
  function BandOf(percentage: real): (b: Band)
    ensures b == Good <==> percentage >= 75.0
    ensures b == Average <==> 50.0 <= percentage < 75.0
    ensures b == Poor <==> percentage < 50.0
  {
    if percentage >= 75.0 then Good else if percentage >= 50.0 then Average else Poor
  }

  /** The badge classes for a percentage. */
  function Color(percentage: real): (c: string)
    ensures BandOf(percentage) == Good ==> c == "text-green-600 bg-green-100 dark:bg-green-900"
    ensures BandOf(percentage) == Average ==> c == "text-yellow-600 bg-yellow-100 dark:bg-yellow-900"
    ensures BandOf(percentage) == Poor ==> c == "text-red-600 bg-red-100 dark:bg-red-900"
  {
    if percentage >= 75.0 then "text-green-600 bg-green-100 dark:bg-green-900"
    else if percentage >= 50.0 then "text-yellow-600 bg-yellow-100 dark:bg-yellow-900"
    else "text-red-600 bg-red-100 dark:bg-red-900"
  }

  datatype Course = Course(id: string, courseCode: string, courseName: string, session: string, department: string, level: int)

  datatype AttendanceRecord = AttendanceRecord(studentId: string, name: string, attendanceByDate: map<string, string>, presentCount: int, attendancePercentage: real)

  datatype ReportData = ReportData(course: Course, totalSessions: int, sessionDates: seq<string>, attendanceRecords: seq<AttendanceRecord>)

  // ---------------------------------------------------------------------
  // Summary counts (lines 409-427)

  predicate IsGood(r: AttendanceRecord) { r.attendancePercentage >= 75.0 }
  predicate IsAverage(r: AttendanceRecord) { r.attendancePercentage >= 50.0 && r.attendancePercentage < 75.0 }
  predicate IsPoor(r: AttendanceRecord) { r.attendancePercentage < 50.0 }

  datatype Summary = Summary(good: nat, average: nat, poor: nat)

  /** The three summary cards: each counts the records whose percentage lies
      in its band, and together they count every record. */
  function Summarize(records: seq<AttendanceRecord>): (s: Summary)
    ensures s.good == |Seqs.Filter(records, IsGood)|
    ensures s.average == |Seqs.Filter(records, IsAverage)|
    ensures s.poor == |Seqs.Filter(records, IsPoor)|
    ensures s.good + s.average + s.poor == |records|
  {
    Seqs.CountThreeWay(records, IsGood, IsAverage, IsPoor);
    Summary(Seqs.Count(records, IsGood), Seqs.Count(records, IsAverage), Seqs.Count(records, IsPoor))
  }

  /** Each summary column counts exactly the records whose badge shows that
      column's band. */
  lemma SummaryAgreesWithBands(records: seq<AttendanceRecord>)
    ensures forall r :: r in Seqs.Filter(records, IsGood) <==> r in records && BandOf(r.attendancePercentage) == Good
    ensures forall r :: r in Seqs.Filter(records, IsAverage) <==> r in records && BandOf(r.attendancePercentage) == Average
    ensures forall r :: r in Seqs.Filter(records, IsPoor) <==> r in records && BandOf(r.attendancePercentage) == Poor
  {
  }

  // ---------------------------------------------------------------------
  // Export file name (lines 104-130)

  predicate NotSeparator(c: char) { c != ':' && c != '-' }

  /** `iso.slice(0, 19).replace(/[:-]/g, "").replace("T", "_")`. */
  function Stamp(iso: string): (r: string)
    ensures |r| <= 19
    ensures ':' !in r && '-' !in r
  {
    Text.ReplaceFirst(Text.KeepChars(Text.Prefix(iso, 19), NotSeparator), 'T', '_')
  }

  /** `attendance_report_<code>_<stamp>.xlsx`. */
  function ExportName(courseCode: string, iso: string): (name: string)
    ensures Text.IsPrefix("attendance_report_", name)
    ensures |name| == 18 + |courseCode| + 1 + |Stamp(iso)| + 5
  {
    "attendance_report_" + courseCode + "_" + Stamp(iso) + ".xlsx"
  }

  /** The download started by `exportToExcel`: none without a report or when
      the export request fails. */
  function Export(report: Option<ReportData>, exportOk: bool, iso: string): (name: Option<string>)
    ensures report.None? || !exportOk ==> name.None?
    ensures report.Some? && exportOk ==> name == Some(ExportName(report.value.course.courseCode, iso))
  {
    if report.None? || !exportOk then None else Some(ExportName(report.value.course.courseCode, iso))
  }

  /** The fields of `Date.prototype.toISOString()` up to the seconds; the
      text continues with the milliseconds and the zone. */
  datatype IsoTime = IsoTime(year: string, month: string, day: string, hour: string, minute: string, second: string)
  {
    predicate WellFormed() {
      && |year| == 4 && |month| == 2 && |day| == 2 && |hour| == 2 && |minute| == 2 && |second| == 2
      && Text.AllDigits(year) && Text.AllDigits(month) && Text.AllDigits(day)
      && Text.AllDigits(hour) && Text.AllDigits(minute) && Text.AllDigits(second)
    }

    function Date(): string { year + month + day }
    function Time(): string { hour + minute + second }

    /** `YYYY-MM-DDTHH:MM:SS`. */
    function Render(): string {
      year + "-" + month + "-" + day + "T" + hour + ":" + minute + ":" + second
    }
  }

  /** For any ISO timestamp the stamp is `YYYYMMDD_HHMMSS`: the fourteen
      digits in order with an underscore between date and time, whatever
      follows the seconds. */
  lemma StampOfIso(t: IsoTime, rest: string)
    requires t.WellFormed()
    ensures Stamp(t.Render() + rest) == t.Date() + "_" + t.Time()
    ensures |Stamp(t.Render() + rest)| == 15
  {
    PrefixOfRender(t, rest);
    KeepRender(t);
    DigitsConcat(t.year, t.month, t.day);
    ReplaceT(t.Date(), t.Time());
  }
  /** A downloaded report of an ISO time is named
      `attendance_report_<code>_YYYYMMDD_HHMMSS.xlsx`. */
  lemma ExportOfIso(report: ReportData, t: IsoTime, rest: string)
    requires t.WellFormed()
    ensures Export(Some(report), true, t.Render() + rest)
      == Some("attendance_report_" + report.course.courseCode + "_" + (t.Date() + "_" + t.Time()) + ".xlsx")
  {
    StampOfIso(t, rest);
  }


  /** The first 19 characters are the rendered fields. */
  lemma PrefixOfRender(t: IsoTime, rest: string)
    requires t.WellFormed()
    ensures Text.Prefix(t.Render() + rest, 19) == t.Render()
  {
    assert |t.Render()| == 19;
    assert (t.Render() + rest)[..19] == t.Render();
  }

  lemma DigitsConcat(a: string, b: string, c: string)
    requires Text.AllDigits(a) && Text.AllDigits(b) && Text.AllDigits(c)
    ensures Text.AllDigits(a + b + c)
  {
    var s := a + b + c;
    assert forall k :: 0 <= k < |s| ==> (k < |a| && s[k] == a[k]) || (|a| <= k < |a| + |b| && s[k] == b[k - |a|]) || (|a| + |b| <= k && s[k] == c[k - |a| - |b|]);
  }

  /** Only the `T` after the date becomes `_`. */
  lemma ReplaceT(date: string, time: string)
    requires Text.AllDigits(date)
    ensures Text.ReplaceFirst(date + "T" + time, 'T', '_') == date + "_" + time
  {
    var kept := date + "T" + time;
    assert 'T' !in date;
    Text.IndexOfAt(kept, 'T', |date|);
    assert kept[..|date|] == date && kept[|date| + 1..] == time;
  }

  /** Removing the separators from `YYYY-MM-DDTHH:MM:SS` leaves the digits and
      the `T`. */
  lemma KeepRender(t: IsoTime)
    requires t.WellFormed()
    ensures Text.KeepChars(t.Render(), NotSeparator) == t.Date() + "T" + t.Time()
  {
    KeepAll(t.year);
    KeepAll(t.month);
    KeepAll(t.day);
    KeepAll(t.hour);
    KeepAll(t.minute);
    KeepAll(t.second);
    var date := t.year + t.month + t.day;
    var time := t.hour + t.minute + t.second;
    KeepPiecesSep(t.year, '-', t.month, '-', t.day);
    KeepPiecesSep(t.hour, ':', t.minute, ':', t.second);
    assert date == t.year + t.month + t.day;
    var a := t.year + "-" + t.month + "-" + t.day;
    var c := t.hour + ":" + t.minute + ":" + t.second;
    assert t.Render() == a + "T" + c;
    KeepAroundT(a, c);
  }

  /** The `T` between date and time is kept. */
  lemma KeepAroundT(a: string, c: string)
    ensures Text.KeepChars(a + "T" + c, NotSeparator) == Text.KeepChars(a, NotSeparator) + "T" + Text.KeepChars(c, NotSeparator)
  {
    Text.KeepCharsSingle('T', NotSeparator);
    Text.KeepCharsConcat(a, "T", NotSeparator);
    Text.KeepCharsConcat(a + "T", c, NotSeparator);
  }

  /** `x ∘ sep ∘ y ∘ sep' ∘ z` with two separators and separator-free parts
      keeps `x ∘ y ∘ z`. */
  lemma KeepPiecesSep(x: string, c1: char, y: string, c2: char, z: string)
    requires !NotSeparator(c1) && !NotSeparator(c2)
    requires Text.KeepChars(x, NotSeparator) == x && Text.KeepChars(y, NotSeparator) == y && Text.KeepChars(z, NotSeparator) == z
    ensures Text.KeepChars(x + [c1] + y + [c2] + z, NotSeparator) == x + y + z
  {
    Text.KeepCharsSingle(c1, NotSeparator);
    Text.KeepCharsSingle(c2, NotSeparator);
    var u := x + [c1];
    Text.KeepCharsConcat(x, [c1], NotSeparator);
    assert Text.KeepChars(u, NotSeparator) == x;
    var v := u + y;
    Text.KeepCharsConcat(u, y, NotSeparator);
    assert Text.KeepChars(v, NotSeparator) == x + y;
    var w := v + [c2];
    Text.KeepCharsConcat(v, [c2], NotSeparator);
    assert Text.KeepChars(w, NotSeparator) == x + y;
    Text.KeepCharsConcat(w, z, NotSeparator);
    assert x + [c1] + y + [c2] + z == w + z;
  }

  /** A string without separators keeps every character. */
  lemma {:induction false} KeepAll(t: string)
    requires Text.AllDigits(t)
    ensures Text.KeepChars(t, NotSeparator) == t
  {
    if |t| > 0 {
      KeepAll(t[1..]);
      assert [t[0]] + t[1..] == t;
    }
  }
}

=== FILE: seqs.dfy ===
/** Sequence operations behind the pages' `Array.prototype.filter`,
    `Array.from(new Set(...))`, `reduce` sums and `some`. */
module Seqs {

  /** `a` is an order-preserving subsequence of `b` (greedy matching from the
      front decides this exactly). */
  predicate Subsequence<T(==)>(a: seq<T>, b: seq<T>)
    decreases |b|
  {
    if |a| == 0 then true
    else if |b| == 0 then false
    else if a[0] == b[0] then Subsequence(a[1..], b[1..])
    else Subsequence(a, b[1..])
  }

  /** `s.filter(p)`: the elements satisfying `p`, in their original order. */
  function Filter<T(==,!new)>(s: seq<T>, p: T -> bool): (r: seq<T>)
    ensures |r| <= |s|
    ensures forall i :: 0 <= i < |r| ==> p(r[i])
    ensures forall x :: x in r <==> x in s && p(x)
    ensures Subsequence(r, s)
  {
    if |s| == 0 then []
    else if p(s[0]) then
      var t := Filter(s[1..], p);
      assert ([s[0]] + t)[1..] == t;
      [s[0]] + t
    else
      Filter(s[1..], p)
  }

  /** `s.filter(p).length`. */
  function Count<T(==,!new)>(s: seq<T>, p: T -> bool): (n: nat)
    ensures n <= |s|
  {
    |Filter(s, p)|
  }

  /** Filtering distributes over concatenation; with `FilterSingleton` this
      pins `Filter` down as the order-preserving selection. */
  lemma {:induction false} FilterConcat<T(!new)>(a: seq<T>, b: seq<T>, p: T -> bool)
    ensures Filter(a + b, p) == Filter(a, p) + Filter(b, p)
  {
    if |a| > 0 {
      var ab := a + b;
      assert ab[0] == a[0] && ab[1..] == a[1..] + b;
      FilterConcat(a[1..], b, p);
      assert Filter(ab, p) == (if p(a[0]) then [a[0]] else []) + Filter(ab[1..], p);
      assert Filter(a, p) == (if p(a[0]) then [a[0]] else []) + Filter(a[1..], p);
    } else {
      assert a + b == b;
    }
  }

  lemma FilterSingleton<T(!new)>(x: T, p: T -> bool)
    ensures Filter([x], p) == if p(x) then [x] else []
  {
    assert [x][1..] == [];
  }

  /** Two predicates that are each other's negation on the elements of a
      sequence split it: the two counts add up. */
  lemma {:induction false} CountComplement<T(!new)>(s: seq<T>, p: T -> bool, q: T -> bool)
    requires forall i :: 0 <= i < |s| ==> (q(s[i]) <==> !p(s[i]))
    ensures Count(s, p) + Count(s, q) == |s|
  {
    if |s| > 0 {
      assert forall i :: 0 <= i < |s| - 1 ==> s[1..][i] == s[i + 1];
      CountComplement(s[1..], p, q);
    }
  }

  /** Three pairwise exclusive predicates that together cover every element
      partition the sequence. */
  lemma {:induction false} CountThreeWay<T(!new)>(s: seq<T>, p: T -> bool, q: T -> bool, r: T -> bool)
    requires forall x :: (p(x) || q(x) || r(x)) && !(p(x) && q(x)) && !(p(x) && r(x)) && !(q(x) && r(x))
    ensures Count(s, p) + Count(s, q) + Count(s, r) == |s|
  {
    if |s| > 0 {
      CountThreeWay(s[1..], p, q, r);
    }
  }

  /** A predicate true of every element keeps the whole sequence. */
  lemma {:induction false} FilterAll<T(!new)>(s: seq<T>, p: T -> bool)
    requires forall i :: 0 <= i < |s| ==> p(s[i])
    ensures Filter(s, p) == s
  {
    if |s| > 0 {
      FilterAll(s[1..], p);
      assert [s[0]] + s[1..] == s;
    }
  }

  /** Every element is kept exactly when the count is the full length. */
  lemma {:induction false} CountAll<T(!new)>(s: seq<T>, p: T -> bool)
    ensures Count(s, p) == |s| <==> forall i :: 0 <= i < |s| ==> p(s[i])
  {
    if |s| > 0 {
      assert forall i :: 0 <= i < |s| - 1 ==> s[1..][i] == s[i + 1];
      CountAll(s[1..], p);
      assert !p(s[0]) ==> Count(s, p) == Count(s[1..], p);
      if forall i :: 0 <= i < |s| ==> p(s[i]) {
        FilterAll(s, p);
      }
    }
  }

  /** Filtering twice is filtering once by the conjunction. */
  lemma {:induction false} FilterFilter<T(!new)>(s: seq<T>, p: T -> bool, q: T -> bool, pq: T -> bool)
    requires forall x :: pq(x) <==> p(x) && q(x)
    ensures Filter(Filter(s, p), q) == Filter(s, pq)
  {
    if |s| > 0 {
      FilterFilter(s[1..], p, q, pq);
      if p(s[0]) {
        var t := Filter(s[1..], p);
        assert ([s[0]] + t)[0] == s[0] && ([s[0]] + t)[1..] == t;
      }
    }
  }

  /** A predicate false of every element keeps nothing. */
  lemma {:induction false} FilterNone<T(!new)>(s: seq<T>, p: T -> bool)
    requires forall i :: 0 <= i < |s| ==> !p(s[i])
    ensures Filter(s, p) == []
  {
    if |s| > 0 {
      assert forall i :: 0 <= i < |s| - 1 ==> s[1..][i] == s[i + 1];
      FilterNone(s[1..], p);
    }
  }

  /** A predicate implied by another on every element keeps at least as many
      elements. */
  lemma {:induction false} CountMonotone<T(!new)>(s: seq<T>, p: T -> bool, q: T -> bool)
    requires forall i :: 0 <= i < |s| && p(s[i]) ==> q(s[i])
    ensures Count(s, p) <= Count(s, q)
  {
    if |s| > 0 {
      assert forall i :: 0 <= i < |s| - 1 ==> s[1..][i] == s[i + 1];
      CountMonotone(s[1..], p, q);
    }
  }

  /** No element occurs twice. */
  predicate NoDuplicates<T(==)>(s: seq<T>) {
    forall i, j :: 0 <= i < j < |s| ==> s[i] != s[j]
  }

  /** The set of elements of `s`. */
  function Elements<T>(s: seq<T>): set<T> {
    set x | x in s
  }

  /** A sequence has at least as many positions as distinct elements, and
      exactly as many when no element repeats. */
  lemma {:induction false} ElementsCard<T>(s: seq<T>)
    ensures |Elements(s)| <= |s|
    ensures NoDuplicates(s) ==> |Elements(s)| == |s|
  {
    if |s| > 0 {
      var t := s[..|s| - 1];
      var x := s[|s| - 1];
      assert s == t + [x];
      ElementsCard(t);
      assert Elements(s) == Elements(t) + {x};
      if NoDuplicates(s) {
        assert NoDuplicates(t);
        assert x !in Elements(t) by {
          assert forall i :: 0 <= i < |t| ==> t[i] == s[i];
        }
      }
    }
  }

  /** A subset has at most as many elements as its superset. */
  lemma {:induction false} SubsetCard<T>(a: set<T>, b: set<T>)
    requires a <= b
    ensures |a| <= |b|
    decreases |b|
  {
    if a != {} {
      var x :| x in a;
      SubsetCard(a - {x}, b - {x});
    }
  }

  /** A repetition-free sequence whose elements all occur in `b` is no longer
      than `b` (the pigeonhole principle). */
  lemma DistinctSubsetLength<T>(a: seq<T>, b: seq<T>)
    requires NoDuplicates(a)
    requires forall i :: 0 <= i < |a| ==> a[i] in b
    ensures |a| <= |b|
  {
    ElementsCard(a);
    ElementsCard(b);
    SubsetCard(Elements(a), Elements(b));
  }

  /** `Array.from(new Set(s))`: the distinct elements of `s` in the order of
      their first occurrence. */
  function Distinct<T(==,!new)>(s: seq<T>): (r: seq<T>)
    ensures |r| <= |s|
    ensures forall x :: x in r <==> x in s
    ensures NoDuplicates(r)
  {
    if |s| == 0 then []
    else
      var t := Distinct(s[..|s| - 1]);
      var last := s[|s| - 1];
      assert s == s[..|s| - 1] + [last];
      if last in s[..|s| - 1] then t else t + [last]
  }

  /** `new Set(s).size`: the distinct list is exactly as long as the set of
      values in `s`. */
  lemma DistinctCard<T(!new)>(s: seq<T>)
    ensures |Distinct(s)| == |Elements(s)|
  {
    ElementsCard(Distinct(s));
    assert Elements(Distinct(s)) == Elements(s);
  }

  /** Adding an element that is already present does not change the distinct
      values; adding a new one appends it. */
  lemma DistinctSnoc<T(!new)>(s: seq<T>, x: T)
    ensures Distinct(s + [x]) == if x in s then Distinct(s) else Distinct(s) + [x]
  {
    assert (s + [x])[..|s + [x]| - 1] == s;
  }

  /** `s.reduce((sum, x) => sum + x, 0)`. */
  function Sum(s: seq<int>): int {
    if |s| == 0 then 0 else Sum(s[..|s| - 1]) + s[|s| - 1]
  }

  /** A sum of non-negative terms is non-negative and at least each term. */
  lemma {:induction false} SumNonNegative(s: seq<int>)
    requires forall i :: 0 <= i < |s| ==> s[i] >= 0
    ensures Sum(s) >= 0
    ensures forall i :: 0 <= i < |s| ==> s[i] <= Sum(s)
  {
    if |s| > 0 {
      SumNonNegative(s[..|s| - 1]);
    }
  }

  /** A sum of zeros is zero. */
  lemma {:induction false} SumZeros(s: seq<int>)
    requires forall i :: 0 <= i < |s| ==> s[i] == 0
    ensures Sum(s) == 0
  {
    if |s| > 0 {
      SumZeros(s[..|s| - 1]);
    }
  }

  lemma SumConcat(a: seq<int>, b: seq<int>)
    ensures Sum(a + b) == Sum(a) + Sum(b)
    decreases |b|
  {
    if |b| > 0 {
      SumConcat(a, b[..|b| - 1]);
      assert (a + b)[..|a + b| - 1] == a + b[..|b| - 1];
    } else {
      assert a + b == a;
    }
  }

  /** The exact mean `total / n`, 0 for no items. */
  function Mean(total: int, n: nat): (m: real)
    ensures n == 0 ==> m == 0.0
    ensures n > 0 ==> m * (n as real) == total as real
    ensures total >= 0 ==> m >= 0.0
    ensures m == 0.0 <==> n == 0 || total == 0
  {
    if n == 0 then 0.0 else total as real / n as real
  }

  /** `Math.round(a / b)` for integers and a positive divisor: the integer
      nearest to a/b, halves rounded up, i.e. a/b - 1/2 < r <= a/b + 1/2. */
  function RoundDiv(a: int, b: int): (r: int)
    requires b > 0
    ensures 2 * a - b < 2 * b * r <= 2 * a + b
  {
    (2 * a + b) / (2 * b)
  }

  /** The rounded mean of a non-negative total lies between 0 and the total. */
  lemma RoundDivBounds(a: int, b: int)
    requires a >= 0 && b > 0
    ensures 0 <= RoundDiv(a, b) <= a
  {
    var r := RoundDiv(a, b);
    assert 2 * a * b - 2 * a == 2 * a * (b - 1);
    assert 2 * a * (b - 1) >= 0;
    assert 2 * b * (a + 1 - r) == 2 * a * b + 2 * b - 2 * b * r;
    PositiveFactor(2 * b, a + 1 - r);
    assert b * (2 * r + 1) == 2 * b * r + b;
    PositiveFactor(b, 2 * r + 1);
  }

  lemma PositiveFactor(x: int, y: int)
    requires x > 0 && x * y > 0
    ensures y > 0
  {
  }
}

=== FILE: text.dfy ===
/** String operations the pages use, on `string` = `seq<char>`: JavaScript's
    whitespace class and `trim`, ASCII case folding, substring search,
    `join`/`split`, decimal printing and parsing, and `padStart`. */
module Text {

  /** The characters JavaScript's `\s` class and `String.prototype.trim` treat
      as white space: the WhiteSpace and LineTerminator productions of
      ECMAScript (section 12.2 and 12.3 of ECMA-262). */
  predicate IsSpace(c: char) {
    || c == ' ' || c == '\t' || c == '\n' || c == '\r'
    || c == '\U{000B}' || c == '\U{000C}' || c == '\U{00A0}' || c == '\U{1680}'
    || ('\U{2000}' <= c <= '\U{200A}')
    || c == '\U{2028}' || c == '\U{2029}' || c == '\U{202F}' || c == '\U{205F}'
    || c == '\U{3000}' || c == '\U{FEFF}'
  }

  /** Every character of `s` is white space. */
  predicate AllSpace(s: string) {
    forall k :: 0 <= k < |s| ==> IsSpace(s[k])
  }

  /** `s.trimStart()`. */
  function TrimStart(s: string): (r: string)
    ensures |r| <= |s| && r == s[|s| - |r|..]
    ensures AllSpace(s[..|s| - |r|])
    ensures r == "" || !IsSpace(r[0])
  {
    if |s| > 0 && IsSpace(s[0]) then
      var r := TrimStart(s[1..]);
      assert s[..|s| - |r|] == [s[0]] + s[1..][..|s| - 1 - |r|];
      r
    else s
  }

  /** `s.trimEnd()`. */
  function TrimEnd(s: string): (r: string)
    ensures |r| <= |s| && r == s[..|r|]
    ensures AllSpace(s[|r|..])
    ensures r == "" || !IsSpace(r[|r| - 1])
  {
    if |s| > 0 && IsSpace(s[|s| - 1]) then
      var r := TrimEnd(s[..|s| - 1]);
      assert s[|r|..] == s[..|s| - 1][|r|..] + [s[|s| - 1]];
      r
    else s
  }

  /** `s.trim()`: white space removed from both ends. */
  function Trim(s: string): (r: string)
    ensures |r| <= |s|
    ensures r == "" || (!IsSpace(r[0]) && !IsSpace(r[|r| - 1]))
  {
    TrimEnd(TrimStart(s))
  }

  /** What `trim` keeps: a suffix `t` of `s` whose cut-off start is white
      space, and of that suffix a prefix whose cut-off end is white space. */
  lemma {:induction false} TrimKeepsMiddle(s: string)
    ensures var t := TrimStart(s);
            && |t| <= |s| && t == s[|s| - |t|..] && AllSpace(s[..|s| - |t|])
            && |Trim(s)| <= |t| && Trim(s) == t[..|Trim(s)|] && AllSpace(t[|Trim(s)|..])
  {
  }

  /** `!s.trim()`: the string is empty after trimming. */
  predicate IsBlank(s: string) {
    Trim(s) == ""
  }

  /** A string is blank after trimming exactly when it consists of white space. */
  lemma BlankIffAllSpace(s: string)
    ensures IsBlank(s) <==> AllSpace(s)
  {
    var t := TrimStart(s);
    if IsBlank(s) {
      assert AllSpace(t[0..]);
      assert s[..|s|] == s;
    } else {
      var r := Trim(s);
      assert r != "" && !IsSpace(r[0]);
      assert r == t[..|r|] && t == s[|s| - |t|..];
      assert r[0] == s[|s| - |t|];
    }
  }

  /** ASCII upper-case letters to lower case; every other character unchanged. */
  function LowerChar(c: char): (r: char)
    ensures 'A' <= c <= 'Z' ==> r as int == c as int + 32
    ensures !('A' <= c <= 'Z') ==> r == c
  {
    if 'A' <= c <= 'Z' then (c as int + 32) as char else c
  }

  /** `s.toLowerCase()`, reduced to ASCII letters. */
  function ToLower(s: string): (r: string)
    ensures |r| == |s|
    ensures forall k :: 0 <= k < |s| ==> r[k] == LowerChar(s[k])
  {
    seq(|s|, k requires 0 <= k < |s| => LowerChar(s[k]))
  }

  /** Lower-casing twice is lower-casing once. */
  lemma ToLowerIdempotent(s: string)
    ensures ToLower(ToLower(s)) == ToLower(s)
  {
  }

  /** `needle` is a prefix of `s`. */
  predicate IsPrefix(needle: string, s: string) {
    |needle| <= |s| && s[..|needle|] == needle
  }

  /** `hay.includes(needle)`: `needle` occurs in `hay` at some position. */
  predicate Contains(hay: string, needle: string)
    decreases |hay|
  {
    IsPrefix(needle, hay) || (|hay| > 0 && Contains(hay[1..], needle))
  }

  /** `needle` occurs in `hay` starting at position `i`. */
  predicate OccursAt(hay: string, needle: string, i: int) {
    0 <= i && i + |needle| <= |hay| && hay[i..i + |needle|] == needle
  }

  /** `Contains` agrees with the positional reading of `includes`. */
  lemma {:induction false} ContainsAt(hay: string, needle: string)
    ensures Contains(hay, needle) <==> exists i :: OccursAt(hay, needle, i)
    decreases |hay|
  {
    if IsPrefix(needle, hay) {
      assert OccursAt(hay, needle, 0);
    } else if |hay| == 0 {
      assert forall i :: !OccursAt(hay, needle, i);
    } else {
      ContainsAt(hay[1..], needle);
      if exists i :: OccursAt(hay, needle, i) {
        var i :| OccursAt(hay, needle, i);
        assert i != 0;
        assert hay[1..][i - 1..i - 1 + |needle|] == hay[i..i + |needle|];
        assert OccursAt(hay[1..], needle, i - 1);
      }
      if Contains(hay[1..], needle) {
        var i :| OccursAt(hay[1..], needle, i);
        assert hay[i + 1..i + 1 + |needle|] == hay[1..][i..i + |needle|];
        assert OccursAt(hay, needle, i + 1);
      }
    }
  }

  /** The empty string occurs in every string: an empty search matches all. */
  lemma ContainsEmpty(hay: string)
    ensures Contains(hay, "")
  {
    assert IsPrefix("", hay);
  }

  /** Case-insensitive `includes` as the pages write it:
      `hay.toLowerCase().includes(needle.toLowerCase())`. */
  predicate ContainsIgnoreCase(hay: string, needle: string) {
    Contains(ToLower(hay), ToLower(needle))
  }

  /** A case-insensitive search does not depend on the case of the needle. */
  lemma ContainsIgnoreCaseLowered(hay: string, needle: string)
    ensures ContainsIgnoreCase(hay, needle) <==> ContainsIgnoreCase(hay, ToLower(needle))
  {
    ToLowerIdempotent(needle);
  }

  /** `s.startsWith(prefix)`. */
  predicate StartsWith(s: string, prefix: string) {
    IsPrefix(prefix, s)
  }

  /** `parts.join(sep)`. */
  function Join(parts: seq<string>, sep: string): (r: string)
    ensures |parts| == 1 ==> r == parts[0]
    decreases |parts|
  {
    if |parts| == 0 then ""
    else if |parts| == 1 then parts[0]
    else parts[0] + sep + Join(parts[1..], sep)
  }

  /** With a non-empty separator, a join is empty exactly when there is
      nothing to join or a single empty part. */
  lemma JoinEmpty(parts: seq<string>, sep: string)
    requires sep != ""
    ensures Join(parts, sep) == "" <==> |parts| == 0 || (|parts| == 1 && parts[0] == "")
  {
    if |parts| > 1 {
      assert |Join(parts, sep)| >= |sep|;
    }
  }

  /** Splits `s` at every occurrence of `c`; the inverse of joining on `[c]`. */
  function Split(s: string, c: char): (r: seq<string>)
    ensures |r| >= 1
    decreases |s|
  {
    if |s| == 0 then [""]
    else if s[0] == c then [""] + Split(s[1..], c)
    else
      var t := Split(s[1..], c);
      [[s[0]] + t[0]] + t[1..]
  }

  /** A string free of `c` splits into itself. */
  lemma {:induction false} SplitFree(s: string, c: char)
    requires c !in s
    ensures Split(s, c) == [s]
  {
    if |s| > 0 {
      SplitFree(s[1..], c);
      assert [s[0]] + s[1..] == s;
    }
  }

  /** The first piece of a split is a prefix of the string, free of `c`. */
  lemma {:induction false} SplitHeadPrefix(s: string, c: char)
    ensures |Split(s, c)[0]| <= |s| && Split(s, c)[0] == s[..|Split(s, c)[0]|]
    ensures c !in Split(s, c)[0]
  {
    if |s| > 0 && s[0] != c {
      SplitHeadPrefix(s[1..], c);
      assert [s[0]] + s[1..] == s;
    }
  }

  /** Splitting `a + [c] + rest` where `a` is free of `c` yields `a` first. */
  lemma {:induction false} SplitCons(a: string, c: char, rest: string)
    requires c !in a
    ensures Split(a + [c] + rest, c) == [a] + Split(rest, c)
  {
    if |a| == 0 {
      assert a + [c] + rest == [c] + rest;
      assert ([c] + rest)[1..] == rest;
    } else {
      var s := a + [c] + rest;
      assert s[1..] == a[1..] + [c] + rest;
      SplitCons(a[1..], c, rest);
      assert [a[0]] + a[1..] == a;
    }
  }

  /** Naive joining on a one-character separator is undone by splitting on it,
      provided no part contains the separator. */
  lemma {:induction false} SplitJoin(parts: seq<string>, c: char)
    requires |parts| >= 1
    requires forall k :: 0 <= k < |parts| ==> c !in parts[k]
    ensures Split(Join(parts, [c]), c) == parts
  {
    if |parts| == 1 {
      SplitFree(parts[0], c);
    } else {
      SplitJoin(parts[1..], c);
      SplitCons(parts[0], c, Join(parts[1..], [c]));
      assert [parts[0]] + parts[1..] == parts;
    }
  }

  /** The decimal digit character for `d`. */
  function DigitChar(d: nat): (r: char)
    requires d < 10
    ensures '0' <= r <= '9'
  {
    ['0', '1', '2', '3', '4', '5', '6', '7', '8', '9'][d]
  }

  /** The value of a decimal digit character. */
  function DigitValue(c: char): (r: nat)
    requires '0' <= c <= '9'
    ensures r < 10
  {
    c as int - '0' as int
  }

  predicate IsDigit(c: char) {
    '0' <= c <= '9'
  }

  predicate AllDigits(s: string) {
    forall k :: 0 <= k < |s| ==> IsDigit(s[k])
  }

  /** `n.toString()` for a natural number. */
  function NatToString(n: nat): (r: string)
    ensures |r| >= 1 && AllDigits(r)
    ensures n < 10 <==> |r| == 1
    ensures 10 <= n < 100 <==> |r| == 2
    ensures r[0] != '0' || n == 0
  {
    if n < 10 then [DigitChar(n)]
    else NatToString(n / 10) + [DigitChar(n % 10)]
  }

  /** `n.toString()` for an integer: a minus sign before the magnitude. */
  function IntToString(n: int): (r: string)
    ensures n >= 0 ==> r == NatToString(n)
    ensures n < 0 ==> r == "-" + NatToString(-n)
  {
    if n < 0 then "-" + NatToString(-n) else NatToString(n)
  }

  /** The value of a string of decimal digits, read left to right. */
  function ParseNat(s: string): nat
    requires AllDigits(s)
  {
    if |s| == 0 then 0
    else ParseNat(s[..|s| - 1]) * 10 + DigitValue(s[|s| - 1])
  }

  /** Parsing a printed natural number gives it back. */
  lemma {:induction false} NatToStringRoundTrip(n: nat)
    ensures ParseNat(NatToString(n)) == n
  {
    if n >= 10 {
      NatToStringRoundTrip(n / 10);
      var s := NatToString(n);
      assert s[..|s| - 1] == NatToString(n / 10);
    }
  }

  /** `c` repeated `n` times. */
  function Repeat(c: char, n: nat): (r: string)
    ensures |r| == n
    ensures forall k :: 0 <= k < n ==> r[k] == c
  {
    if n == 0 then "" else [c] + Repeat(c, n - 1)
  }

  /** `s.padStart(width, c)` for a one-character pad. */
  function PadStart(s: string, width: nat, c: char): (r: string)
    ensures |s| >= width ==> r == s
    ensures |s| < width ==> |r| == width && r[width - |s|..] == s
    ensures |s| < width ==> forall k :: 0 <= k < width - |s| ==> r[k] == c
  {
    if |s| >= width then s else Repeat(c, width - |s|) + s
  }

  /** Leading zeros do not change the value of a decimal string. */
  lemma {:induction false} ParseNatLeadingZeros(z: nat, s: string)
    requires AllDigits(s)
    ensures AllDigits(Repeat('0', z) + s)
    ensures ParseNat(Repeat('0', z) + s) == ParseNat(s)
    decreases |s|
  {
    var t := Repeat('0', z) + s;
    if |s| == 0 {
      assert t == Repeat('0', z);
      ParseNatZeros(z);
    } else {
      ParseNatLeadingZeros(z, s[..|s| - 1]);
      assert t[..|t| - 1] == Repeat('0', z) + s[..|s| - 1];
    }
  }

  lemma {:induction false} ParseNatZeros(z: nat)
    ensures AllDigits(Repeat('0', z))
    ensures ParseNat(Repeat('0', z)) == 0
  {
    if z > 0 {
      ParseNatZeros(z - 1);
      var t := Repeat('0', z);
      assert t == Repeat('0', z - 1) + ['0'] by {
        RepeatSnoc(z - 1);
      }
      assert t[..|t| - 1] == Repeat('0', z - 1);
    }
  }

  lemma RepeatSnoc(n: nat)
    ensures Repeat('0', n + 1) == Repeat('0', n) + ['0']
  {
  }

  /** The characters of `s` that satisfy `keep`, in order (a regular-expression
      `replace` that deletes a character class). */
  function KeepChars(s: string, keep: char -> bool): (r: string)
    ensures |r| <= |s|
    ensures forall k :: 0 <= k < |r| ==> keep(r[k])
  {
    if |s| == 0 then ""
    else if keep(s[0]) then [s[0]] + KeepChars(s[1..], keep)
    else KeepChars(s[1..], keep)
  }

  /** Filtering characters distributes over concatenation. */
  lemma {:induction false} KeepCharsConcat(a: string, b: string, keep: char -> bool)
    ensures KeepChars(a + b, keep) == KeepChars(a, keep) + KeepChars(b, keep)
  {
    if |a| > 0 {
      assert (a + b)[1..] == a[1..] + b;
      KeepCharsConcat(a[1..], b, keep);
    } else {
      assert a + b == b;
    }
  }

  lemma KeepCharsSingle(c: char, keep: char -> bool)
    ensures KeepChars([c], keep) == if keep(c) then [c] else []
  {
    assert [c][1..] == [];
  }

  /** The position of the first occurrence of `c` in `s`. */
  function IndexOf(s: string, c: char): (i: nat)
    requires c in s
    ensures i < |s| && s[i] == c && c !in s[..i]
  {
    if s[0] == c then 0
    else
      var j := IndexOf(s[1..], c);
      assert s[..j + 1] == [s[0]] + s[1..][..j];
      j + 1
  }

  /** The first occurrence is the one with no earlier occurrence. */
  lemma IndexOfAt(s: string, c: char, i: nat)
    requires i < |s| && s[i] == c && c !in s[..i]
    ensures IndexOf(s, c) == i
  {
    var x := IndexOf(s, c);
    assert forall k :: 0 <= k < i ==> s[k] in s[..i];
    assert forall k :: 0 <= k < x ==> s[k] in s[..x];
  }

  /** `s.replace(from, to)` with a one-character string pattern: only the first
      occurrence is replaced. */
  function ReplaceFirst(s: string, from: char, to: char): (r: string)
    ensures |r| == |s|
    ensures from !in s ==> r == s
    ensures from in s ==> r == s[..IndexOf(s, from)] + [to] + s[IndexOf(s, from) + 1..]
  {
    if |s| == 0 then ""
    else if s[0] == from then [to] + s[1..]
    else
      var t := ReplaceFirst(s[1..], from, to);
      assert from in s ==> s[1..][IndexOf(s, from)..] == s[IndexOf(s, from) + 1..];
      [s[0]] + t
  }

  /** `s.slice(0, n)`. */
  function Prefix(s: string, n: nat): (r: string)
    ensures |r| == if n < |s| then n else |s|
    ensures IsPrefix(r, s)
  {
    if n < |s| then s[..n] else s
  }
}

=== FILE: upload_registration.dfy ===
/** Registration with uploaded photos
    (components/admin/image-upload-registration.tsx): the chosen files are
    screened for images, a simulated upload runs on a timer, single images
    can be removed, and the form is sent with the images. */
module UploadRegistration {
  import opened Wrappers
  import Text
  import Seqs
  import Registration

  const TooFew := "Please upload at least one facial image"

  /** A chosen file: its name and its MIME type. */
  datatype File = File(name: string, fileType: string)

  /** `pending` is the list the running interval will install. */
  datatype State = State(
    form: Registration.FormData,
    uploadedImages: seq<File>,
    uploadProgress: int,
    isUploading: bool,
    pending: seq<File>,
    error: string,
    isSubmitting: bool)

  predicate IsImage(f: File) {
    Text.StartsWith(f.fileType, "image/")
  }

  /** Lines 53-59: the image files, in order. */
  function ImageFiles(files: seq<File>): (r: seq<File>)
    ensures forall f :: f in r <==> f in files && IsImage(f)
    ensures Seqs.Subsequence(r, files)
  {
    Seqs.Filter(files, IsImage)
  }

  /** `handleFileChange`: nothing for no files or no image files (a toast in
      the latter case); else the simulated upload starts at 0. */
  function FilesChosen(s: State, files: Option<seq<File>>): (t: State)
    ensures files.None? || ImageFiles(files.value) == [] ==> t == s
    ensures files.Some? && ImageFiles(files.value) != [] ==>
      t == s.(isUploading := true, uploadProgress := 0, pending := ImageFiles(files.value))
    ensures t.uploadedImages == s.uploadedImages && t.form == s.form
  {
    if files.None? || |files.value| == 0 then s
    else
      var images := ImageFiles(files.value);
      if images == [] then s
      else s.(isUploading := true, uploadProgress := 0, pending := images)
  }

  /** One firing of the interval, which runs only while uploading: +10, and
      at 100 or more the upload ends and the image list is installed. */
  function Tick(s: State): (t: State)
    ensures !s.isUploading ==> t == s
    ensures s.isUploading ==> t.uploadProgress == s.uploadProgress + 10
    ensures s.isUploading && s.uploadProgress + 10 >= 100 ==> !t.isUploading && t.uploadedImages == s.pending
    ensures s.isUploading && s.uploadProgress + 10 < 100 ==> t.isUploading && t.uploadedImages == s.uploadedImages
    ensures t.pending == s.pending && t.form == s.form
  {
    if !s.isUploading then s
    else
      var p := s.uploadProgress + 10;
      if p >= 100 then s.(uploadProgress := p, isUploading := false, uploadedImages := s.pending)
      else s.(uploadProgress := p)
  }

  function Ticks(s: State, n: nat): State
    decreases n
  {
    if n == 0 then s else Ticks(Tick(s), n - 1)
  }

  /** A running upload at a multiple of ten below 100 finishes after the
      remaining ticks, with the pending images installed. */
  lemma {:induction false} TicksFinish(s: State, n: nat)
    requires s.isUploading && 0 <= s.uploadProgress < 100 && s.uploadProgress % 10 == 0
    requires n == (100 - s.uploadProgress) / 10
    ensures var t := Ticks(s, n);
            !t.isUploading && t.uploadProgress == 100 && t.uploadedImages == s.pending
    decreases n
  {
    var u := Tick(s);
    if u.isUploading {
      TicksFinish(u, n - 1);
    }
  }

  /** Choosing files with at least one image and letting ten ticks run
      installs exactly the image files, in the order chosen. */
  lemma UploadInstallsImages(s: State, files: seq<File>)
    requires ImageFiles(files) != []
    ensures var t := Ticks(FilesChosen(s, Some(files)), 10);
            !t.isUploading && t.uploadProgress == 100 && t.uploadedImages == ImageFiles(files)
  {
    TicksFinish(FilesChosen(s, Some(files)), 10);
  }

  /** `removeImage(index)`: every image except the one at `index`. */
  function RemoveAt(images: seq<File>, index: int): (r: seq<File>)
    ensures 0 <= index < |images| ==> r == images[..index] + images[index + 1..]
    ensures !(0 <= index < |images|) ==> r == images
  {
    if 0 <= index < |images| then images[..index] + images[index + 1..] else images
  }

  function RemoveImage(s: State, index: int): (t: State)
    ensures t == s.(uploadedImages := RemoveAt(s.uploadedImages, index))
  {
    s.(uploadedImages := RemoveAt(s.uploadedImages, index))
  }

  /** Removal shortens the list by one and keeps the others in order. */
  lemma RemoveAtKeepsOthers(images: seq<File>, index: nat)
    requires index < |images|
    ensures |RemoveAt(images, index)| == |images| - 1
    ensures forall k :: 0 <= k < index ==> RemoveAt(images, index)[k] == images[k]
    ensures forall k :: index <= k < |images| - 1 ==> RemoveAt(images, index)[k] == images[k + 1]
  {
  }

  datatype Request = Request(studentId: string, name: string, email: string, department: string, level: string, images: seq<File>)

  datatype Outcome = Outcome(state: State, request: Option<Request>, registered: Option<string>)

  /** `handleSubmit`: the checks in order, then the request; success clears
      the fields and the images. */
  function Submit(s: State, reply: Registration.Reply): (o: Outcome)
    ensures var check := Registration.Check(s.form, |s.uploadedImages|, 1, TooFew);
            check.Some? ==> o == Outcome(s.(error := check.value), None, None)
    ensures o.request.Some? <==> Registration.AllFilled(s.form) && Registration.IsNumeric(s.form.level) && |s.uploadedImages| > 0
    ensures o.request.Some? ==> o.request.value == Request(s.form.userId, s.form.fullName, s.form.email, s.form.department, s.form.level, s.uploadedImages)
    ensures o.registered.Some? <==> o.request.Some? && reply.Reply? && reply.ok
    ensures o.registered.Some? ==>
      o.registered.value == s.form.fullName && o.state == s.(form := Registration.Empty, uploadedImages := [], error := "", isSubmitting := false)
    ensures o.request.Some? && o.registered.None? ==> o.state == s.(error := Registration.FailureMessage(reply), isSubmitting := false)
  {
    var check := Registration.Check(s.form, |s.uploadedImages|, 1, TooFew);
    if check.Some? then Outcome(s.(error := check.value), None, None)
    else
      var request := Request(s.form.userId, s.form.fullName, s.form.email, s.form.department, s.form.level, s.uploadedImages);
      if reply.Reply? && reply.ok then
        Outcome(s.(form := Registration.Empty, uploadedImages := [], error := "", isSubmitting := false), Some(request), Some(s.form.fullName))
      else Outcome(s.(error := Registration.FailureMessage(reply), isSubmitting := false), Some(request), None)
  }

  /** Removing the only image brings back the image check. */
  lemma RemovingLastImageBlocks(s: State, reply: Registration.Reply)
    requires |s.uploadedImages| == 1 && Registration.AllFilled(s.form) && Registration.IsNumeric(s.form.level)
    ensures Submit(RemoveImage(s, 0), reply) == Outcome(RemoveImage(s, 0).(error := TooFew), None, None)
  {
  }
}

=== FILE: wrappers.dfy ===
/** Optional values: the model's reading of a JavaScript field that may be
    `undefined` or `null`. */
module Wrappers {

  datatype Option<+T> = None | Some(value: T) {

    /** The wrapped value, or `default` when there is none. */
    function GetOr(default: T): T {
      match this
      case Some(v) => v
      case None => default
    }
  }
}
